=== FILE: README.md ===
# Adaptive compressor: a Dafny model

This project models the engine of the adaptive compressor
(`adaptive_compressor.py`, class `AdaptiveCompressor`). The engine does the
following:

- It asks its marker finder for a bit pattern that never occurs in the input
  and uses that pattern as the marker. When no finder is attached, its own
  search looks for the shortest such pattern.
- It writes a header with a magic number, the format version, the marker, an
  MD5 digest and the original and compressed sizes.
- It cuts the data into chunks. For each chunk it predicts the best
  compression methods from cheap statistics, then measures them on the chunk.
  It may also grow a chunk whose method compresses well.
- A chunk is replaced by a package (marker, method id, varint original length,
  varint payload length, payload) only when that package is shorter than the
  chunk. An end package (marker, type 0) closes the stream.
- It keeps `chunk_stats` counters on the way.
- Decompression scans the body for markers. It copies the bytes between
  markers and undoes each package. It then pads or truncates the output to the
  original size and compares the MD5 digest.

The modules follow the parts of the source:

| Module | What it covers |
|---|---|
| `Common` | Bytes, little-endian integers (`struct.pack`) |
| `Bits` | Bit strings |
| `Varints` | `_encode_variable_length` and `_read_variable_length_int` |
| `Codecs` | The `method_lookup` registry as data |
| `Header` | `_create_header`, `_update_header_compressed_size`, `_parse_header` |
| `Marker` | The inline search of `_find_marker`; the marker fields of `_init_marker` |
| `Packages` | `_create_package`, `_create_end_package`, `_calculate_package_overhead`, `_validate_marker_position` |
| `Scanner` | The scanning loop of `_adaptive_decompress`, as a function |
| `Streams` | The layout of the compressed body, and its round trip |
| `Container` | A whole compressed file and `decompress` |
| `Analysis` | The repetition, variation and text scores |
| `Prediction` | `_predict_best_methods` |
| `Chunking` | `_process_chunk`, chunk plans and `chunk_stats` |
| `Compressor` | The `AdaptiveCompressor` class and its driving methods |

The compression methods are values of a `Codec` datatype, each made of:

- a compressor that may fail;
- a decompressor that is given the original length;
- the `should_use` test;
- a flag saying whether the class is a "Compatible" wrapper.

The entropy estimate `_calculate_entropy` and MD5 are function-valued
constants of the compressor object. The marker finder's `find_marker` is a
function-valued field that the constructor sets. Ratios and scores are exact reals.

The central results are:

- **`Container.ContainerRoundTrip` and `Compressor.AdaptiveCompressor.Compress`.** Take a file written with a one-byte marker of at most eight bits whose pattern occurs nowhere in the data. If every codec undoes its own output, that file decodes to the original data. The inline search finds such a marker whenever it searches the whole data and needs at most eight bits.
- **`Compressor.AdaptiveCompressor.DetermineOptimalChunk`.** When some predicted method beats the threshold, the method it picks is the first best among them, by the source's own criterion; otherwise it picks 255. The chunk size is where the extension loop stops under its 3% rule.
- **`Prediction.PredictChoice`.** The predicted methods are the highest-scoring available ids, in score order.
- **`Compressor.AdaptiveCompressor.AdaptiveCompress`.** The counters count every chunk exactly once.

## Model

| member | source | states |
|---|---|---|
| Varints.Varint | adaptive_compressor.py:1301-1322 | The encoding of a value is 1 to 4 bytes, exactly as many as the value's size class needs. Every byte except the last has its high bit set, and the last one has it clear. |
| Varints.EncodeVariableLength | adaptive_compressor.py:1301-1322 | Appending a value to the buffer adds exactly its varint encoding and leaves the buffer's earlier bytes in place. |
| Varints.VarintSize | adaptive_compressor.py:1383-1390 | The encoded size is between 1 and 4 bytes, by the thresholds 128, 16384 and 2097152. |
| Varints.VarintSizeMonotone | adaptive_compressor.py:1383-1390 | A larger value never has a shorter encoding. |
| Varints.ReadVarint | adaptive_compressor.py:1324-1364 | Reading inside the data consumes between 1 and 4 bytes and stays within the data. Reading at or past the end gives (0, position) without consuming anything. |
| Varints.ReadVariableLengthInt | adaptive_compressor.py:1324-1364 | The loop that reads continuation bytes (at most four bytes, stopping at the first byte whose high bit is clear) gives what `ReadVarint` specifies. |
| Varints.VarintRoundTrip | adaptive_compressor.py:1301-1364 | Reading back an encoded value, whatever surrounds it, gives the value modulo 2^28 and the position just after its encoding. |
| Varints.ReadVarintAt | adaptive_compressor.py:1324-1364 | The same round trip at any position where the encoding lies in a larger buffer. |
| Header.HeaderBytes | adaptive_compressor.py:528-585 | The header is 27 bytes plus the marker and the checksum long, 43 bytes plus the marker for an MD5 digest. |
| Header.HeaderLayout | adaptive_compressor.py:545-583 | The header holds the magic number at 0..4, the version at 4, the marker length at 9 and the marker from 10. Checksum type 1 and the checksum follow, then the original size in eight little-endian bytes and eight zero bytes for the compressed size. |
| Header.CreateHeader | adaptive_compressor.py:528-585 | The header is the field layout, with magic, version, size, marker length, marker, checksum type 1, checksum, original size and a zero compressed size. The header-size field holds the header's own length in little-endian order. |
| Header.UpdateHeaderCompressedSize | adaptive_compressor.py:587-604 | The last eight bytes become the little-endian compressed size and everything before them is unchanged. |
| Header.ParseHeader | adaptive_compressor.py:606-661 | Missing or wrong magic is rejected as BadMagic. A version above 2 is rejected as UnsupportedVersion. A parsed header has the magic, a supported version, a marker of (length+7)/8 bytes, and lies within the data. |
| Header.ParseHeaderRoundTrip | adaptive_compressor.py:528-661 | Parsing a header that `_create_header` and `_update_header_compressed_size` wrote, whatever follows it, gives back every field that was written. |
| Packages.Package | adaptive_compressor.py:1242-1280 | A package is the aligned marker, one type byte, the two varints and the payload, and its length is the sum of those. |
| Packages.EndPackage | adaptive_compressor.py:1282-1299 | The end package is the aligned marker followed by type 0. |
| Packages.PackageOverhead | adaptive_compressor.py:1366-1402 | The estimated overhead lies between marker+3 and marker+9 bytes. |
| Packages.PackageWithinOverhead | adaptive_compressor.py:1366-1402 | Every package whose payload is no longer than its original is at most the estimated overhead plus its payload. It is exactly that when both lengths fall in the same size class, as the estimate assumes. |
| Packages.KeptPackageIsShorter | adaptive_compressor.py:1193-1210 | A package kept by the test `compressed + overhead < chunk` is strictly shorter than the chunk it replaces. |
| Packages.ValidateMarkerPosition | adaptive_compressor.py:1548-1580 | A position is accepted only if the marker and a type byte both fit in the data. |
| Packages.PackagesValidate | adaptive_compressor.py:1548-1580 | Every package and the end package pass the marker-position validation wherever they are placed. |
| Packages.ValidateMarkerPositionExactly | adaptive_compressor.py:1558-1580 | A position is rejected when no byte follows the marker, or when the byte after it is neither 0 nor in 1..11 or 255. Every other position is accepted. |
| Marker.Sample | adaptive_compressor.py:447-453 | The sample has exactly n bytes. Byte i is the data byte at offset i*(len/n), which lies inside the data. |
| Marker.SampleLength | adaptive_compressor.py:449-453 | Taking every (len/n)-th byte of data longer than n yields at least n bytes, so cutting to n bytes never comes up short. |
| Marker.SampleBytes | adaptive_compressor.py:446-453 | The sampling loop of `_find_marker` (every len/n-th byte, cut to n) gives the sample function. |
| Marker.Scanned | adaptive_compressor.py:446-453 | The search covers the whole data exactly when the sample size is 0 or the data is no longer than it. Otherwise it covers exactly sample-size bytes, each taken from the data. |
| Marker.FindMarker | adaptive_compressor.py:430-526 | The marker is the bits of the searched data that never occur there, at the shortest such length (1 to 16 bits), packed into (length+7)/8 bytes with zero padding. Every shorter length has all its patterns occurring. When no length up to 16 works, the fallback is FF FF 00 00 with length 32. |
| Marker.MarkWindows | adaptive_compressor.py:467-483 | The `found` table flags a value exactly when some bit window of that length has that value. |
| Marker.FirstUnmarked | adaptive_compressor.py:492-494 | The result is the first unflagged value, or the table size if every value is flagged. |
| Marker.MarkerBytes | adaptive_compressor.py:495-512 | For the first missing value, the packed, padded bytes form a marker whose pattern occurs nowhere in the bits. |
| Marker.Pigeonhole | adaptive_compressor.py:459-526 | All 2^n patterns can occur only in data that has at least 2^n windows of n bits. |
| Marker.MarkerLengthBound | adaptive_compressor.py:459-526 | A marker of length L means the searched data holds at least 2^(L-1)+L-2 bits. So the fallback of length 32 needs more than 8 KiB of searched data. |
| Marker.AlignedMarker | adaptive_compressor.py:239-286 | `_init_marker` succeeds exactly when the marker has bits and bytes. The aligned marker is then non-empty. |
| Marker.AlignedMarkerIdentity | adaptive_compressor.py:262-286 | A marker whose padding bits are zero, as `_find_marker` makes them, is its own aligned form. |
| Marker.AlignedSmallMarker | adaptive_compressor.py:263-266 | A marker of at most 8 bits aligns to one byte holding its pattern left-aligned. |
| Marker.AlignedByteAbsent | adaptive_compressor.py:262-266 | Whatever its padding bits, a marker of at most 8 bits whose pattern occurs at no bit offset of the data aligns to one byte that does not occur in the data. |
| Marker.MarkerByteAbsent | adaptive_compressor.py:459-519 | If a pattern of at most 8 bits occurs nowhere in the data's bits, then the byte holding it left-aligned occurs nowhere in the data. |
| Marker.PatternOccursIffValue | adaptive_compressor.py:474-483 | A bit pattern occurs in the data exactly when some window has the pattern's value. Counting windows by value is therefore the pattern search. |
| Scanner.NextMarker | adaptive_compressor.py:1432-1437 | A found marker position lies at or after the start and holds the aligned marker. |
| Scanner.NextMarkerIsFirst | adaptive_compressor.py:1432-1437 | The position found is the first one holding the marker. If none is found, no later position holds it. |
| Scanner.SearchMarker | adaptive_compressor.py:1432-1437 | The search loop returns -1 exactly when no marker follows. Otherwise it returns the first marker position. |
| Scanner.Fit | adaptive_compressor.py:1531-1546 | The output gets exactly the original size, keeps its own bytes up to that size, and is zero-padded beyond its end. |
| Scanner.FitExact | adaptive_compressor.py:1531-1546 | Output of the right length is left unchanged. |
| Scanner.Unpack | adaptive_compressor.py:1510-1523 | A registered codec that decodes the payload gives its output. An unknown type or a failing codec gives original-length zero bytes. |
| Scanner.ScanUnfold | adaptive_compressor.py:1431-1455 | Without a further marker the rest of the data is copied. Otherwise the bytes up to the marker are copied and what follows the marker is read. |
| Scanner.AfterMarkerCases | adaptive_compressor.py:1457-1477 | The end of the data or type 0 ends the scan. A type byte that is no package type puts the marker and that byte back as data and scans on after them. |
| Scanner.ReadPackageShort | adaptive_compressor.py:1479-1498 | Missing either length field ends the scan. A payload running past the end leaves the rest of the data, from after the lengths, as it is. |
| Scanner.ScanSkip | adaptive_compressor.py:1439-1452 | Bytes before the next marker are copied through as raw data. |
| Scanner.ScanAtMarker | adaptive_compressor.py:1454-1455 | At a marker, scanning continues after the marker's bytes. |
| Scanner.ReadPackageStep | adaptive_compressor.py:1462-1523 | After a marker, a known package type with its two varints and a payload inside the data gives the unpacked chunk, and scanning resumes after the payload. |
| Streams.EncodePiece | adaptive_compressor.py:1152-1240 | A raw chunk is written as itself. A package starts with the aligned marker followed by its method id. |
| Streams.EncodeStream | adaptive_compressor.py:724-733 | The body is the pieces followed by the end package, one marker plus one byte longer than the pieces. |
| Streams.ScanPackage | adaptive_compressor.py:1462-1523 | Scanning a valid package gives back its chunk, then continues after the package. |
| Streams.ScanPieces | adaptive_compressor.py:1404-1546 | When every marker in a body starts a genuine package, scanning the pieces gives back exactly their chunks. |
| Streams.OneByteGenuine | adaptive_compressor.py:1432-1437 | With a one-byte marker absent from every raw chunk, each marker the scan finds is a genuine package. |
| Streams.StreamRoundTrip | adaptive_compressor.py:1404-1546 | Decompressing the body of valid pieces with a one-byte marker absent from the raw chunks gives back the data they stand for. |
| Container.EncodeContainer | adaptive_compressor.py:321-345 | The file is exactly the header followed by the body. |
| Container.WriteContainer | adaptive_compressor.py:321-345 | The header steps of `compress` (create, note the size, fill in the compressed size, prepend) write that file and report the header's size. |
| Container.HeaderFault | adaptive_compressor.py:563-583 | `_create_header` fails exactly on a marker length above 255, an original size of 2^64 or more, or a header of 2^32 bytes or more. A marker length that does not fit is reported as such. |
| Container.DecodeContainer | adaptive_compressor.py:354-428 | A header that does not parse is reported with its reason. Successful output has exactly the recorded original size and the recorded MD5 digest. |
| Container.ContainerRoundTrip | adaptive_compressor.py:288-428 | A file holding the pieces of the data, written with the aligned form of a one-byte marker whose pattern occurs nowhere in the data, decodes to the data when every package is one the scanner can undo. |
| Container.CompressedFileDecodes | adaptive_compressor.py:288-428 | The same round trip stated for the file that `compress` writes, whatever the padding bits of the marker. |
| Analysis.ScoreSample | adaptive_compressor.py:966-1030 | The scores look at exactly 1000 sampled bytes of a longer input, and at the whole of a shorter one. |
| Analysis.PairScore | adaptive_compressor.py:966-1011 | The repetition and variation scores are fractions between 0 and 1. |
| Analysis.TextScore | adaptive_compressor.py:1013-1030 | The text score is a fraction between 0 and 1. |
| Analysis.RepetitionScore | adaptive_compressor.py:966-987 | The repetition score is a fraction between 0 and 1, and 0 for fewer than four bytes. |
| Analysis.VariationScore | adaptive_compressor.py:989-1011 | The variation score is a fraction between 0 and 1, and 0 for fewer than four bytes. |
| Analysis.RepetitionBelowVariation | adaptive_compressor.py:966-1011 | The repetition score never exceeds the variation score: equal neighbours are less than 32 apart. |
| Analysis.CalculatePairScore | adaptive_compressor.py:966-1011 | The counting loop over neighbouring pairs gives the pair-score function, and 0 for fewer than four bytes. |
| Analysis.CalculateRepetitionScore | adaptive_compressor.py:966-987 | `_calculate_repetition_score` is the fraction of equal neighbours, within [0, 1]. |
| Analysis.CalculateVariationScore | adaptive_compressor.py:989-1011 | `_calculate_variation_score` is the fraction of neighbours less than 32 apart, within [0, 1]. |
| Analysis.CalculateTextScore | adaptive_compressor.py:1013-1030 | `_calculate_text_score` is the fraction of printable and whitespace bytes, and 0 for empty data. |
| Analysis.RepetitionScoreExtremes | adaptive_compressor.py:966-987 | A repetition score of 1 means every sampled byte equals the next one. A score of 0 means none does. |
| Analysis.TextScoreExtremes | adaptive_compressor.py:1013-1030 | A text score of 1 means every sampled byte is text. A score of 0 means none is. |
| Prediction.Predict | adaptive_compressor.py:858-945 | The prediction always ends with 255. Entropy above 7.8 gives just [255]. At most max_methods ids come before the 255. |
| Prediction.BaseScore | adaptive_compressor.py:884-914 | With an entropy in [0, 8] and scores in [0, 1], every method's formula gives a score between -8 and 12. |
| Prediction.MethodScore | adaptive_compressor.py:920-931 | The adjusted score is above the formula's exactly for the safe methods 1, 2, 3, 4 and 6. It is below exactly for a ZStandard or Brotli codec that is not a Compatible class, and equal otherwise. |
| Prediction.Candidates | adaptive_compressor.py:934-935 | Counting up from an id, at most the remaining ids up to 11 are candidates. |
| Prediction.CandidatesFacts | adaptive_compressor.py:935-937 | The candidates are exactly the available ids 1..11, in increasing order. |
| Prediction.Rank | adaptive_compressor.py:937-938 | Sorting by score loses and adds no id: the result is a permutation of the ids. |
| Prediction.InsertRanked | adaptive_compressor.py:938-940 | Inserting an id into a ranked list, after every id with the same score, keeps it ranked. |
| Prediction.RankRanked | adaptive_compressor.py:938-940 | Sorting ids given in increasing order puts them in score order, with ties kept in id order as Python's stable sort keeps them. |
| Prediction.Top | adaptive_compressor.py:940-941 | The top k are a prefix of the ranked ids, of length min(k, available). |
| Prediction.RankedTop | adaptive_compressor.py:941-942 | The top k of a ranked list are ranked, and each comes before every id left out. |
| Prediction.PredictChoice | adaptive_compressor.py:858-945 | Below the entropy cut-off, the chosen ids number min(max_methods, available), are available ids 1..11, and are in score order. No available id left out scores higher than any chosen one. |
| Chunking.Keeps | adaptive_compressor.py:1187-1203 | A chunk is kept as a package only with a registered method other than 255 that compresses it, and only when the package is strictly shorter than the chunk. |
| Chunking.Decide | adaptive_compressor.py:1152-1240 | The piece keeps the chunk, and is a package exactly when the statistics say compressed. The chunk's bytes are split exactly among compressed size, overhead and bytes saved. A package's statistics carry its method, its payload length and the estimated overhead. |
| Chunking.DecideFacts | adaptive_compressor.py:1176-1240 | A package is made exactly when the method is available, compresses without failing, and passes the keep test. A package is strictly shorter than its chunk and carries the requested method. Otherwise the chunk stays raw with method 255 and nothing saved. |
| Chunking.DecidedPieceValid | adaptive_compressor.py:1190-1221 | With a well-formed, invertible registry, every package made is one the scanner can undo. |
| Chunking.TilingExtend | adaptive_compressor.py:704-713 | Adding the next chunk at the current position extends a plan that covers the data so far. |
| Chunking.TiledChunks | adaptive_compressor.py:704-733 | The chunks of a plan that covers the data, put together, are the data. |
| Chunking.PlannedPieces | adaptive_compressor.py:704-733 | Processing a covering plan gives pieces whose chunks make up the data. Each chunk holds 1 to 64 KiB and none encodes longer than its chunk. |
| Chunking.FreshStats | adaptive_compressor.py:680-689 | The reset counters have a zero count for every registered method. |
| Chunking.Record | adaptive_compressor.py:1062-1071 | Recording a chunk adds one to the chunk count and to exactly one of compressed and raw. A compressed chunk adds one use of its method, and no other method's count changes. |
| Chunking.TallyStep | adaptive_compressor.py:1062-1071 | Recording one processed chunk keeps every counter equal to its sum over the pieces so far. The compressed size is the payloads' total, the overhead is the packages' estimated overheads, and the bytes saved are the rest of the packed chunks. |
| Chunking.TallyOverhead | adaptive_compressor.py:724-733 | Adding the end package and the header to the overhead keeps the counters consistent with the pieces. |
| Chunking.UsageIncrement | adaptive_compressor.py:1066-1068 | Counting one use of a method adds exactly one to the total method usage. |
| Chunking.SizeIncrement | adaptive_compressor.py:823 | The extension step is at least 1 KiB and at least a quarter of the base size. |
| Chunking.BelowThresholdRatio | adaptive_compressor.py:776-821 | The whole-number test is the source's ratio test: below 1.0 for the short last chunk, below 0.95 otherwise. |
| Compressor.MaxSize | adaptive_compressor.py:766 | The largest chunk at a position holds 1 to 64 KiB and ends within the data. |
| Compressor.RatioOrder | adaptive_compressor.py:783-814 | Over one chunk, the smaller ratio is the shorter output. |
| Compressor.AdaptiveCompressor.constructor | adaptive_compressor.py:89-140 | The configuration is stored and the marker finder is attached. The marker bytes are empty (`None`), the length is 0 and the pattern empty; the fields `__init__` does not create start empty and the counters zero and consistent. |
| Compressor.AdaptiveCompressor.InitMarker | adaptive_compressor.py:239-286 | Succeeds exactly when an aligned marker exists. It sets the marker bytes, length and pattern. On success it also sets the aligned marker and its byte length; on failure, as where `int('', 2)` raises, it leaves them. |
| Compressor.AdaptiveCompressor.ChooseMarker | adaptive_compressor.py:310-317 | The marker is the attached finder's answer, or the inline search's when none is attached: then it has 1 to 32 bits, and with at most 8 bits found in the whole data it is one byte whose pattern occurs nowhere in the data. It is installed with its pattern. Initialisation succeeds exactly when an aligned marker exists, and then sets it and its byte length. |
| Compressor.AdaptiveCompressor.Compress | adaptive_compressor.py:288-352 | A marker without bits fails and keeps the old aligned marker, and a header that cannot be written fails with `_create_header`'s reason; both keep the counters. A success writes the header followed by the body of the data's pieces, at most one end package longer than the data. With a one-byte marker whose pattern is absent from the data and invertible codecs, the file decodes to the data. The counters tally the pieces, the end package and the header. |
| Compressor.AdaptiveCompressor.CompressBody | adaptive_compressor.py:321-345 | Header, body and counter steps of `compress`: only a body of 2^64 bytes or more fails. The file holds the pieces, which are valid when the registry is, and the counters tally them. |
| Compressor.AdaptiveCompressor.Decompress | adaptive_compressor.py:354-428 | The result is the file's decoding: the reason for a bad header, a bad marker, a checksum mismatch, or the data. A bad header leaves the marker fields alone. Otherwise the marker bytes, length and pattern come from the header, and the aligned marker and its byte length are set when the marker has bits. |
| Compressor.AdaptiveCompressor.CreatePackage | adaptive_compressor.py:1242-1280 | The package is built with the installed aligned marker. |
| Compressor.AdaptiveCompressor.CreateEndPackage | adaptive_compressor.py:1282-1299 | The end package is built with the installed aligned marker. |
| Compressor.AdaptiveCompressor.ProcessChunk | adaptive_compressor.py:1152-1240 | The piece and its statistics are the decision for the chunk. The bytes returned are that piece's encoding. |
| Compressor.AdaptiveCompressor.PredictBestMethods | adaptive_compressor.py:858-945 | The ids are the prediction from the chunk's entropy and its three scores. |
| Compressor.AdaptiveCompressor.TestMethods | adaptive_compressor.py:778-818 | The method chosen is a usable predicted one whose ratio is below 1 and no larger than any other usable prediction's ratio. Every usable prediction listed before it has a strictly larger ratio, as the strict `<` keeps the first of equal ratios. With none, the ratio stays 1.0. |
| Compressor.AdaptiveCompressor.Probe | adaptive_compressor.py:769-799 | The probe is the first min(base, max size) bytes at the position, and is never empty. |
| Compressor.AdaptiveCompressor.PickMethod | adaptive_compressor.py:769-856 | The method is the best among the predictions by the threshold criterion. A method is found exactly when some prediction beats the threshold. Then it is the first best usable prediction and is below the threshold; otherwise the method is 255. |
| Compressor.AdaptiveCompressor.DetermineOptimalChunk | adaptive_compressor.py:753-856 | Its contract is `ChunkDecision`: the size is 1 to max size. Up to the base size it is min(base, max size). A larger size lies on the extension grid and the chosen method is usable on it. The method is the first best among the predictions for the probe: when some prediction beats the threshold, it is the first of the smallest outputs, even where the 255 codec ties it. When none does, it is 255. Beyond the base size, a promising method's size is where the extension stops, and otherwise the size is the base. |
| Compressor.AdaptiveCompressor.ExtendChunk | adaptive_compressor.py:820-852 | The extended size lies between base and max size. Any size other than base is on the grid base + k*step, and the method is usable on it. It is the size where the extension stops. |
| Compressor.Extended | adaptive_compressor.py:820-852 | The size the extension reaches lies between its start and the max size. The method is usable on it when a step was taken. |
| Compressor.ExtendedOnGrid | adaptive_compressor.py:830-847 | The size reached is the start plus a whole number of steps. |
| Compressor.ExtendedStops | adaptive_compressor.py:830-847 | Where the extension ends, its loop stops: the next size is beyond the max size, or the method cannot be used on it, or its ratio exceeds 1.03 times the last ratio. |
| Compressor.AdaptiveCompressor.PlanChunks | adaptive_compressor.py:704-713 | The plan covers the data exactly, in order, with chunks of at most 64 KiB. Each entry holds the size and method that `_determine_optimal_chunk` picks at its position (`ChunkDecision`). |
| Compressor.AdaptiveCompressor.NextChunk | adaptive_compressor.py:704-713 | The next chunk starts at the position and holds 1 to max size bytes. Its size and method are the ones `_determine_optimal_chunk` picks there (`ChunkDecision`). |
| Compressor.AdaptiveCompressor.CompressChunksSequential | adaptive_compressor.py:1032-1076 | Each planned chunk is processed in order: result i is piece i's encoding. The counters are the old ones with these pieces recorded. |
| Compressor.AdaptiveCompressor.JoinPackages | adaptive_compressor.py:724-727 | Joining the results gives the encoding of the pieces. |
| Compressor.AdaptiveCompressor.AdaptiveCompress | adaptive_compressor.py:663-751 | The output is the body of pieces whose chunks make up the data. Each piece is `_process_chunk`'s result on an entry of the plan, whose size and method `_determine_optimal_chunk` picked at its position. Each chunk holds 1 to 64 KiB and no piece is longer than its chunk. The output is at most one end package longer than the data, and the pieces are valid when the registry is. The reset counters tally the pieces and the end package. |
| Compressor.AdaptiveCompressor.AdaptiveDecompress | adaptive_compressor.py:1404-1546 | The decompression loop gives the scan of the body, fitted to the original size. |
| Compressor.AdaptiveCompressor.DecompressTurn | adaptive_compressor.py:1431-1529 | One turn of the loop either ends the scan or emits a prefix of it and moves strictly forward. |
| Compressor.AdaptiveCompressor.ReadAfterMarker | adaptive_compressor.py:1457-1529 | What follows a marker is read as the scan specifies. Stopping ends the scan; otherwise the position moves strictly forward. |

## Left out

- File reading and writing, `_update_progress`, the debug prints and timing are not modelled. `compress` and `decompress` take and return bytes.
- `_calculate_compression_stats` and `_calculate_decompression_stats` are left out. They only compute floating-point reports.
- The parallel path `_compress_chunks_parallel` is left out, because it uses threads. Its result is the same pieces in plan order as the sequential path.
- `_initialize_compression_methods` and the bodies of the compression methods are left out. They are the `Codec` values of the registry, because they are foreign library code.
- `_calculate_entropy` is a parameter of the compressor and is not part of this model. Its result is an arbitrary real number.
- MD5 is a parameter returning 16 bytes.
- Floating-point ratios and scores are exact reals. Rounding is not modelled.
- The `marker_mask` field is not modelled: nothing reads it.
- `marker_finder.py` is not part of this model. `__init__` always attaches a `MarkerFinder` (line 104), so `compress` takes its marker from the finder's `find_marker`, which the model receives as a function. Nothing is assumed about its answer. The inline search of `_find_marker` (lines 446-526) runs only when `marker_finder` has been unset; it is modelled in full.
- Compressor.AdaptiveCompressor.Compress: the round trip is proved only for one-byte markers whose pattern occurs nowhere in the data.
  - For a longer marker found in the whole data, no aligned marker occurs inside a raw chunk. But the stream can still hold one that straddles the tail of a raw chunk and the start of the next package's marker, and the scan would stop there.
  - A marker from the finder, or one taken from a sample, is under no constraint at all.
- Compressor.AdaptiveCompressor.constructor: `__init__` (lines 89-140) does not create `marker_bytes_aligned`, `marker_byte_length` or `chunk_stats`. They first appear in `_init_marker` (lines 262-286) and `_adaptive_compress` (line 680). Reading them earlier raises `AttributeError` in the source; the model starts them empty and zero instead. `marker_bytes` starts as `None`, modelled as the empty sequence.
- The defaults of `__init__` (initial_chunk_size=4096, marker_max_length=32, sample_size=10000) are not modelled, and neither is the `chunk_size` alias that replaces `initial_chunk_size`. The constructor takes the values as given. `marker_max_length` only configures the `MarkerFinder`, which is not part of this model.
- `progress_callback`, `use_multithreading`, `max_workers` and `method_names` are not modelled. They only serve progress reports, threads and log messages.
- Prediction.Candidates: its own contract bounds only the length. That the candidates are exactly the available ids from 1 to 11, in increasing order, is stated by `Prediction.CandidatesFacts`.
- Compressor.AdaptiveCompressor.AdaptiveDecompress: the marker arguments of `_adaptive_decompress` are not taken, because the source ignores them and uses the installed aligned marker.
- The outer `except` of the package loop in `_adaptive_decompress` (lines 1524-1527) is not modelled. It is unreachable, because the reads guard every index.
- `decompress` writes its output before verifying the checksum. The model returns ChecksumMismatch instead of the data and does not model the write.
- `initial_chunk_size` is at least 1, as a type constraint. With 0, `_adaptive_compress` loops forever.
- Varints.VarintRoundTrip: values of 2^28 and above lose their high bits, as in the source's four-byte encoding. Chunks are at most 64 KiB, so no package reaches that.

=== FILE: analysis.dfy ===
/** The cheap statistics `_predict_best_methods` computes for a chunk
    (`_calculate_repetition_score`, `_calculate_variation_score` and
    `_calculate_text_score`): each looks at an even sample of at most 1000
    bytes and returns a fraction between 0 and 1. */
module Analysis {
  import opened Common
  import opened Marker

  /** The sample size of the three scores. */
  const ScoreSampleSize: nat := 1000

  /** The bytes a score looks at: an even sample of 1000 bytes of a longer
      input, else the input itself. */
  function ScoreSample(data: seq<byte>): (r: seq<byte>)
    ensures |data| > ScoreSampleSize ==> |r| == ScoreSampleSize
    ensures |data| <= ScoreSampleSize ==> r == data
  {
    if |data| > ScoreSampleSize then Sample(data, ScoreSampleSize)
    else data
  }

  /** Two neighbouring bytes are equal. */
  predicate Same(a: byte, b: byte)
  {
    a == b
  }

  /** Two neighbouring bytes differ by less than 32. */
  predicate SmallDelta(a: byte, b: byte)
  {
    -32 < a - b < 32
  }

  /** Bytes `_calculate_text_score` counts as text: printable ASCII, DEL,
      tab, line feed and carriage return. */
  predicate IsTextByte(b: byte)
  {
    32 <= b <= 127 || b == 9 || b == 10 || b == 13
  }

  /** The number of the first k neighbouring pairs of d that are close. */
  function Adjacent(d: seq<byte>, k: nat, close: (byte, byte) -> bool): (r: nat)
    requires k < |d|
    ensures r <= k
  {
    if k == 0 then 0
    else Adjacent(d, k - 1, close) + (if close(d[k - 1], d[k]) then 1 else 0)
  }

  /** The number of text bytes among the first k bytes of d. */
  function TextBytes(d: seq<byte>, k: nat): (r: nat)
    requires k <= |d|
    ensures r <= k
  {
    if k == 0 then 0 else TextBytes(d, k - 1) + (if IsTextByte(d[k - 1]) then 1 else 0)
  }

  /** The fraction of close neighbouring pairs in the sample of data; 0 for
      fewer than four bytes. */
  function PairScore(data: seq<byte>, close: (byte, byte) -> bool): (r: real)
    ensures 0.0 <= r <= 1.0
  {
    if |data| < 4 then 0.0
    else
      var d := ScoreSample(data);
      FractionBounds(Adjacent(d, |d| - 1, close), |d| - 1);
      (Adjacent(d, |d| - 1, close) as real) / ((|d| - 1) as real)
  }

  /** `_calculate_repetition_score`: the fraction of sampled neighbours
      that are equal. */
  function RepetitionScore(data: seq<byte>): (r: real)
    ensures 0.0 <= r <= 1.0
    ensures |data| < 4 ==> r == 0.0
  {
    PairScore(data, Same)
  }

  /** `_calculate_variation_score`: the fraction of sampled neighbours
      that differ by less than 32. */
  function VariationScore(data: seq<byte>): (r: real)
    ensures 0.0 <= r <= 1.0
    ensures |data| < 4 ==> r == 0.0
  {
    PairScore(data, SmallDelta)
  }

  /** Equal neighbours also differ by less than 32, so the variation score
      is never below the repetition score. */
  lemma RepetitionBelowVariation(data: seq<byte>)
    ensures RepetitionScore(data) <= VariationScore(data)
  {
    if |data| >= 4 {
      var d := ScoreSample(data);
      AdjacentMonotone(d, |d| - 1);
      var n := (|d| - 1) as real;
      var a, b := Adjacent(d, |d| - 1, Same) as real, Adjacent(d, |d| - 1, SmallDelta) as real;
      DivideMonotone(a, b, n);
    }
  }

  lemma DivideMonotone(a: real, b: real, n: real)
    requires a <= b && n > 0.0
    ensures a / n <= b / n
  {
    var x, y := a / n, b / n;
    assert x * n == a && y * n == b;
  }

  /** Counting equal neighbours never gives more than counting close ones. */
  lemma {:induction false} AdjacentMonotone(d: seq<byte>, k: nat)
    requires k < |d|
    ensures Adjacent(d, k, Same) <= Adjacent(d, k, SmallDelta)
  {
    if k > 0 {
      AdjacentMonotone(d, k - 1);
    }
  }

  /** `_calculate_text_score`: the fraction of text bytes in the sample of
      data; 0 for empty data. */
  function TextScore(data: seq<byte>): (r: real)
    ensures 0.0 <= r <= 1.0
  {
    if |data| == 0 then 0.0
    else
      var d := ScoreSample(data);
      FractionBounds(TextBytes(d, |d|), |d|);
      (TextBytes(d, |d|) as real) / (|d| as real)
  }

  /** The counting loop shared by the repetition and variation scores, with
      the sampling in front of it. */
  method CalculatePairScore(data: seq<byte>, close: (byte, byte) -> bool) returns (score: real)
    ensures score == PairScore(data, close)
  {
    if |data| < 4 {
      return 0.0;
    }
    var d := data;
    if |data| > ScoreSampleSize {
      d := SampleBytes(data, ScoreSampleSize);
    }
    assert d == ScoreSample(data);
    var count := 0;
    var i := 0;
    while i < |d| - 1
      invariant i <= |d| - 1
      invariant count == Adjacent(d, i, close)
    {
      if close(d[i], d[i + 1]) {
        count := count + 1;
      }
      i := i + 1;
    }
    score := (count as real) / ((|d| - 1) as real);
  }

  /** `_calculate_repetition_score`, loop included. */
  method CalculateRepetitionScore(data: seq<byte>) returns (score: real)
    ensures score == RepetitionScore(data)
    ensures 0.0 <= score <= 1.0
  {
    score := CalculatePairScore(data, Same);
  }

  /** `_calculate_variation_score`, loop included. */
  method CalculateVariationScore(data: seq<byte>) returns (score: real)
    ensures score == VariationScore(data)
    ensures 0.0 <= score <= 1.0
  {
    score := CalculatePairScore(data, SmallDelta);
  }

  /** `_calculate_text_score`, the sampling loop included. */
  method CalculateTextScore(data: seq<byte>) returns (score: real)
    ensures score == TextScore(data)
  {
    if |data| == 0 {
      return 0.0;
    }
    var d := data;
    if |data| > ScoreSampleSize {
      d := SampleBytes(data, ScoreSampleSize);
    }
    assert d == ScoreSample(data);
    var count := 0;
    var i := 0;
    while i < |d|
      invariant i <= |d|
      invariant count == TextBytes(d, i)
    {
      if IsTextByte(d[i]) {
        count := count + 1;
      }
      i := i + 1;
    }
    score := (count as real) / (|d| as real);
  }

  /** Every pair is close exactly when the count reaches the number of
      pairs, and none is exactly when it stays at zero. */
  lemma {:induction false} AdjacentExtremes(d: seq<byte>, k: nat, close: (byte, byte) -> bool)
    requires k < |d|
    ensures Adjacent(d, k, close) == k <==> forall j :: 0 <= j < k ==> close(d[j], d[j + 1])
    ensures Adjacent(d, k, close) == 0 <==> forall j :: 0 <= j < k ==> !close(d[j], d[j + 1])
  {
    if k > 0 {
      AdjacentExtremes(d, k - 1, close);
    }
  }

  /** The same for text bytes. */
  lemma {:induction false} TextBytesExtremes(d: seq<byte>, k: nat)
    requires k <= |d|
    ensures TextBytes(d, k) == k <==> forall j :: 0 <= j < k ==> IsTextByte(d[j])
    ensures TextBytes(d, k) == 0 <==> forall j :: 0 <= j < k ==> !IsTextByte(d[j])
  {
    if k > 0 {
      TextBytesExtremes(d, k - 1);
    }
  }

  /** A repetition score of 1 means every sampled byte equals the next one,
      and a score of 0 on four bytes or more means none does. */
  lemma RepetitionScoreExtremes(data: seq<byte>)
    requires |data| >= 4
    ensures var d := ScoreSample(data);
            (RepetitionScore(data) == 1.0 <==> forall j :: 0 <= j < |d| - 1 ==> d[j] == d[j + 1]) &&
            (RepetitionScore(data) == 0.0 <==> forall j :: 0 <= j < |d| - 1 ==> d[j] != d[j + 1])
  {
    var d := ScoreSample(data);
    AdjacentExtremes(d, |d| - 1, Same);
    FractionExtremes(Adjacent(d, |d| - 1, Same), |d| - 1);
  }

  /** A text score of 1 means every sampled byte is a text byte, and 0 on a
      non-empty input means none is. */
  lemma TextScoreExtremes(data: seq<byte>)
    requires |data| >= 1
    ensures var d := ScoreSample(data);
            (TextScore(data) == 1.0 <==> forall j :: 0 <= j < |d| ==> IsTextByte(d[j])) &&
            (TextScore(data) == 0.0 <==> forall j :: 0 <= j < |d| ==> !IsTextByte(d[j]))
  {
    var d := ScoreSample(data);
    TextBytesExtremes(d, |d|);
    FractionExtremes(TextBytes(d, |d|), |d|);
  }

  lemma FractionBounds(count: nat, total: nat)
    requires 0 < total && count <= total
    ensures 0.0 <= (count as real) / (total as real) <= 1.0
  {
  }

  lemma FractionExtremes(count: nat, total: nat)
    requires 0 < total && count <= total
    ensures (count as real) / (total as real) == 1.0 <==> count == total
    ensures (count as real) / (total as real) == 0.0 <==> count == 0
  {
  }

}

=== FILE: bits.dfy ===
/** The bit-level view of byte strings that the marker search works on.
    It mirrors the `bitarray` package in its default (big-endian) order:
    the bits of a byte are listed from the most significant one down,
    `int(s, 2)` reads a bit string as a binary number, `bin(v).zfill(n)`
    writes one, and `tobytes()` packs whole groups of eight bits. */
module Bits {
  import opened Common

  type Bit = b: int | 0 <= b < 2

  /** `bin(v)[2:].zfill(n)` for v < 2^n: the n low bits of v, most significant first. */
  function ToBits(v: nat, n: nat): (r: seq<Bit>)
    ensures |r| == n
  {
    if n == 0 then [] else ToBits(v / 2, n - 1) + [v % 2]
  }

  /** `int(s, 2)`: the binary number a bit string spells. */
  function BitsValue(bs: seq<Bit>): (r: nat)
    ensures r < Pow2(|bs|)
  {
    if bs == [] then 0 else 2 * BitsValue(bs[..|bs| - 1]) + bs[|bs| - 1]
  }

  /** n zero bits: the padding `_find_marker` and `_init_marker` append. */
  function ZeroBits(n: nat): (r: seq<Bit>)
    ensures |r| == n && AllZero(r)
  {
    seq(n, _ => 0)
  }

  predicate AllZero(bs: seq<Bit>)
  {
    forall i :: 0 <= i < |bs| ==> bs[i] == 0
  }

  /** The eight bits of one byte, most significant first. */
  function ByteBits(b: byte): (r: seq<Bit>)
    ensures |r| == 8
  {
    ToBits(b, 8)
  }

  /** `bitarray().frombytes(data)`. */
  function BitsOf(data: seq<byte>): (r: seq<Bit>)
    ensures |r| == 8 * |data|
  {
    if data == [] then [] else ByteBits(data[0]) + BitsOf(data[1..])
  }

  /** `bitarray.tobytes()` for a bit string whose length is a multiple of eight. */
  function PackBits(bs: seq<Bit>): (r: seq<byte>)
    requires |bs| % 8 == 0
    ensures 8 * |r| == |bs|
  {
    if bs == [] then [] else [BitsValue(bs[..8])] + PackBits(bs[8..])
  }

  /** Appends zero bits up to the next byte boundary. */
  function PadToByte(bs: seq<Bit>): (r: seq<Bit>)
    ensures |r| % 8 == 0 && |bs| <= |r| < |bs| + 8
    ensures r[..|bs|] == bs && AllZero(r[|bs|..])
  {
    bs + ZeroBits((8 - |bs| % 8) % 8)
  }

  /** The n bits starting at bit offset i. */
  function Window(bits: seq<Bit>, i: nat, n: nat): seq<Bit>
    requires i + n <= |bits|
  {
    bits[i..i + n]
  }

  /** The value of the n-bit window at offset i, as the marker search computes it. */
  function WindowValue(bits: seq<Bit>, i: nat, n: nat): (r: nat)
    requires i + n <= |bits|
    ensures r < Pow2(n)
  {
    BitsValue(Window(bits, i, n))
  }

  /** Reading back a written pattern gives its value. */
  lemma {:induction false} ValueOfToBits(v: nat, n: nat)
    requires v < Pow2(n)
    ensures BitsValue(ToBits(v, n)) == v
  {
    if n > 0 {
      var r := ToBits(v, n);
      assert r[..n - 1] == ToBits(v / 2, n - 1);
      ValueOfToBits(v / 2, n - 1);
    }
  }

  /** Writing back a read pattern at its own length gives the pattern. */
  lemma {:induction false} ToBitsOfValue(bs: seq<Bit>)
    ensures ToBits(BitsValue(bs), |bs|) == bs
  {
    if bs != [] {
      var init := bs[..|bs| - 1];
      ToBitsOfValue(init);
      var v := BitsValue(bs);
      assert v / 2 == BitsValue(init) && v % 2 == bs[|bs| - 1];
      assert bs == init + [bs[|bs| - 1]];
    }
  }

  /** Distinct patterns of one length have distinct values. */
  lemma BitsValueInjective(a: seq<Bit>, b: seq<Bit>)
    requires |a| == |b| && BitsValue(a) == BitsValue(b)
    ensures a == b
  {
    ToBitsOfValue(a);
    ToBitsOfValue(b);
  }

  /** Zero padding on the right shifts the value left. */
  lemma {:induction false} BitsValueZeros(bs: seq<Bit>, k: nat)
    ensures BitsValue(bs + ZeroBits(k)) == BitsValue(bs) * Pow2(k)
  {
    if k > 0 {
      var t := bs + ZeroBits(k);
      var t' := bs + ZeroBits(k - 1);
      assert t == t' + [0];
      assert t[..|t| - 1] == t';
      BitsValueZeros(bs, k - 1);
      var v, p := BitsValue(bs), Pow2(k - 1);
      assert BitsValue(t') == v * p;
      assert BitsValue(t) == 2 * BitsValue(t');
      assert Pow2(k) == 2 * p;
      DoubleProduct(v, p);
    } else {
      assert bs + ZeroBits(k) == bs;
    }
  }

  lemma DoubleProduct(v: int, p: int)
    ensures 2 * (v * p) == v * (2 * p)
  {
  }

  lemma {:induction false} BitsOfAppend(a: seq<byte>, b: seq<byte>)
    ensures BitsOf(a + b) == BitsOf(a) + BitsOf(b)
  {
    if a != [] {
      assert (a + b)[1..] == a[1..] + b;
      BitsOfAppend(a[1..], b);
    } else {
      assert a + b == b;
    }
  }

  /** Byte j of the data occupies bits 8j .. 8j+7 of its bit string. */
  lemma {:induction false} BitsOfByteAt(data: seq<byte>, j: nat)
    requires j < |data|
    ensures BitsOf(data)[8 * j..8 * j + 8] == ByteBits(data[j])
  {
    if j > 0 {
      BitsOfByteAt(data[1..], j - 1);
      assert BitsOf(data) == ByteBits(data[0]) + BitsOf(data[1..]);
    }
  }

  /** Packing and then unpacking is the identity. */
  lemma {:induction false} BitsOfPack(bs: seq<Bit>)
    requires |bs| % 8 == 0
    ensures BitsOf(PackBits(bs)) == bs
  {
    if bs != [] {
      var p := PackBits(bs);
      assert p[1..] == PackBits(bs[8..]);
      BitsOfPack(bs[8..]);
      ToBitsOfValue(bs[..8]);
      assert bs == bs[..8] + bs[8..];
    }
  }

  /** Unpacking and then packing is the identity. */
  lemma {:induction false} PackBitsOf(data: seq<byte>)
    ensures PackBits(BitsOf(data)) == data
  {
    if data != [] {
      var bs := BitsOf(data);
      assert bs[..8] == ByteBits(data[0]);
      assert bs[8..] == BitsOf(data[1..]);
      ValueOfToBits(data[0], 8);
      PackBitsOf(data[1..]);
    }
  }
}

=== FILE: chunking.dfy ===
/** The chunking policy of the compressor, as values: the keep-or-raw
    decision of `_process_chunk`, the chunk list the first pass of
    `_adaptive_compress` builds and the way it tiles the input, the
    counters `_compress_chunks_sequential` keeps, and the quantities
    `_determine_optimal_chunk` compares. */
module Chunking {
  import opened Common
  import opened Varints
  import opened Codecs
  import opened Packages
  import opened Streams

  /** No chunk is longer than 64 KiB. */
  const MaxChunkSize: nat := 65536

  /** The statistics dictionary `_process_chunk` returns with each chunk. */
  datatype ChunkStat = ChunkStat(
    compressed: bool,
    methodId: byte,
    originalSize: nat,
    compressedSize: nat,
    overhead: nat,
    bytesSaved: nat)

  /** The chunk is replaced by a package: a method other than 255 is
      registered for the id, it does not raise, and its output plus the
      overhead estimate is smaller than the chunk. */
  function Keeps(registry: Registry, aligned: seq<byte>, chunk: seq<byte>, methodId: byte): (r: bool)
    ensures r ==> methodId != NoCompressionId && methodId in registry && registry[methodId].compress(chunk).Some? &&
                  |Package(aligned, methodId, registry[methodId].compress(chunk).value, |chunk|)| < |chunk|
  {
    if methodId != NoCompressionId && methodId in registry && registry[methodId].compress(chunk).Some? &&
       |registry[methodId].compress(chunk).value| + PackageOverhead(|aligned|, |chunk|) < |chunk|
    then
      KeptPackageIsShorter(aligned, methodId, registry[methodId].compress(chunk).value, chunk);
      true
    else false
  }

  /** What `_process_chunk` returns: the piece standing for the chunk and
      its statistics. */
  function Decide(registry: Registry, aligned: seq<byte>, chunk: seq<byte>, methodId: byte): (r: (Piece, ChunkStat))
    ensures r.0.chunk == chunk && (r.0.Packed? <==> r.1.compressed)
    ensures r.1.originalSize == |chunk|
    ensures r.1.compressedSize + r.1.overhead + r.1.bytesSaved == |chunk|
    ensures r.0.Packed? ==> r.1.methodId == r.0.methodId && r.1.compressedSize == |r.0.payload| &&
                            r.1.overhead == PackageOverhead(|aligned|, |chunk|)
  {
    if Keeps(registry, aligned, chunk, methodId) then
      var compressed := registry[methodId].compress(chunk).value;
      var overhead := PackageOverhead(|aligned|, |chunk|);
      (Packed(methodId, chunk, compressed),
       ChunkStat(true, methodId, |chunk|, |compressed|, overhead, |chunk| - (|compressed| + overhead)))
    else
      (Raw(chunk), ChunkStat(false, NoCompressionId, |chunk|, |chunk|, 0, 0))
  }

  /** The piece is a package exactly when the method is kept; a package is
      strictly shorter than its chunk, so no piece is longer than its chunk;
      a raw chunk is reported with method 255 and nothing saved. */
  lemma DecideFacts(registry: Registry, aligned: seq<byte>, chunk: seq<byte>, methodId: byte)
    ensures var (piece, stat) := Decide(registry, aligned, chunk, methodId);
            (piece.Packed? <==> Keeps(registry, aligned, chunk, methodId)) &&
            |EncodePiece(aligned, piece)| <= |chunk| &&
            (piece.Packed? ==> |EncodePiece(aligned, piece)| < |chunk| &&
                               piece.methodId == methodId && stat.methodId == methodId) &&
            (piece.Raw? ==> stat.methodId == NoCompressionId && stat.bytesSaved == 0)
  {
    if Keeps(registry, aligned, chunk, methodId) {
      KeptPackageIsShorter(aligned, methodId, registry[methodId].compress(chunk).value, chunk);
    }
  }

  /** With a registry of method ids whose codecs undo their own output, the
      piece of a chunk of fewer than 2^28 bytes is one the scanner can
      unpack. */
  lemma DecidedPieceValid(registry: Registry, aligned: seq<byte>, chunk: seq<byte>, methodId: byte)
    requires WellFormedRegistry(registry) && InvertibleRegistry(registry)
    requires |chunk| < VarintLimit
    ensures ValidPiece(registry, Decide(registry, aligned, chunk, methodId).0)
  {
    if Keeps(registry, aligned, chunk, methodId) {
      var codec := registry[methodId];
      assert Invertible(codec);
      assert codec.decompress(codec.compress(chunk).value, |chunk|) == Some(chunk);
    }
  }

  /** One entry of the chunk list of the first pass: where the chunk
      starts, how long it is and the method chosen for it. */
  datatype ChunkPlan = ChunkPlan(position: nat, size: nat, methodId: byte)

  /** The chunk list covers offsets from .. end with non-empty chunks, each
      starting where the one before it ends. */
  predicate Tiling(plan: seq<ChunkPlan>, from: nat, end: nat)
    decreases |plan|
  {
    if plan == [] then from == end
    else plan[0].position == from && 1 <= plan[0].size && Tiling(plan[1..], from + plan[0].size, end)
  }

  /** A tiling never ends before it starts. */
  lemma {:induction false} TilingOrdered(plan: seq<ChunkPlan>, from: nat, end: nat)
    requires Tiling(plan, from, end)
    ensures from <= end && (plan == [] <==> from == end)
    decreases |plan|
  {
    if plan != [] {
      TilingOrdered(plan[1..], from + plan[0].size, end);
    }
  }

  /** A non-empty chunk starting at the end of a tiling extends it. */
  lemma {:induction false} TilingExtend(plan: seq<ChunkPlan>, from: nat, end: nat, next: ChunkPlan)
    requires Tiling(plan, from, end) && next.position == end && 1 <= next.size
    ensures Tiling(plan + [next], from, end + next.size)
    decreases |plan|
  {
    if plan == [] {
      assert [next][1..] == [];
    } else {
      assert (plan + [next])[1..] == plan[1..] + [next];
      TilingExtend(plan[1..], from + plan[0].size, end, next);
    }
  }

  /** Every chunk of a tiling lies between its start and its end. */
  lemma {:induction false} TilingWithin(plan: seq<ChunkPlan>, from: nat, end: nat)
    requires Tiling(plan, from, end)
    ensures forall i :: 0 <= i < |plan| ==>
              from <= plan[i].position && 1 <= plan[i].size && plan[i].position + plan[i].size <= end
    decreases |plan|
  {
    if plan != [] {
      TilingWithin(plan[1..], from + plan[0].size, end);
      TilingOrdered(plan[1..], from + plan[0].size, end);
      forall i | 1 <= i < |plan|
        ensures from <= plan[i].position && 1 <= plan[i].size && plan[i].position + plan[i].size <= end
      {
        assert plan[i] == plan[1..][i - 1];
      }
    }
  }

  /** `data[position:position + size]`, cut short at the end as Python's
      slices are. */
  function Slice(data: seq<byte>, position: nat, size: nat): (r: seq<byte>)
    ensures position + size <= |data| ==> r == data[position..position + size]
    ensures |r| <= size
  {
    data[Min(position, |data|)..Min(position + size, |data|)]
  }

  lemma {:induction false} EncodePiecesAppend(aligned: seq<byte>, ps: seq<Piece>, p: Piece)
    ensures EncodePieces(aligned, ps + [p]) == EncodePieces(aligned, ps) + EncodePiece(aligned, p)
  {
    if ps != [] {
      assert (ps + [p])[1..] == ps[1..] + [p];
      EncodePiecesAppend(aligned, ps[1..], p);
    } else {
      assert [p][1..] == [];
    }
  }

  /** The pieces cut from a tiling of the data from `from` on, in order,
      hold the data from `from` on. */
  lemma {:induction false} TiledChunks(data: seq<byte>, plan: seq<ChunkPlan>, pieces: seq<Piece>, from: nat)
    requires Tiling(plan, from, |data|) && |pieces| == |plan|
    requires forall i :: 0 <= i < |plan| ==> pieces[i].chunk == Slice(data, plan[i].position, plan[i].size)
    ensures from <= |data| && Chunks(pieces) == data[from..]
    decreases |plan|
  {
    TilingOrdered(plan, from, |data|);
    if plan != [] {
      var to := from + plan[0].size;
      var rest, restPieces := plan[1..], pieces[1..];
      forall i | 0 <= i < |rest|
        ensures restPieces[i].chunk == Slice(data, rest[i].position, rest[i].size)
      {
        assert rest[i] == plan[i + 1] && restPieces[i] == pieces[i + 1];
      }
      TiledChunks(data, rest, restPieces, to);
      assert pieces[0].chunk == data[from..to];
      assert data[from..] == data[from..to] + data[to..];
    }
  }

  /** Every byte of a chunk is a byte of the data the chunks make up. */
  lemma {:induction false} ChunkBytesInChunks(ps: seq<Piece>, i: nat, b: byte)
    requires i < |ps| && b in ps[i].chunk
    ensures b in Chunks(ps)
  {
    if i > 0 {
      ChunkBytesInChunks(ps[1..], i - 1, b);
    }
  }

  /** The piece `_process_chunk` makes of a planned chunk. */
  function PlannedPiece(registry: Registry, aligned: seq<byte>, data: seq<byte>, p: ChunkPlan): Piece
  {
    Decide(registry, aligned, Slice(data, p.position, p.size), p.methodId).0
  }

  /** The first |pieces| planned chunks, made into pieces, with their
      encodings in `results`. */
  predicate PlannedSoFar(registry: Registry, aligned: seq<byte>, data: seq<byte>, plan: seq<ChunkPlan>,
                         pieces: seq<Piece>, results: seq<seq<byte>>)
  {
    |results| == |pieces| <= |plan| &&
    forall j :: 0 <= j < |pieces| ==>
      pieces[j] == PlannedPiece(registry, aligned, data, plan[j]) && results[j] == EncodePiece(aligned, pieces[j])
  }

  lemma PlannedSoFarStep(registry: Registry, aligned: seq<byte>, data: seq<byte>, plan: seq<ChunkPlan>,
                         pieces: seq<Piece>, results: seq<seq<byte>>, piece: Piece, result: seq<byte>)
    requires PlannedSoFar(registry, aligned, data, plan, pieces, results) && |pieces| < |plan|
    requires piece == PlannedPiece(registry, aligned, data, plan[|pieces|]) && result == EncodePiece(aligned, piece)
    ensures PlannedSoFar(registry, aligned, data, plan, pieces + [piece], results + [result])
  {
  }

  /** Encoding one more piece of a list appends its bytes. */
  lemma EncodePiecesPrefix(aligned: seq<byte>, ps: seq<Piece>, i: nat)
    requires i < |ps|
    ensures EncodePieces(aligned, ps[..i + 1]) == EncodePieces(aligned, ps[..i]) + EncodePiece(aligned, ps[i])
  {
    assert ps[..i + 1] == ps[..i] + [ps[i]];
    EncodePiecesAppend(aligned, ps[..i], ps[i]);
  }

  /** The pieces `_process_chunk` makes of a tiling of the data with chunks
      of at most 64 KiB: their chunks make up the data, none is empty or
      longer than 64 KiB, none encodes to more bytes than its chunk (so the
      packages are no longer than the data), and with a well-formed,
      invertible registry every package is one the scanner can undo. */
  lemma PlannedPieces(registry: Registry, aligned: seq<byte>, data: seq<byte>, plan: seq<ChunkPlan>, pieces: seq<Piece>)
    requires Tiling(plan, 0, |data|) && |pieces| == |plan|
    requires forall i :: 0 <= i < |plan| ==> plan[i].size <= MaxChunkSize
    requires forall i :: 0 <= i < |plan| ==> pieces[i] == PlannedPiece(registry, aligned, data, plan[i])
    ensures Chunks(pieces) == data
    ensures forall i :: 0 <= i < |pieces| ==>
              1 <= |pieces[i].chunk| <= MaxChunkSize && |EncodePiece(aligned, pieces[i])| <= |pieces[i].chunk|
    ensures |EncodePieces(aligned, pieces)| <= |data|
    ensures WellFormedRegistry(registry) && InvertibleRegistry(registry) ==>
              forall i :: 0 <= i < |pieces| ==> ValidPiece(registry, pieces[i])
  {
    TilingWithin(plan, 0, |data|);
    forall i | 0 <= i < |plan|
      ensures pieces[i].chunk == Slice(data, plan[i].position, plan[i].size)
      ensures 1 <= |pieces[i].chunk| <= MaxChunkSize && |EncodePiece(aligned, pieces[i])| <= |pieces[i].chunk|
    {
      DecideFacts(registry, aligned, Slice(data, plan[i].position, plan[i].size), plan[i].methodId);
    }
    TiledChunks(data, plan, pieces, 0);
    assert data[0..] == data;
    EncodedNoLonger(aligned, pieces);
    if WellFormedRegistry(registry) && InvertibleRegistry(registry) {
      forall i | 0 <= i < |pieces|
        ensures ValidPiece(registry, pieces[i])
      {
        DecidedPieceValid(registry, aligned, Slice(data, plan[i].position, plan[i].size), plan[i].methodId);
      }
    }
  }

  /** Pieces no longer than their chunks encode to no more bytes than the
      chunks hold. */
  lemma {:induction false} EncodedNoLonger(aligned: seq<byte>, ps: seq<Piece>)
    requires forall i :: 0 <= i < |ps| ==> |EncodePiece(aligned, ps[i])| <= |ps[i].chunk|
    ensures |EncodePieces(aligned, ps)| <= |Chunks(ps)|
  {
    if ps != [] {
      assert forall i :: 0 <= i < |ps| - 1 ==> ps[1..][i] == ps[i + 1];
      EncodedNoLonger(aligned, ps[1..]);
    }
  }

  /** The number of pieces that are packages: `compressed_chunks`. */
  function PackedCount(ps: seq<Piece>): (r: nat)
    ensures r <= |ps|
  {
    if ps == [] then 0 else PackedCount(ps[..|ps| - 1]) + (if ps[|ps| - 1].Packed? then 1 else 0)
  }

  /** The chunk bytes that went into packages. */
  function PackedBytes(ps: seq<Piece>): nat
  {
    if ps == [] then 0 else PackedBytes(ps[..|ps| - 1]) + (if ps[|ps| - 1].Packed? then |ps[|ps| - 1].chunk| else 0)
  }

  /** The packages written with method `id`: its `method_usage` count. */
  function PackedWith(ps: seq<Piece>, id: byte): nat
  {
    if ps == [] then 0
    else PackedWith(ps[..|ps| - 1], id) + (if ps[|ps| - 1].Packed? && ps[|ps| - 1].methodId == id then 1 else 0)
  }

  /** The overhead estimates of the packages: what `overhead_bytes` gains
      from the chunks. */
  function PackedOverhead(alignedLength: nat, ps: seq<Piece>): nat
  {
    if ps == [] then 0
    else PackedOverhead(alignedLength, ps[..|ps| - 1]) +
         (if ps[|ps| - 1].Packed? then PackageOverhead(alignedLength, |ps[|ps| - 1].chunk|) else 0)
  }

  /** The codec output the packages carry: `compressed_size_without_overhead`. */
  function PayloadBytes(ps: seq<Piece>): nat
  {
    if ps == [] then 0
    else PayloadBytes(ps[..|ps| - 1]) + (if ps[|ps| - 1].Packed? then |ps[|ps| - 1].payload| else 0)
  }

  /** `chunk_stats`. */
  datatype Stats = Stats(
    totalChunks: nat,
    compressedChunks: nat,
    rawChunks: nat,
    methodUsage: map<byte, nat>,
    bytesSaved: nat,
    originalSize: nat,
    compressedSizeWithoutOverhead: nat,
    overheadBytes: nat,
    headerSize: nat)

  /** The counters as `_adaptive_compress` resets them for data of the
      given size. */
  function FreshStats(registry: Registry, originalSize: nat): (r: Stats)
    ensures r.methodUsage.Keys == registry.Keys && UsageTotal(r.methodUsage) == 0
  {
    ZeroUsageTotal(registry);
    Stats(0, 0, 0, ZeroUsage(registry), 0, originalSize, 0, 0, 0)
  }

  /** The counters `compress` starts from: fresh ones for data of the given
      size, with the end package and the header already counted as overhead
      and the header size recorded. */
  function StartStats(registry: Registry, originalSize: nat, endSize: nat, headerSize: nat): (r: Stats)
  {
    FreshStats(registry, originalSize).(overheadBytes := endSize + headerSize, headerSize := headerSize)
  }

  /** The counter update `_compress_chunks_sequential` makes for one chunk:
      it counts exactly one more chunk, as compressed or as raw, and for a
      compressed one exactly one more method use, under its own id. */
  function Record(s: Stats, stat: ChunkStat): (r: Stats)
    requires stat.compressed ==> stat.methodId in s.methodUsage
    ensures r.totalChunks == s.totalChunks + 1
    ensures r.compressedChunks + r.rawChunks == s.compressedChunks + s.rawChunks + 1
    ensures r.compressedChunks == s.compressedChunks + (if stat.compressed then 1 else 0)
    ensures r.methodUsage.Keys == s.methodUsage.Keys
    ensures UsageTotal(r.methodUsage) == UsageTotal(s.methodUsage) + (if stat.compressed then 1 else 0)
    ensures forall id :: id in s.methodUsage && (id != stat.methodId || !stat.compressed) ==>
              r.methodUsage[id] == s.methodUsage[id]
  {
    if stat.compressed then
      UsageIncrement(s.methodUsage, stat.methodId);
      s.(totalChunks := s.totalChunks + 1,
         compressedChunks := s.compressedChunks + 1,
         methodUsage := s.methodUsage[stat.methodId := s.methodUsage[stat.methodId] + 1],
         compressedSizeWithoutOverhead := s.compressedSizeWithoutOverhead + stat.compressedSize,
         overheadBytes := s.overheadBytes + stat.overhead,
         bytesSaved := s.bytesSaved + stat.bytesSaved)
    else
      s.(totalChunks := s.totalChunks + 1, rawChunks := s.rawChunks + 1)
  }

  /** The counters `s` are `s0` with the pieces recorded: one more chunk
      each, counted as compressed or raw; one more use of the method of each
      package; the payload bytes added to `compressed_size_without_overhead`;
      the overhead estimate of each package added to `overhead_bytes`; and
      what is left of each package's chunk added to `bytes_saved`. Nothing
      else changes. */
  predicate Tallied(s0: Stats, s: Stats, ps: seq<Piece>, alignedLength: nat)
  {
    s.totalChunks == s0.totalChunks + |ps| &&
    s.compressedChunks == s0.compressedChunks + PackedCount(ps) &&
    s.rawChunks == s0.rawChunks + (|ps| - PackedCount(ps)) &&
    s.methodUsage.Keys == s0.methodUsage.Keys &&
    (forall id :: id in s.methodUsage ==> s.methodUsage[id] == s0.methodUsage[id] + PackedWith(ps, id)) &&
    UsageTotal(s.methodUsage) == UsageTotal(s0.methodUsage) + PackedCount(ps) &&
    s.compressedSizeWithoutOverhead == s0.compressedSizeWithoutOverhead + PayloadBytes(ps) &&
    s.overheadBytes == s0.overheadBytes + PackedOverhead(alignedLength, ps) &&
    s.bytesSaved + PayloadBytes(ps) + PackedOverhead(alignedLength, ps) == s0.bytesSaved + PackedBytes(ps) &&
    s.originalSize == s0.originalSize && s.headerSize == s0.headerSize
  }

  /** Overhead outside the pieces (the end package, the header) keeps the
      tally when both sides count it. */
  lemma TallyOverhead(s0: Stats, s: Stats, ps: seq<Piece>, alignedLength: nat, extra: nat, headerSize: nat)
    requires Tallied(s0, s, ps, alignedLength)
    ensures Tallied(s0.(overheadBytes := s0.overheadBytes + extra, headerSize := headerSize),
                    s.(overheadBytes := s.overheadBytes + extra, headerSize := headerSize), ps, alignedLength)
  {
  }

  /** Recording the statistics of one more piece keeps the tally. */
  lemma TallyStep(s0: Stats, s: Stats, ps: seq<Piece>, alignedLength: nat, piece: Piece, stat: ChunkStat)
    requires Tallied(s0, s, ps, alignedLength)
    requires piece.Packed? <==> stat.compressed
    requires piece.Packed? ==> stat.methodId == piece.methodId && stat.methodId in s.methodUsage &&
                               stat.compressedSize == |piece.payload| &&
                               stat.overhead == PackageOverhead(alignedLength, |piece.chunk|) &&
                               stat.compressedSize + stat.overhead + stat.bytesSaved == |piece.chunk|
    ensures Tallied(s0, Record(s, stat), ps + [piece], alignedLength)
  {
    var grown := ps + [piece];
    assert grown[..|ps|] == ps;
  }

  /** The sum of the `method_usage` counters, over every id from k on. */
  function UsageFrom(usage: map<byte, nat>, k: nat): nat
    decreases 256 - k
  {
    if k >= 256 then 0
    else (if k as byte in usage then usage[k as byte] else 0) + UsageFrom(usage, k + 1)
  }

  /** The sum of all `method_usage` counters. */
  function UsageTotal(usage: map<byte, nat>): nat
  {
    UsageFrom(usage, 0)
  }

  /** The counters as `_adaptive_compress` resets them: zero for every
      registered id. */
  function ZeroUsage(registry: Registry): (r: map<byte, nat>)
    ensures r.Keys == registry.Keys
  {
    map id | id in registry :: 0
  }

  lemma {:induction false} ZeroUsageFrom(registry: Registry, k: nat)
    ensures UsageFrom(ZeroUsage(registry), k) == 0
    decreases 256 - k
  {
    if k < 256 {
      ZeroUsageFrom(registry, k + 1);
    }
  }

  /** The counters start with a zero sum. */
  lemma ZeroUsageTotal(registry: Registry)
    ensures UsageTotal(ZeroUsage(registry)) == 0
  {
    ZeroUsageFrom(registry, 0);
  }

  lemma {:induction false} UsageFromIncrement(usage: map<byte, nat>, id: byte, k: nat)
    requires id in usage
    ensures UsageFrom(usage[id := usage[id] + 1], k) == UsageFrom(usage, k) + (if k <= id then 1 else 0)
    decreases 256 - k
  {
    if k < 256 {
      UsageFromIncrement(usage, id, k + 1);
    }
  }

  /** Counting one more use of a registered id adds one to the sum. */
  lemma UsageIncrement(usage: map<byte, nat>, id: byte)
    requires id in usage
    ensures UsageTotal(usage[id := usage[id] + 1]) == UsageTotal(usage) + 1
  {
    UsageFromIncrement(usage, id, 0);
  }

  /** The method is registered, wants the chunk and compresses it without
      raising: the methods `_determine_optimal_chunk` measures. */
  predicate Usable(registry: Registry, id: byte, chunk: seq<byte>)
  {
    id in registry && registry[id].shouldUse(chunk) && registry[id].compress(chunk).Some?
  }

  /** The length of a usable method's output. */
  function CompressedSize(registry: Registry, id: byte, chunk: seq<byte>): nat
    requires Usable(registry, id, chunk)
  {
    |registry[id].compress(chunk).value|
  }

  /** `len(compressed) / size`. */
  function Ratio(n: nat, d: nat): real
    requires d > 0
  {
    (n as real) / (d as real)
  }

  /** `max(1024, base_size // 4)`: the step by which a promising chunk is
      extended. */
  function SizeIncrement(base: nat): (r: nat)
    ensures r >= 1024 && r >= base / 4
  {
    if base / 4 > 1024 then base / 4 else 1024
  }

  /** `size` is `base` plus a whole number of increments: the sizes
      `range(base + increment, ..., increment)` visits, and base itself. */
  predicate OnGrid(size: nat, base: nat, increment: nat)
    decreases size
  {
    size == base || (increment >= 1 && size >= base + increment && OnGrid(size - increment, base, increment))
  }

  /** A size on the grid from one step up is on the grid from the start. */
  lemma {:induction false} OnGridShift(size: nat, base: nat, increment: nat)
    requires OnGrid(size, base + increment, increment)
    ensures OnGrid(size, base, increment)
    decreases size
  {
    if size != base + increment {
      OnGridShift(size - increment, base, increment);
    }
  }

  /** The ratio a method must beat to be chosen: below 1 for the last
      short chunk, below 0.95 otherwise. */
  function Threshold(last: bool): real
  {
    if last then 1.0 else 0.95
  }

  /** `len(compressed) / size` beats the threshold, in whole numbers. */
  predicate BelowThreshold(compressedSize: nat, size: nat, last: bool)
  {
    if last then compressedSize < size else 100 * compressedSize < 95 * size
  }

  /** The whole-number comparison is the ratio comparison the source makes. */
  lemma BelowThresholdRatio(compressedSize: nat, size: nat, last: bool)
    requires size > 0
    ensures BelowThreshold(compressedSize, size, last) <==> Ratio(compressedSize, size) < Threshold(last)
  {
    var n, c := size as real, compressedSize as real;
    DivLess(c, Threshold(last), n);
    if !last {
      assert Threshold(last) * n == 0.95 * n;
    }
  }

  /** A quotient is below t exactly when the dividend is below t times the
      divisor. */
  lemma DivLess(c: real, t: real, n: real)
    requires n > 0.0
    ensures c / n < t <==> c < t * n
  {
    var r := c / n;
    assert r * n == c;
    ScaleOrder(r, t, n);
  }

  /** Multiplying by a positive number keeps the order. */
  lemma ScaleOrder(a: real, b: real, n: real)
    requires n > 0.0
    ensures a < b <==> a * n < b * n
  {
    assert b * n - a * n == (b - a) * n;
  }
}

=== FILE: codecs.dfy ===
/** The compression methods as the engine sees them: an id, a compressor
    that may fail, a decompressor told the original length, and a cheap
    test of whether the method is worth trying. Their bodies (zlib, bz2,
    lzma, zstandard, lz4, brotli and the built-in RLE, dictionary, Huffman
    and delta coders) are not part of this model. */
module Codecs {
  import opened Common

  /** One entry of `method_lookup`. `compress` and `decompress` give None
      where the method raises. `compatible` says whether the class name
      contains `Compatible`, which `_predict_best_methods` checks for the
      ZStandard and Brotli ids. */
  datatype Codec = Codec(
    compress: seq<byte> -> Option<seq<byte>>,
    decompress: (seq<byte>, nat) -> Option<seq<byte>>,
    shouldUse: seq<byte> -> bool,
    compatible: bool)

  /** `method_lookup`: codecs by type id. */
  type Registry = map<byte, Codec>

  /** The id of `NoCompression`. */
  const NoCompressionId: byte := 255

  /** The package type of the end package. */
  const EndType: byte := 0

  /** The package types the scanner accepts after a marker (besides the end
      type 0): the method ids 1..11 and 255. */
  predicate IsPackageType(t: byte)
  {
    1 <= t <= 11 || t == NoCompressionId
  }

  /** Every id in the registry is a method id. */
  predicate WellFormedRegistry(registry: Registry)
  {
    forall t :: t in registry ==> IsPackageType(t)
  }

  /** A codec whose decompressor, told the original length, undoes every
      successful compression. */
  ghost predicate Invertible(codec: Codec)
  {
    forall data: seq<byte> ::
      codec.compress(data).Some? ==> codec.decompress(codec.compress(data).value, |data|) == Some(data)
  }

  ghost predicate InvertibleRegistry(registry: Registry)
  {
    forall t :: t in registry ==> Invertible(registry[t])
  }
}

=== FILE: common.dfy ===
/** Basic types shared by every part of the compressor model: bytes,
    optional and failing results, powers of two and little-endian integers. */
module Common {

  /** A byte as Python's `bytes`/`bytearray` elements hold it. */
  type byte = x: int | 0 <= x < 256

  /** An unsigned 64-bit value, as `struct.pack('<Q', ...)` accepts it. */
  type u64 = x: int | 0 <= x < 0x1_0000_0000_0000_0000

  datatype Option<+T> = None | Some(value: T)

  datatype Result<+R, +E> = Ok(value: R) | Err(error: E)

  function Min(a: int, b: int): int { if a <= b then a else b }

  function Pow2(n: nat): (r: nat)
    ensures r >= 1
  {
    if n == 0 then 1 else 2 * Pow2(n - 1)
  }

  function Pow256(n: nat): (r: nat)
    ensures r >= 1
  {
    if n == 0 then 1 else 256 * Pow256(n - 1)
  }

  /** `bytes(n)`: n zero bytes. */
  function Zeros(n: nat): (r: seq<byte>)
    ensures |r| == n && forall i :: 0 <= i < n ==> r[i] == 0
  {
    seq(n, _ => 0)
  }

  /** `data[k:]` with Python's clamping: empty when k is past the end. */
  function Drop(data: seq<byte>, k: nat): (r: seq<byte>)
    ensures k <= |data| ==> r == data[k..]
    ensures k > |data| ==> r == []
  {
    if k <= |data| then data[k..] else []
  }

  lemma AppendAssociative<T>(a: seq<T>, b: seq<T>, c: seq<T>)
    ensures (a + b) + c == a + (b + c)
  {
  }

  /** `struct.pack('<...', x)` for an n-byte unsigned field: least significant byte first. */
  function LittleEndian(x: nat, n: nat): (r: seq<byte>)
    ensures |r| == n
  {
    if n == 0 then [] else [x % 256] + LittleEndian(x / 256, n - 1)
  }

  /** `struct.unpack('<...', s)[0]`. */
  function LittleEndianValue(s: seq<byte>): nat
  {
    if s == [] then 0 else s[0] + 256 * LittleEndianValue(s[1..])
  }

  lemma {:induction false} LittleEndianRoundTrip(x: nat, n: nat)
    requires x < Pow256(n)
    ensures LittleEndianValue(LittleEndian(x, n)) == x
  {
    if n > 0 {
      assert x / 256 < Pow256(n - 1);
      LittleEndianRoundTrip(x / 256, n - 1);
      var s := LittleEndian(x, n);
      assert s[1..] == LittleEndian(x / 256, n - 1);
    }
  }
}

=== FILE: compressor.dfy ===
/** The `AdaptiveCompressor` object: its configuration, the marker fields
    `_init_marker` sets, the `chunk_stats` counters, and the methods that
    drive compression and decompression. File reading and writing, progress
    reporting and timing are not modelled: `Compress` and `Decompress` take
    and return the bytes of the files. */
module Compressor {
  import opened Common
  import opened Bits
  import opened Varints
  import opened Codecs
  import opened Header
  import opened Marker
  import opened Packages
  import opened Scanner
  import opened Streams
  import opened Analysis
  import opened Prediction
  import opened Chunking
  import opened Container

  /** `initial_chunk_size`. It must be positive: with 0 the first pass of
      `_adaptive_compress` is handed chunks of size 0 and never ends. */
  type ChunkSize = n: nat | 1 <= n witness 1

  /** `min(65536, len(data) - position)`: the largest chunk that can start
      at `position`. */
  function MaxSize(length: nat, position: nat): (r: nat)
    requires position < length
    ensures 1 <= r <= MaxChunkSize && position + r <= length
  {
    Min(MaxChunkSize, length - position)
  }

  /** `MarkerFinder.find_marker`: from the data and the sample size to the
      marker bytes and the marker length in bits. */
  type MarkerSearch = (seq<byte>, nat) -> (seq<byte>, nat)

  /** The marker `_find_marker` returns: the attached finder's answer when
      there is one. Otherwise it is the inline search's, which has 1 to 32
      bits in (length+7)/8 bytes; when that search covered the whole data
      and found at most eight bits, it is one byte whose pattern occurs
      nowhere in the data. */
  ghost predicate MarkerFound(finder: Option<MarkerSearch>, data: seq<byte>, sampleSize: nat, mb: seq<byte>, ml: nat)
  {
    (finder.Some? ==> (mb, ml) == finder.value(data, sampleSize)) &&
    (finder.None? ==> 1 <= ml <= 32 && |mb| == (ml + 7) / 8) &&
    (finder.None? && ml <= 8 && Scanned(data, sampleSize) == data ==> |mb| == 1 && !Occurs(BitsOf(data), MarkerPattern(mb, ml)))
  }

  class AdaptiveCompressor {
    /** `method_lookup`. */
    const registry: Registry
    const initialChunkSize: ChunkSize
    /** `sample_size`: how many bytes the marker search samples (0: all). */
    const sampleSize: nat
    /** `_calculate_entropy`, which is not part of this model. */
    const entropy: seq<byte> -> real
    /** `hashlib.md5(...).digest()`. */
    const md5: seq<byte> -> Digest
    /** `marker_finder`, whose `find_marker` is not part of this model. */
    var markerFinder: Option<MarkerSearch>

    var markerBytes: seq<byte>
    var markerLength: nat
    var markerPattern: seq<Bit>
    var markerBytesAligned: seq<byte>
    var markerByteLength: nat
    var stats: Stats

    /** The marker fields, taken together. */
    function MarkerFields(): (seq<byte>, nat, seq<Bit>, seq<byte>, nat)
      reads this
    {
      (markerBytes, markerLength, markerPattern, markerBytesAligned, markerByteLength)
    }

    /** Every chunk is counted once as compressed or raw, and every
        compressed chunk once under its method. */
    predicate StatsConsistent()
      reads this
    {
      stats.totalChunks == stats.compressedChunks + stats.rawChunks &&
      UsageTotal(stats.methodUsage) == stats.compressedChunks
    }

    constructor(registry: Registry, initialChunkSize: ChunkSize, sampleSize: nat,
                entropy: seq<byte> -> real, md5: seq<byte> -> Digest, finder: MarkerSearch)
      ensures this.registry == registry && this.initialChunkSize == initialChunkSize
      ensures this.sampleSize == sampleSize && this.entropy == entropy && this.md5 == md5
      ensures markerFinder == Some(finder)
      ensures MarkerFields() == ([], 0, [], [], 0)
      ensures stats == Stats(0, 0, 0, ZeroUsage(registry), 0, 0, 0, 0, 0) && StatsConsistent()
    {
      this.registry := registry;
      this.initialChunkSize := initialChunkSize;
      this.sampleSize := sampleSize;
      this.entropy := entropy;
      this.md5 := md5;
      markerFinder := Some(finder);
      markerBytes := [];
      markerLength := 0;
      markerPattern := [];
      markerBytesAligned := [];
      markerByteLength := 0;
      stats := Stats(0, 0, 0, ZeroUsage(registry), 0, 0, 0, 0, 0);
      ZeroUsageTotal(registry);
    }

    /** `compress` on the bytes of the input file: the MD5 digest, the
        marker search, the header, the compressed body, then the header's
        compressed size and the counters' header overhead. It fails where
        the source raises: on a marker without bits, on a marker length
        beyond one byte and on a size beyond its field; failures before the
        body is compressed leave the counters alone. The file is the header
        followed by the pieces' encoding; for a one-byte marker whose
        pattern occurs nowhere in the data, with codecs that undo what they
        produce, decoding the file gives the data back. */
    method Compress(data: seq<byte>) returns (r: Result<seq<byte>, EncodeError>, ghost pieces: seq<Piece>)
      modifies this`markerBytes, this`markerLength, this`markerPattern, this`markerBytesAligned, this`markerByteLength, this`stats
      ensures MarkerFound(markerFinder, data, sampleSize, markerBytes, markerLength)
      ensures markerPattern == MarkerPattern(markerBytes, markerLength)
      ensures r == Err(EmptyMarker) <==> AlignedMarker(markerBytes, markerLength).None?
      ensures r == Err(EmptyMarker) ==> markerBytesAligned == old(markerBytesAligned) && markerByteLength == old(markerByteLength)
      ensures r != Err(EmptyMarker) ==>
                AlignedMarker(markerBytes, markerLength) == Some(markerBytesAligned) && markerByteLength == (markerLength + 7) / 8
      ensures r != Err(EmptyMarker) && HeaderFault(markerBytes, markerLength, md5(data), |data|).Some? ==>
                r == Err(HeaderFault(markerBytes, markerLength, md5(data), |data|).value)
      ensures r == Err(EmptyMarker) || HeaderFault(markerBytes, markerLength, md5(data), |data|).Some? ==> stats == old(stats)
      ensures r.Err? && r != Err(EmptyMarker) && HeaderFault(markerBytes, markerLength, md5(data), |data|).None? ==>
                r == Err(SizeOverflow) && |data| + |markerBytesAligned| + 1 >= 0x1_0000_0000_0000_0000
      ensures r.Ok? ==> WrittenFile(markerBytes, markerLength, markerBytesAligned, md5(data), data, pieces, r.value)
      ensures r.Ok? && markerLength <= 8 && |markerBytes| == 1 && !Occurs(BitsOf(data), markerPattern) &&
              WellFormedRegistry(registry) && InvertibleRegistry(registry) ==>
                DecodeContainer(registry, md5, r.value) == Ok(data)
      ensures r.Ok? ==> Tallied(StartStats(registry, |data|, |EndPackage(markerBytesAligned)|, HeaderSize(markerBytes, md5(data))),
                                stats, pieces, |markerBytesAligned|)
      ensures r.Ok? ==> StatsConsistent()
    {
      var checksum := md5(data);
      var mb, ml, ok := ChooseMarker(data);
      if !ok {
        return Err(EmptyMarker), [];
      }
      var fault := HeaderFault(mb, ml, checksum, |data|);
      if fault.Some? {
        return Err(fault.value), [];
      }
      r, pieces := CompressBody(data, checksum);
      if r.Ok? {
        CompressedFileDecodes(registry, md5, data, markerBytes, markerLength, markerBytesAligned, pieces, r.value);
      }
    }

    /** The steps of `compress` once the marker is set and the header can
        be written: the header, the compressed body, the header's
        compressed size, which fails on a body beyond eight bytes of
        length, and the header counted as overhead. */
    method CompressBody(data: seq<byte>, checksum: Digest) returns (r: Result<seq<byte>, EncodeError>, ghost pieces: seq<Piece>)
      requires AlignedMarker(markerBytes, markerLength) == Some(markerBytesAligned)
      requires HeaderFault(markerBytes, markerLength, checksum, |data|).None?
      modifies this`markerBytes, this`markerLength, this`stats
      ensures markerBytes == old(markerBytes) && markerLength == old(markerLength)
      ensures r.Err? ==> r == Err(SizeOverflow) && |data| + |markerBytesAligned| + 1 >= 0x1_0000_0000_0000_0000
      ensures r.Ok? ==> WrittenFile(markerBytes, markerLength, markerBytesAligned, checksum, data, pieces, r.value)
      ensures r.Ok? && WellFormedRegistry(registry) && InvertibleRegistry(registry) ==>
                forall i :: 0 <= i < |pieces| ==> ValidPiece(registry, pieces[i])
      ensures r.Ok? ==> Tallied(StartStats(registry, |data|, |EndPackage(markerBytesAligned)|, HeaderSize(markerBytes, checksum)),
                                stats, pieces, |markerBytesAligned|)
      ensures r.Ok? ==> StatsConsistent()
    {
      var body;
      ghost var plan;
      body, pieces, plan := AdaptiveCompress(data, markerBytes, markerLength);
      if |body| >= 0x1_0000_0000_0000_0000 {
        return Err(SizeOverflow), pieces;
      }
      var file, headerSize := WriteContainer(markerBytes, markerLength as byte, checksum, |data|, body);
      TallyOverhead(FreshStats(registry, |data|).(overheadBytes := |EndPackage(markerBytesAligned)|), stats,
                    pieces, |markerBytesAligned|, headerSize, headerSize);
      stats := stats.(overheadBytes := stats.overheadBytes + headerSize, headerSize := headerSize);
      r := Ok(file);
    }

    /** The marker step of `compress`: `_find_marker` on the data, then
        `_init_marker`. `_find_marker` hands the search to the attached
        marker finder when there is one and runs its own search otherwise;
        `_init_marker` fails only on a marker without bits, which its own
        search never returns. A marker of at most eight bits that its own
        search found in the whole data is one byte whose pattern occurs
        nowhere in the data. */
    method ChooseMarker(data: seq<byte>) returns (mb: seq<byte>, ml: nat, ok: bool)
      modifies this`markerBytes, this`markerLength, this`markerPattern, this`markerBytesAligned, this`markerByteLength
      ensures MarkerFound(markerFinder, data, sampleSize, mb, ml)
      ensures markerFinder.None? ==> ok
      ensures markerBytes == mb && markerLength == ml && markerPattern == MarkerPattern(mb, ml)
      ensures ok <==> AlignedMarker(mb, ml).Some?
      ensures ok ==> AlignedMarker(mb, ml) == Some(markerBytesAligned) && markerByteLength == (ml + 7) / 8
      ensures !ok ==> markerBytesAligned == old(markerBytesAligned) && markerByteLength == old(markerByteLength)
    {
      if markerFinder.Some? {
        var found := markerFinder.value(data, sampleSize);
        mb, ml := found.0, found.1;
      } else {
        mb, ml := FindMarker(data, sampleSize);
      }
      ok := InitMarker(mb, ml);
    }

    /** `decompress` on the bytes of a compressed file: parse the header,
        set up its marker, decompress the body after the header and compare
        the MD5 digest of the output with the recorded one. A header that
        does not parse leaves the marker fields alone; one that does sets
        them from its marker, the aligned marker and its length only when
        there is one. */
    method Decompress(file: seq<byte>) returns (r: Result<seq<byte>, DecodeError>)
      modifies this`markerBytes, this`markerLength, this`markerPattern, this`markerBytesAligned, this`markerByteLength
      ensures r == DecodeContainer(registry, md5, file)
      ensures ParseHeader(file).Err? ==> MarkerFields() == old(MarkerFields())
      ensures ParseHeader(file).Ok? ==>
                markerBytes == ParseHeader(file).value.markerBytes &&
                markerLength == ParseHeader(file).value.markerLength as nat &&
                markerPattern == MarkerPattern(markerBytes, markerLength)
      ensures ParseHeader(file).Ok? && AlignedMarker(markerBytes, markerLength).Some? ==>
                markerBytesAligned == AlignedMarker(markerBytes, markerLength).value &&
                markerByteLength == (markerLength + 7) / 8
      ensures ParseHeader(file).Ok? && AlignedMarker(markerBytes, markerLength).None? ==>
                markerBytesAligned == old(markerBytesAligned) && markerByteLength == old(markerByteLength)
    {
      var header := ParseHeader(file);
      if header.Err? {
        return Err(BadHeader(header.error));
      }
      var info := header.value;
      var ok := InitMarker(info.markerBytes, info.markerLength);
      if !ok {
        return Err(BadMarker);
      }
      var out := AdaptiveDecompress(Drop(file, info.headerSize), info.originalSize);
      if md5(out) != info.checksum {
        return Err(ChecksumMismatch);
      }
      r := Ok(out);
    }

    /** `_init_marker`: records the marker, keeps its first `ml` bits as the
        pattern and derives the aligned marker the packages start with. It
        fails (the source raises) when the pattern is empty. */
    method InitMarker(mb: seq<byte>, ml: nat) returns (ok: bool)
      modifies this`markerBytes, this`markerLength, this`markerPattern, this`markerBytesAligned, this`markerByteLength
      ensures ok <==> AlignedMarker(mb, ml).Some?
      ensures markerBytes == mb && markerLength == ml && markerPattern == MarkerPattern(mb, ml)
      ensures ok ==> markerBytesAligned == AlignedMarker(mb, ml).value && markerByteLength == (ml + 7) / 8
      ensures !ok ==> markerBytesAligned == old(markerBytesAligned) && markerByteLength == old(markerByteLength)
    {
      markerBytes := mb;
      markerLength := ml;
      var bits := BitsOf(mb);
      markerPattern := bits[..Min(ml, |bits|)];
      if |markerPattern| == 0 {
        return false;
      }
      if ml <= 8 {
        AlignedSmallMarker(mb, ml);
        var v := BitsValue(markerPattern) * Pow2(8 - ml);
        assert [v] == AlignedMarker(mb, ml).value;
        markerBytesAligned := [v];
      } else {
        var padded := PadPattern(markerPattern);
        markerBytesAligned := PackBits(padded);
      }
      markerByteLength := (ml + 7) / 8;
      ok := true;
    }

    /** The padding loop of `_init_marker`: zero bits appended up to a
        byte boundary. */
    static method PadPattern(pattern: seq<Bit>) returns (padded: seq<Bit>)
      ensures padded == PadToByte(pattern)
    {
      padded := pattern;
      var target := |PadToByte(pattern)|;
      while |padded| % 8 != 0
        invariant |pattern| <= |padded| <= target
        invariant padded == pattern + ZeroBits(|padded| - |pattern|)
        decreases target - |padded|
      {
        padded := padded + [0];
      }
    }

    /** `_create_package`, appending field after field. */
    method CreatePackage(packageType: byte, data: seq<byte>, originalLength: nat) returns (package: seq<byte>)
      ensures package == Package(markerBytesAligned, packageType, data, originalLength)
    {
      package := markerBytesAligned;
      package := package + [packageType];
      package := EncodeVariableLength(package, originalLength);
      package := EncodeVariableLength(package, |data|);
      package := package + data;
    }

    /** `_create_end_package`. */
    method CreateEndPackage() returns (package: seq<byte>)
      ensures package == EndPackage(markerBytesAligned)
    {
      package := markerBytesAligned;
      package := package + [EndType];
    }

    /** `_process_chunk`: the bytes that stand for the chunk in the body,
        the piece they encode and the chunk's statistics. */
    method ProcessChunk(chunk: seq<byte>, methodId: byte) returns (packageData: seq<byte>, piece: Piece, stat: ChunkStat)
      ensures (piece, stat) == Decide(registry, markerBytesAligned, chunk, methodId)
      ensures packageData == EncodePiece(markerBytesAligned, piece)
    {
      piece, stat := Raw(chunk), ChunkStat(false, NoCompressionId, |chunk|, |chunk|, 0, 0);
      packageData := chunk;
      if methodId == NoCompressionId || methodId !in registry {
        return;
      }
      match registry[methodId].compress(chunk) {
        case None =>
          // The compressor raised: the chunk stays raw.
        case Some(compressed) =>
          var overhead := PackageOverhead(|markerBytesAligned|, |chunk|);
          if |compressed| + overhead < |chunk| {
            packageData := CreatePackage(methodId, compressed, |chunk|);
            piece := Packed(methodId, chunk, compressed);
            stat := ChunkStat(true, methodId, |chunk|, |compressed|, overhead, |chunk| - (|compressed| + overhead));
          }
      }
    }

    /** The ranking `_predict_best_methods` gives for a chunk. */
    function Predicted(data: seq<byte>, maxMethods: nat): seq<byte>
    {
      Predict(registry, entropy(data), RepetitionScore(data), VariationScore(data), TextScore(data), maxMethods)
    }

    /** `_predict_best_methods`: the chunk scores, then the ranking; 255 is
        appended when it is not already listed, which it never is. */
    method PredictBestMethods(data: seq<byte>, maxMethods: nat) returns (methodIds: seq<byte>)
      ensures methodIds == Predicted(data, maxMethods)
    {
      var e := entropy(data);
      var repetition := CalculateRepetitionScore(data);
      var variation := CalculateVariationScore(data);
      var text := CalculateTextScore(data);
      if e > EntropyCutoff {
        return [NoCompressionId];
      }
      methodIds := Top(Ranking(registry, e, repetition, variation, text), maxMethods);
      TopMembers(registry, e, repetition, variation, text, maxMethods);
      if NoCompressionId !in methodIds {
        methodIds := methodIds + [NoCompressionId];
      }
    }

    /** The loop of `_determine_optimal_chunk` that tries each predicted
        method on a chunk: the first method with the smallest ratio below 1,
        if any (a later method with an equal ratio does not replace it). A
        method that raises is skipped. */
    method TestMethods(chunk: seq<byte>, methodIds: seq<byte>) returns (best: Option<byte>, bestRatio: real)
      requires |chunk| >= 1
      ensures best.None? ==> bestRatio == 1.0
      ensures best.Some? ==> best.value in methodIds && Usable(registry, best.value, chunk) &&
                             bestRatio == Ratio(CompressedSize(registry, best.value, chunk), |chunk|) < 1.0
      ensures forall id :: id in methodIds && Usable(registry, id, chunk) ==>
                bestRatio <= Ratio(CompressedSize(registry, id, chunk), |chunk|)
      ensures best.Some? ==> FirstBest(registry, chunk, methodIds, best.value)
    {
      best, bestRatio := None, 1.0;
      ghost var k := 0;
      for i := 0 to |methodIds|
        invariant best.None? ==> bestRatio == 1.0
        invariant best.Some? ==> best.value in methodIds && Usable(registry, best.value, chunk) &&
                                 bestRatio == Ratio(CompressedSize(registry, best.value, chunk), |chunk|) < 1.0
        invariant forall j :: 0 <= j < i && Usable(registry, methodIds[j], chunk) ==>
                    bestRatio <= Ratio(CompressedSize(registry, methodIds[j], chunk), |chunk|)
        invariant best.Some? ==> k < i && methodIds[k] == best.value
        invariant best.Some? ==> forall j :: 0 <= j < k && Usable(registry, methodIds[j], chunk) ==>
                                   bestRatio < Ratio(CompressedSize(registry, methodIds[j], chunk), |chunk|)
      {
        var id := methodIds[i];
        if id in registry && registry[id].shouldUse(chunk) {
          match registry[id].compress(chunk) {
            case None =>
            case Some(compressed) =>
              var ratio := Ratio(|compressed|, |chunk|);
              if ratio < bestRatio {
                best, bestRatio, k := Some(id), ratio, i;
              }
          }
        }
      }
      forall id | id in methodIds && Usable(registry, id, chunk)
        ensures bestRatio <= Ratio(CompressedSize(registry, id, chunk), |chunk|)
      {
        var j :| 0 <= j < |methodIds| && methodIds[j] == id;
      }
      if best.Some? {
        forall j | 0 <= j < k && Usable(registry, methodIds[j], chunk)
          ensures CompressedSize(registry, methodIds[j], chunk) > CompressedSize(registry, best.value, chunk)
        {
          RatioOrder(CompressedSize(registry, methodIds[j], chunk), CompressedSize(registry, best.value, chunk), |chunk|);
        }
      }
    }

    /** The chunk the predicted methods are tried on. */
    function Probe(data: seq<byte>, position: nat): (r: seq<byte>)
      requires position < |data|
      ensures |r| == Min(initialChunkSize, MaxSize(|data|, position)) && |r| >= 1
    {
      data[position..position + Min(initialChunkSize, MaxSize(|data|, position))]
    }

    /** The methods tried on the probe: two for the last short chunk, three
        otherwise. */
    function Guesses(data: seq<byte>, position: nat): seq<byte>
      requires position < |data|
    {
      Predicted(Probe(data, position), if MaxSize(|data|, position) <= initialChunkSize then 2 else 3)
    }

    /** The method choice of `_determine_optimal_chunk` on a probe: the
        first predicted method with the smallest ratio, kept when that
        ratio is below the threshold. `found` is false when 255 stands in
        for "no method". */
    method PickMethod(probe: seq<byte>, methodIds: seq<byte>, last: bool) returns (found: bool, methodId: byte)
      requires |probe| >= 1
      ensures BestAmong(registry, probe, methodIds, last, methodId)
      ensures found ==> FirstBest(registry, probe, methodIds, methodId) && Promising(registry, probe, methodId, last)
      ensures !found ==> methodId == NoCompressionId
      ensures NoCompressionId in methodIds ==> (found <==> Promising(registry, probe, methodId, last))
      ensures found <==> AnyPromising(registry, probe, methodIds, last)
    {
      var best, bestRatio := TestMethods(probe, methodIds);
      found := best.Some? && bestRatio < Threshold(last);
      methodId := if found then best.value else NoCompressionId;
      forall id | id in methodIds && Usable(registry, id, probe)
        ensures BelowThreshold(CompressedSize(registry, id, probe), |probe|, last) ==> found
        ensures found ==> CompressedSize(registry, methodId, probe) <= CompressedSize(registry, id, probe)
      {
        BelowThresholdRatio(CompressedSize(registry, id, probe), |probe|, last);
        if found {
          RatioOrder(CompressedSize(registry, methodId, probe), CompressedSize(registry, id, probe), |probe|);
        }
      }
      if found {
        BelowThresholdRatio(CompressedSize(registry, methodId, probe), |probe|, last);
      }
    }

    /** What `_determine_optimal_chunk` returns at `position`: a chunk size
        that fits and the method chosen on the probe (see `BestAmong`). When
        some guess beats the threshold (1 for the last short chunk, 0.95
        otherwise) the method is the earliest of the best guesses
        (`FirstBest`), and 255 when none does. A size other than the probe's
        is reached by whole increments over the initial size, with the
        method still usable on the longer chunk; when more than the initial
        size is left, that size is the one the 3% rule reaches from the
        probe (`Extended`) if the method beat the threshold, and the initial
        size if not. */
    predicate ChunkDecision(data: seq<byte>, position: nat, size: nat, methodId: byte)
      requires position < |data|
    {
      var maxSize := MaxSize(|data|, position);
      var probe := Probe(data, position);
      var last := maxSize <= initialChunkSize;
      var increment := SizeIncrement(initialChunkSize);
      1 <= size <= maxSize &&
      (size <= initialChunkSize ==> size == Min(initialChunkSize, maxSize)) &&
      (initialChunkSize < size ==>
         OnGrid(size, initialChunkSize, increment) && Usable(registry, methodId, Slice(data, position, size))) &&
      BestAmong(registry, probe, Guesses(data, position), last, methodId) &&
      (methodId != NoCompressionId ==> FirstBest(registry, probe, Guesses(data, position), methodId)) &&
      (AnyPromising(registry, probe, Guesses(data, position), last) ==>
         FirstBest(registry, probe, Guesses(data, position), methodId) && Promising(registry, probe, methodId, last)) &&
      (!AnyPromising(registry, probe, Guesses(data, position), last) ==> methodId == NoCompressionId) &&
      (initialChunkSize < maxSize ==>
         size == if Promising(registry, probe, methodId, false)
                 then Extended(registry, data, position, methodId, Ratio(CompressedSize(registry, methodId, probe), initialChunkSize),
                               initialChunkSize, maxSize, increment)
                 else initialChunkSize)
    }

    /** An entry of the first pass holds what `_determine_optimal_chunk`
        returned at its position. */
    predicate Decided(data: seq<byte>, c: ChunkPlan)
    {
      c.position < |data| && ChunkDecision(data, c.position, c.size, c.methodId)
    }

    /** `_determine_optimal_chunk` (see `ChunkDecision`). */
    method DetermineOptimalChunk(data: seq<byte>, position: nat) returns (size: nat, methodId: byte)
      requires position < |data|
      ensures ChunkDecision(data, position, size, methodId)
    {
      var base := initialChunkSize;
      var maxSize := Min(MaxChunkSize, |data| - position);
      var probe := Probe(data, position);
      if maxSize <= base {
        var methodIds := PredictBestMethods(probe, 2);
        var _, m := PickMethod(probe, methodIds, true);
        size, methodId := maxSize, m;
        return;
      }
      var methodIds := PredictBestMethods(probe, 3);
      var found, m := PickMethod(probe, methodIds, false);
      methodId := m;
      if found {
        size := ExtendChunk(data, position, methodId, Ratio(CompressedSize(registry, methodId, probe), base), maxSize);
      } else {
        size := base;
      }
    }

    /** The extension loop of `_determine_optimal_chunk`: grows the chunk
        by whole increments while the chosen method still applies and its
        ratio stays within 3% of the last size taken; the size reached is
        the one `Extended` defines (`ExtendedStops` says why it stops there). */
    method ExtendChunk(data: seq<byte>, position: nat, b: byte, ratio: real, maxSize: nat) returns (size: nat)
      requires position + maxSize <= |data| && initialChunkSize < maxSize
      ensures initialChunkSize <= size <= maxSize
      ensures size != initialChunkSize ==>
                OnGrid(size, initialChunkSize, SizeIncrement(initialChunkSize)) &&
                Usable(registry, b, Slice(data, position, size))
      ensures size == Extended(registry, data, position, b, ratio, initialChunkSize, maxSize, SizeIncrement(initialChunkSize))
    {
      var base := initialChunkSize;
      var increment := SizeIncrement(base);
      var bestRatio := ratio;
      size := base;
      var extended := base + increment;
      while extended <= maxSize
        invariant base <= size <= maxSize && extended == size + increment
        invariant Extended(registry, data, position, b, bestRatio, size, maxSize, increment) ==
                  Extended(registry, data, position, b, ratio, base, maxSize, increment)
        decreases maxSize - extended
      {
        var next := data[position..position + extended];
        assert next == data[position..position + size + increment];
        if b !in registry || !registry[b].shouldUse(next) {
          UnusableStops(registry, data, position, b, bestRatio, size, maxSize, increment);
          break;
        }
        match registry[b].compress(next) {
          case None =>
            UnusableStops(registry, data, position, b, bestRatio, size, maxSize, increment);
            break;
          case Some(compressed) =>
            assert Usable(registry, b, next) && CompressedSize(registry, b, next) == |compressed|;
            var extendedRatio := Ratio(|compressed|, extended);
            if extendedRatio > bestRatio * 1.03 {
              assert Stops(registry, data, position, b, bestRatio, size, maxSize, increment);
              break;
            }
            ExtendedStep(registry, data, position, b, bestRatio, size, maxSize, increment, extendedRatio);
            bestRatio, size := extendedRatio, extended;
        }
        extended := extended + increment;
      }
      assert Stops(registry, data, position, b, bestRatio, size, maxSize, increment);
      ExtendedFacts(registry, data, position, b, ratio, base, maxSize, increment);
    }

    /** `_compress_chunks_sequential`: each planned chunk through
        `_process_chunk`, with the counters updated: one more chunk each,
        compressed or raw; one more use of the method of each package; and
        the bytes of each package's chunk split into its payload, its
        overhead and what it saved. */
    method CompressChunksSequential(data: seq<byte>, plan: seq<ChunkPlan>) returns (results: seq<seq<byte>>, pieces: seq<Piece>)
      requires registry.Keys <= stats.methodUsage.Keys
      modifies this`stats
      ensures |results| == |pieces| == |plan|
      ensures forall i :: 0 <= i < |plan| ==>
                pieces[i] == PlannedPiece(registry, markerBytesAligned, data, plan[i]) &&
                results[i] == EncodePiece(markerBytesAligned, pieces[i])
      ensures Tallied(old(stats), stats, pieces, |markerBytesAligned|)
    {
      ghost var s0 := stats;
      var aligned := markerBytesAligned;
      results, pieces := [], [];
      for i := 0 to |plan|
        invariant |pieces| == i && PlannedSoFar(registry, aligned, data, plan, pieces, results)
        invariant registry.Keys <= stats.methodUsage.Keys && Tallied(s0, stats, pieces, |markerBytesAligned|)
      {
        var packageData, piece := CompressPlanned(data, plan[i], s0, pieces);
        PlannedSoFarStep(registry, aligned, data, plan, pieces, results, piece, packageData);
        results, pieces := results + [packageData], pieces + [piece];
      }
    }

    /** One turn of the loop of `_compress_chunks_sequential`: the planned
        chunk through `_process_chunk`, and its statistics recorded. */
    method CompressPlanned(data: seq<byte>, p: ChunkPlan, ghost s0: Stats, ghost pieces: seq<Piece>)
      returns (packageData: seq<byte>, piece: Piece)
      requires registry.Keys <= stats.methodUsage.Keys && Tallied(s0, stats, pieces, |markerBytesAligned|)
      modifies this`stats
      ensures piece == PlannedPiece(registry, markerBytesAligned, data, p)
      ensures packageData == EncodePiece(markerBytesAligned, piece)
      ensures registry.Keys <= stats.methodUsage.Keys && Tallied(s0, stats, pieces + [piece], |markerBytesAligned|)
    {
      var chunk := Slice(data, p.position, p.size);
      var stat;
      packageData, piece, stat := ProcessChunk(chunk, p.methodId);
      DecideFacts(registry, markerBytesAligned, chunk, p.methodId);
      TallyStep(s0, stats, pieces, |markerBytesAligned|, piece, stat);
      stats := Record(stats, stat);
    }

    /** `_adaptive_compress`: records the marker, resets the counters,
        plans the chunks (first pass), compresses them (second pass), joins
        the results and appends the end package. The output is the pieces'
        encoding followed by the end package; the pieces' chunks make up
        the data; the output is at most one end package longer than the
        data; each piece is what `_process_chunk` makes of a chunk of the
        plan, whose size and method are the ones `_determine_optimal_chunk`
        picked at its position; and the counters are the pieces' tally,
        with the end package counted as overhead. */
    method AdaptiveCompress(data: seq<byte>, mb: seq<byte>, ml: nat) returns (out: seq<byte>, ghost pieces: seq<Piece>, ghost plan: seq<ChunkPlan>)
      modifies this`markerBytes, this`markerLength, this`stats
      ensures markerBytes == mb && markerLength == ml
      ensures Tiling(plan, 0, |data|) && |pieces| == |plan|
      ensures forall i {:trigger plan[i]} :: 0 <= i < |plan| ==> pieces[i] == PlannedPiece(registry, markerBytesAligned, data, plan[i])
      ensures forall i {:trigger Decided(data, plan[i])} :: 0 <= i < |plan| ==> Decided(data, plan[i])
      ensures out == EncodeStream(markerBytesAligned, pieces) && Chunks(pieces) == data
      ensures forall i :: 0 <= i < |pieces| ==>
                1 <= |pieces[i].chunk| <= MaxChunkSize && |EncodePiece(markerBytesAligned, pieces[i])| <= |pieces[i].chunk|
      ensures |out| <= |data| + |markerBytesAligned| + 1
      ensures WellFormedRegistry(registry) && InvertibleRegistry(registry) ==>
                forall i :: 0 <= i < |pieces| ==> ValidPiece(registry, pieces[i])
      ensures Tallied(FreshStats(registry, |data|).(overheadBytes := |EndPackage(markerBytesAligned)|), stats, pieces, |markerBytesAligned|)
      ensures StatsConsistent()
    {
      markerBytes, markerLength := mb, ml;
      stats := FreshStats(registry, |data|);
      var chunkPlan := PlanChunks(data);
      plan := chunkPlan;
      var results, ps := CompressChunksSequential(data, chunkPlan);
      pieces := ps;
      PlannedPieces(registry, markerBytesAligned, data, plan, pieces);
      out := JoinPackages(results, pieces);
      var end := CreateEndPackage();
      out := out + end;
      stats := stats.(overheadBytes := stats.overheadBytes + |end|);
    }

    /** `_adaptive_decompress`: copies the bytes between markers, reads the
        package after each marker and hands its payload to the codec of its
        type, then zero-pads or truncates to the original size. The output
        is the scan of the body fitted to that size. */
    method AdaptiveDecompress(s: seq<byte>, originalSize: nat) returns (out: seq<byte>)
      requires |markerBytesAligned| >= 1
      ensures out == Fit(Scan(registry, markerBytesAligned, s, 0), originalSize)
    {
      var aligned := markerBytesAligned;
      var decompressed := [];
      var pos := 0;
      while pos < |s|
        invariant decompressed + Scan(registry, aligned, s, pos) == Scan(registry, aligned, s, 0)
        decreases |s| - pos
      {
        var chunk, next, stop := DecompressTurn(s, pos);
        AppendAssociative(decompressed, chunk, Scan(registry, aligned, s, next));
        decompressed := decompressed + chunk;
        if stop {
          break;
        }
        pos := next;
      }
      out := Fit(decompressed, originalSize);
    }

    /** One turn of the loop of `_adaptive_decompress` from `pos`: the raw
        bytes up to the next marker (all the rest when there is none), then
        what follows the marker. Either the scan stops here, or it goes on
        at `next`. */
    method DecompressTurn(s: seq<byte>, pos: nat) returns (chunk: seq<byte>, next: nat, stop: bool)
      requires |markerBytesAligned| >= 1 && pos < |s|
      ensures stop ==> chunk == Scan(registry, markerBytesAligned, s, pos)
      ensures !stop ==> pos < next &&
                        chunk + Scan(registry, markerBytesAligned, s, next) == Scan(registry, markerBytesAligned, s, pos)
    {
      var markerPos := SearchMarker(s, markerBytesAligned, pos);
      ScanUnfold(registry, markerBytesAligned, s, pos);
      if markerPos == -1 {
        return s[pos..], |s|, true;
      }
      var raw := [];
      if markerPos > pos {
        raw := s[pos..markerPos];
      }
      assert raw == s[pos..markerPos];
      var after;
      after, next, stop := ReadAfterMarker(s, markerPos + |markerBytesAligned|);
      AppendAssociative(raw, after, Scan(registry, markerBytesAligned, s, next));
      chunk := raw + after;
    }

    /** The part of the loop of `_adaptive_decompress` that follows a
        marker ending at `p`: the type byte, then either the end of the
        scan, the marker and the type byte put back as data, or a package
        read and decompressed. */
    method ReadAfterMarker(s: seq<byte>, p: nat) returns (chunk: seq<byte>, next: nat, stop: bool)
      requires |markerBytesAligned| >= 1
      ensures stop ==> chunk == AfterMarker(registry, markerBytesAligned, s, p)
      ensures !stop ==> p < next &&
                        chunk + Scan(registry, markerBytesAligned, s, next) == AfterMarker(registry, markerBytesAligned, s, p)
    {
      var aligned := markerBytesAligned;
      var pos := p;
      AfterMarkerCases(registry, aligned, s, p);
      if pos >= |s| {
        return [], pos, true;
      }
      var packageType := s[pos];
      pos := pos + 1;
      if packageType == EndType {
        return [], pos, true;
      }
      if !IsPackageType(packageType) {
        return aligned + [packageType], pos, false;
      }
      AfterMarkerPackage(registry, aligned, s, p);
      ReadPackageShort(registry, aligned, s, packageType, pos);
      if pos >= |s| {
        return [], pos, true;
      }
      var originalLength, q := ReadVariableLengthInt(s, pos);
      if q >= |s| {
        return [], q, true;
      }
      var dataLength, r := ReadVariableLengthInt(s, q);
      if r + dataLength > |s| {
        return s[r..], r, true;
      }
      var payload := s[r..r + dataLength];
      next := r + dataLength;
      ReadPackageStep(registry, aligned, s, p, originalLength, q, r, next);
      if packageType in registry {
        var decoded := registry[packageType].decompress(payload, originalLength);
        if decoded.Some? {
          chunk := decoded.value;
        } else {
          chunk := Zeros(originalLength);
        }
      } else {
        chunk := Zeros(originalLength);
      }
      assert chunk == Unpack(registry, packageType, payload, originalLength);
      stop := false;
    }

    /** The first pass of `_adaptive_compress`: from offset 0 on, the size
        and method `_determine_optimal_chunk` picks, until the data is
        covered. */
    method PlanChunks(data: seq<byte>) returns (plan: seq<ChunkPlan>)
      ensures Tiling(plan, 0, |data|)
      ensures forall i :: 0 <= i < |plan| ==> plan[i].size <= MaxChunkSize
      ensures forall i {:trigger Decided(data, plan[i])} :: 0 <= i < |plan| ==> Decided(data, plan[i])
    {
      plan := [];
      var position := 0;
      while position < |data|
        invariant position <= |data| && Tiling(plan, 0, position)
        invariant forall i :: 0 <= i < |plan| ==> plan[i].size <= MaxChunkSize
        invariant forall i {:trigger Decided(data, plan[i])} :: 0 <= i < |plan| ==> Decided(data, plan[i])
        decreases |data| - position
      {
        var next := NextChunk(data, position);
        TilingExtend(plan, 0, position, next);
        plan := plan + [next];
        position := position + next.size;
      }
    }

    /** One turn of the first pass: the chunk `_determine_optimal_chunk`
        picks at `position`, as the list records it. (The decision is stated
        for every `c` equal to `next` so that the solver unfolds it only
        where a caller asks for it.) */
    method NextChunk(data: seq<byte>, position: nat) returns (next: ChunkPlan)
      requires position < |data|
      ensures next.position == position && 1 <= next.size <= MaxSize(|data|, position)
      ensures forall c {:trigger Decided(data, c)} :: c == next ==> Decided(data, c)
    {
      var size, methodId := DetermineOptimalChunk(data, position);
      next := ChunkPlan(position, size, methodId);
    }

    /** The joining loop of `_adaptive_compress`. */
    method JoinPackages(results: seq<seq<byte>>, ghost pieces: seq<Piece>) returns (out: seq<byte>)
      requires |results| == |pieces|
      requires forall i :: 0 <= i < |pieces| ==> results[i] == EncodePiece(markerBytesAligned, pieces[i])
      ensures out == EncodePieces(markerBytesAligned, pieces)
    {
      out := [];
      for i := 0 to |results|
        invariant out == EncodePieces(markerBytesAligned, pieces[..i])
      {
        EncodePiecesPrefix(markerBytesAligned, pieces, i);
        out := out + results[i];
      }
      assert pieces[..|pieces|] == pieces;
    }
  }

  /** What `_determine_optimal_chunk` promises of the method it picks on a
      probe from the guesses: a method other than 255 is a usable guess
      whose ratio beats the threshold and whose output is no longer than
      any other usable guess's (over the same probe, the smallest ratio is
      the shortest output: `RatioOrder`); 255 means that no other usable
      guess beat the threshold, or that the 255 codec itself did at least
      as well. */
  predicate BestAmong(registry: Registry, probe: seq<byte>, guesses: seq<byte>, last: bool, methodId: byte)
    requires |probe| >= 1
  {
    (methodId != NoCompressionId ==>
       methodId in guesses && Usable(registry, methodId, probe) &&
       BelowThreshold(CompressedSize(registry, methodId, probe), |probe|, last) &&
       forall id :: id in guesses && Usable(registry, id, probe) ==>
         CompressedSize(registry, methodId, probe) <= CompressedSize(registry, id, probe)) &&
    (methodId == NoCompressionId ==>
       forall id :: id in guesses && id != NoCompressionId && Usable(registry, id, probe) ==>
         !BelowThreshold(CompressedSize(registry, id, probe), |probe|, last) ||
         (Usable(registry, NoCompressionId, probe) &&
          CompressedSize(registry, NoCompressionId, probe) <= CompressedSize(registry, id, probe)))
  }

  /** The method is usable on the probe and its ratio beats the threshold:
      the condition under which `_determine_optimal_chunk` keeps it. */
  predicate Promising(registry: Registry, probe: seq<byte>, id: byte, last: bool)
    requires |probe| >= 1
  {
    Usable(registry, id, probe) && BelowThreshold(CompressedSize(registry, id, probe), |probe|, last)
  }

  /** Some guess beats the threshold on the probe, so that
      `_determine_optimal_chunk` keeps the best of them, even when that is
      255; with none, it falls back to 255. */
  predicate AnyPromising(registry: Registry, probe: seq<byte>, guesses: seq<byte>, last: bool)
    requires |probe| >= 1
  {
    exists id :: id in guesses && Promising(registry, probe, id, last)
  }

  /** `id` is usable on the chunk and sits in `ids` at a place before which
      every usable method produces strictly more: with the strict `<` of
      `_determine_optimal_chunk`, equal ratios go to the earliest guess. */
  predicate FirstBest(registry: Registry, chunk: seq<byte>, ids: seq<byte>, id: byte)
    requires |chunk| >= 1
  {
    Usable(registry, id, chunk) &&
    exists k :: 0 <= k < |ids| && ids[k] == id &&
      forall j :: 0 <= j < k && Usable(registry, ids[j], chunk) ==>
        CompressedSize(registry, ids[j], chunk) > CompressedSize(registry, id, chunk)
  }

  /** The extension loop of `_determine_optimal_chunk` stops after `size`,
      whose ratio is `lastRatio`: the next size on the grid does not fit,
      the method does not apply to it (it declines the chunk or raises), or
      its ratio is more than 3% above `lastRatio`. */
  predicate Stops(registry: Registry, data: seq<byte>, position: nat, b: byte, lastRatio: real,
                  size: nat, maxSize: nat, increment: nat)
    requires position + maxSize <= |data| && 1 <= increment
  {
    size + increment > maxSize || !Usable(registry, b, data[position..position + size + increment]) ||
    Ratio(CompressedSize(registry, b, data[position..position + size + increment]), size + increment) > lastRatio * 1.03
  }

  /** A method that cannot be used on the next size stops the extension. */
  lemma UnusableStops(registry: Registry, data: seq<byte>, position: nat, b: byte, lastRatio: real,
                      size: nat, maxSize: nat, increment: nat)
    requires position + maxSize <= |data| && 1 <= increment && size + increment <= maxSize
    requires !Usable(registry, b, data[position..position + size + increment])
    ensures Stops(registry, data, position, b, lastRatio, size, maxSize, increment)
  {
  }

  /** The size the extension loop reaches from `size`, whose ratio is
      `lastRatio`: the next size on the grid is taken, with its own ratio,
      until the loop stops. The method is usable on a chunk of the size
      reached, unless no step was taken. */
  function Extended(registry: Registry, data: seq<byte>, position: nat, b: byte, lastRatio: real,
                    size: nat, maxSize: nat, increment: nat): (r: nat)
    requires position + maxSize <= |data| && 1 <= increment && size <= maxSize
    ensures size <= r <= maxSize
    ensures r != size ==> Usable(registry, b, data[position..position + r])
    decreases maxSize - size
  {
    if Stops(registry, data, position, b, lastRatio, size, maxSize, increment) then size
    else Extended(registry, data, position, b,
                  Ratio(CompressedSize(registry, b, data[position..position + size + increment]), size + increment),
                  size + increment, maxSize, increment)
  }

  /** The sizes the extension reaches lie on the grid of its increments. */
  lemma {:induction false} ExtendedOnGrid(registry: Registry, data: seq<byte>, position: nat, b: byte, lastRatio: real,
                                          size: nat, maxSize: nat, increment: nat)
    requires position + maxSize <= |data| && 1 <= increment && size <= maxSize
    ensures OnGrid(Extended(registry, data, position, b, lastRatio, size, maxSize, increment), size, increment)
    decreases maxSize - size
  {
    if !Stops(registry, data, position, b, lastRatio, size, maxSize, increment) {
      var next := size + increment;
      var nextRatio := Ratio(CompressedSize(registry, b, data[position..position + next]), next);
      ExtendedOnGrid(registry, data, position, b, nextRatio, next, maxSize, increment);
      OnGridShift(Extended(registry, data, position, b, nextRatio, next, maxSize, increment), size, increment);
    }
  }

  /** A size the extension reaches past its start lies on the grid, and
      the method is usable on a chunk of that size. */
  lemma ExtendedFacts(registry: Registry, data: seq<byte>, position: nat, b: byte, lastRatio: real,
                      size: nat, maxSize: nat, increment: nat)
    requires position + maxSize <= |data| && 1 <= increment && size <= maxSize
    ensures var r := Extended(registry, data, position, b, lastRatio, size, maxSize, increment);
            r != size ==> OnGrid(r, size, increment) && Usable(registry, b, Slice(data, position, r))
  {
    ExtendedOnGrid(registry, data, position, b, lastRatio, size, maxSize, increment);
  }

  /** One step of the extension: when the loop goes on, it goes on from
      the next size, with the ratio measured there. */
  lemma ExtendedStep(registry: Registry, data: seq<byte>, position: nat, b: byte, lastRatio: real,
                     size: nat, maxSize: nat, increment: nat, nextRatio: real)
    requires position + maxSize <= |data| && 1 <= increment && size + increment <= maxSize
    requires Usable(registry, b, data[position..position + size + increment])
    requires nextRatio == Ratio(CompressedSize(registry, b, data[position..position + size + increment]), size + increment)
    requires nextRatio <= lastRatio * 1.03
    ensures Extended(registry, data, position, b, lastRatio, size, maxSize, increment) ==
            Extended(registry, data, position, b, nextRatio, size + increment, maxSize, increment)
  {
  }

  /** The ratio at the size `Extended` reaches: the one it started from when
      no step was taken, that of the method on the longer chunk otherwise. */
  function ReachedRatio(registry: Registry, data: seq<byte>, position: nat, b: byte, lastRatio: real,
                        size: nat, maxSize: nat, increment: nat): real
    requires position + maxSize <= |data| && 1 <= increment && size <= maxSize
  {
    var r := Extended(registry, data, position, b, lastRatio, size, maxSize, increment);
    if r == size then lastRatio else Ratio(CompressedSize(registry, b, data[position..position + r]), r)
  }

  /** Why the extension ends where it does: the loop stops after the size
      reached, measured against the ratio at that size. */
  lemma {:induction false} ExtendedStops(registry: Registry, data: seq<byte>, position: nat, b: byte, lastRatio: real,
                                         size: nat, maxSize: nat, increment: nat)
    requires position + maxSize <= |data| && 1 <= increment && size <= maxSize
    ensures Stops(registry, data, position, b, ReachedRatio(registry, data, position, b, lastRatio, size, maxSize, increment),
                  Extended(registry, data, position, b, lastRatio, size, maxSize, increment), maxSize, increment)
    decreases maxSize - size
  {
    if !Stops(registry, data, position, b, lastRatio, size, maxSize, increment) {
      var next := size + increment;
      var nextRatio := Ratio(CompressedSize(registry, b, data[position..position + next]), next);
      ExtendedStops(registry, data, position, b, nextRatio, next, maxSize, increment);
    }
  }

  /** Ratios over the same size compare as the sizes do. */
  lemma RatioOrder(a: nat, b: nat, d: nat)
    requires d > 0
    ensures Ratio(a, d) <= Ratio(b, d) <==> a <= b
  {
    var x, y, r := Ratio(a, d), Ratio(b, d), d as real;
    assert x * r == a as real;
    assert y * r == b as real;
    if x <= y {
      assert (y - x) * r >= 0.0;
    } else {
      assert (x - y) * r > 0.0;
    }
  }
}

=== FILE: container.dfy ===
/** The compressed file as a whole: the header followed by the compressed
    body, and what `decompress` makes of such a file: parse the header,
    align the marker it names, scan the body, fit the result to the
    original size and compare its MD5 digest with the one recorded. */
module Container {
  import opened Common
  import opened Bits
  import opened Codecs
  import opened Header
  import opened Marker
  import opened Scanner
  import opened Streams
  import opened Chunking

  /** An MD5 digest, as `hashlib.md5(...).digest()` returns it. */
  type Digest = s: seq<byte> | |s| == 16 witness [0, 0, 0, 0, 0, 0, 0, 0, 0, 0, 0, 0, 0, 0, 0, 0]

  /** Why `decompress` raises: the header does not parse, the marker it
      records is empty (`int('', 2)` in `_init_marker`), or the digest of
      the output differs from the recorded one. */
  datatype DecodeError = BadHeader(reason: HeaderError) | BadMarker | ChecksumMismatch

  /** Why `compress` raises: `_init_marker` is handed a marker with no bits
      (`int('', 2)`), the marker length does not fit the header's length
      byte (`bytearray.append`), or a size does not fit its field
      (`struct.pack('<I')` for the header size, `struct.pack('<Q')` for the
      original and compressed sizes). */
  datatype EncodeError = EmptyMarker | MarkerLengthOverflow | SizeOverflow

  /** Where `_create_header` raises, in its order: a marker length that
      does not fit the length byte, an original size beyond eight bytes, a
      header size beyond four. With none of these it writes the header. */
  function HeaderFault(markerBytes: seq<byte>, markerLength: nat, checksum: seq<byte>, originalSize: nat): (r: Option<EncodeError>)
    ensures r.None? <==> markerLength <= 255 && originalSize < 0x1_0000_0000_0000_0000 &&
                         HeaderSize(markerBytes, checksum) < 0x1_0000_0000
    ensures r == Some(MarkerLengthOverflow) <==> markerLength > 255
    ensures r != Some(EmptyMarker)
  {
    if markerLength > 255 then Some(MarkerLengthOverflow)
    else if originalSize >= 0x1_0000_0000_0000_0000 || HeaderSize(markerBytes, checksum) >= 0x1_0000_0000 then Some(SizeOverflow)
    else None
  }

  /** The file `compress` writes: the header with the compressed size
      filled in, then the body. */
  function EncodeContainer(markerBytes: seq<byte>, markerLength: byte, checksum: Digest, originalSize: u64, body: seq<byte>): (r: seq<byte>)
    requires |body| < 0x1_0000_0000_0000_0000
    ensures |r| == HeaderSize(markerBytes, checksum) + |body|
    ensures r[HeaderSize(markerBytes, checksum)..] == body
  {
    var header := UpdateHeaderCompressedSize(HeaderBytes(markerBytes, markerLength, checksum, originalSize), |body|);
    assert |header| == HeaderSize(markerBytes, checksum);
    header + body
  }

  /** The header steps of `compress`: `_create_header` with the compressed
      size left at zero, `_update_header_compressed_size` once the body is
      known, and the header written in front of the body. */
  method WriteContainer(markerBytes: seq<byte>, markerLength: byte, checksum: Digest, originalSize: u64, body: seq<byte>)
    returns (file: seq<byte>, headerSize: nat)
    requires HeaderSize(markerBytes, checksum) < 0x1_0000_0000 && |body| < 0x1_0000_0000_0000_0000
    ensures file == EncodeContainer(markerBytes, markerLength, checksum, originalSize, body)
    ensures headerSize == HeaderSize(markerBytes, checksum)
  {
    var header := CreateHeader(markerBytes, markerLength, checksum, originalSize);
    headerSize := |header|;
    header := UpdateHeaderCompressedSize(header, |body|);
    file := header + body;
  }

  /** `decompress` on the bytes of a file. */
  function DecodeContainer(registry: Registry, md5: seq<byte> -> Digest, file: seq<byte>): (r: Result<seq<byte>, DecodeError>)
    ensures ParseHeader(file).Err? ==> r == Err(BadHeader(ParseHeader(file).error))
    ensures r.Ok? ==> ParseHeader(file).Ok? &&
                      |r.value| == ParseHeader(file).value.originalSize &&
                      md5(r.value) == ParseHeader(file).value.checksum
  {
    match ParseHeader(file)
    case Err(e) => Err(BadHeader(e))
    case Ok(info) =>
      match AlignedMarker(info.markerBytes, info.markerLength)
      case None => Err(BadMarker)
      case Some(aligned) =>
        var out := Fit(Scan(registry, aligned, Drop(file, info.headerSize), 0), info.originalSize);
        if md5(out) != info.checksum then Err(ChecksumMismatch) else Ok(out)
  }

  /** The round trip of a whole file with a marker of at most eight bits
      whose pattern occurs nowhere in the data: decoding a file that holds
      the pieces of the data, written with the aligned marker, gives the
      data back, when every package is one the scanner can undo. */
  lemma ContainerRoundTrip(registry: Registry, md5: seq<byte> -> Digest, data: seq<byte>,
                           markerBytes: seq<byte>, markerLength: byte, ps: seq<Piece>)
    requires 1 <= markerLength <= 8 && |markerBytes| == 1
    requires !Occurs(BitsOf(data), MarkerPattern(markerBytes, markerLength as nat))
    requires Chunks(ps) == data && forall i :: 0 <= i < |ps| ==> ValidPiece(registry, ps[i])
    requires |data| < 0x1_0000_0000_0000_0000
    requires |EncodeStream(AlignedMarker(markerBytes, markerLength as nat).value, ps)| < 0x1_0000_0000_0000_0000
    ensures DecodeContainer(registry, md5, EncodeContainer(markerBytes, markerLength, md5(data), |data|,
                                                           EncodeStream(AlignedMarker(markerBytes, markerLength as nat).value, ps)))
            == Ok(data)
  {
    AlignedByteAbsent(data, markerBytes, markerLength as nat);
    var aligned := AlignedMarker(markerBytes, markerLength as nat).value;
    var checksum := md5(data);
    var body := EncodeStream(aligned, ps);
    var file := EncodeContainer(markerBytes, markerLength, checksum, |data|, body);
    ParseHeaderRoundTrip(markerBytes, markerLength, checksum, |data|, |body|, body);
    var info := ParseHeader(file).value;
    assert info.headerSize == HeaderSize(markerBytes, checksum);
    assert Drop(file, info.headerSize) == body;
    forall i | 0 <= i < |ps| && ps[i].Raw?
      ensures aligned[0] !in ps[i].chunk
    {
      if aligned[0] in ps[i].chunk {
        ChunkBytesInChunks(ps, i, aligned[0]);
      }
    }
    StreamRoundTrip(registry, aligned, ps);
  }

  /** The file a successful `compress` writes: the header for the marker,
      the checksum and the original size, followed by the encoding of
      pieces that make up the data and are at most one end package longer
      than it. */
  ghost predicate WrittenFile(markerBytes: seq<byte>, markerLength: nat, aligned: seq<byte>, checksum: Digest,
                              data: seq<byte>, ps: seq<Piece>, file: seq<byte>)
  {
    1 <= markerLength <= 255 && |data| < 0x1_0000_0000_0000_0000 && Chunks(ps) == data &&
    |EncodeStream(aligned, ps)| <= |data| + |aligned| + 1 &&
    |EncodeStream(aligned, ps)| < 0x1_0000_0000_0000_0000 &&
    file == EncodeContainer(markerBytes, markerLength as byte, checksum, |data|, EncodeStream(aligned, ps))
  }

  /** The round trip as `compress` needs it: a file it writes decodes to
      the data whenever the marker is a single byte whose pattern occurs
      nowhere in the data, and every codec is one the scanner can undo. */
  lemma CompressedFileDecodes(registry: Registry, md5: seq<byte> -> Digest, data: seq<byte>,
                              markerBytes: seq<byte>, markerLength: nat, aligned: seq<byte>, ps: seq<Piece>,
                              file: seq<byte>)
    requires AlignedMarker(markerBytes, markerLength) == Some(aligned)
    requires WrittenFile(markerBytes, markerLength, aligned, md5(data), data, ps, file)
    requires WellFormedRegistry(registry) && InvertibleRegistry(registry) ==>
               forall i :: 0 <= i < |ps| ==> ValidPiece(registry, ps[i])
    ensures markerLength <= 8 && |markerBytes| == 1 && !Occurs(BitsOf(data), MarkerPattern(markerBytes, markerLength)) &&
            WellFormedRegistry(registry) && InvertibleRegistry(registry) ==>
              DecodeContainer(registry, md5, file) == Ok(data)
  {
    if markerLength <= 8 && |markerBytes| == 1 && !Occurs(BitsOf(data), MarkerPattern(markerBytes, markerLength)) &&
       WellFormedRegistry(registry) && InvertibleRegistry(registry) {
      ContainerRoundTrip(registry, md5, data, markerBytes, markerLength as byte, ps);
    }
  }
}

=== FILE: header.dfy ===
/** The container header (`_create_header`, `_update_header_compressed_size`
    and `_parse_header`): magic `AMBC`, version, header size, marker length
    and bytes, checksum type and checksum, original size and compressed size,
    every integer field little-endian. */
module Header {
  import opened Common

  /** `MAGIC_NUMBER`, the ASCII bytes of `AMBC`. */
  const Magic: seq<byte> := [0x41, 0x4D, 0x42, 0x43]

  /** `FORMAT_VERSION`. */
  const FormatVersion: byte := 2

  /** The checksum type written by `_create_header`: 1 stands for MD5. */
  const ChecksumMd5: byte := 1

  /** The fields `_parse_header` returns. */
  datatype HeaderInfo = HeaderInfo(
    formatVersion: byte,
    headerSize: nat,
    markerLength: byte,
    markerBytes: seq<byte>,
    checksumType: byte,
    checksum: seq<byte>,
    originalSize: nat,
    compressedSize: nat)

  /** Why `_parse_header` raises: a wrong magic number, a version newer than
      this format, or data too short for a field it reads (an `IndexError`
      or a `struct.error` in the source). */
  datatype HeaderError = BadMagic | UnsupportedVersion(version: byte) | Truncated

  /** The size of a header with this marker and checksum. */
  function HeaderSize(markerBytes: seq<byte>, checksum: seq<byte>): nat
  {
    27 + |markerBytes| + |checksum|
  }

  /** The header as laid out in the file, the size field already filled in
      and the compressed size still zero. */
  function HeaderBytes(markerBytes: seq<byte>, markerLength: byte, checksum: seq<byte>, originalSize: u64): (r: seq<byte>)
    ensures |r| == HeaderSize(markerBytes, checksum)
  {
    Magic + [FormatVersion] + LittleEndian(HeaderSize(markerBytes, checksum), 4) + [markerLength] +
    markerBytes + [ChecksumMd5] + checksum + LittleEndian(originalSize, 8) + Zeros(8)
  }

  /** Where the fields sit in the header: the magic number, the version, the
      marker length at offset 9, the marker bytes, the checksum type and the
      checksum after it, the original size, and eight zero bytes for the
      compressed size at the end. */
  lemma HeaderLayout(markerBytes: seq<byte>, markerLength: byte, checksum: seq<byte>, originalSize: u64)
    ensures var r := HeaderBytes(markerBytes, markerLength, checksum, originalSize);
            var n, c := |markerBytes|, |checksum|;
            r[..4] == Magic && r[4] == FormatVersion && r[9] == markerLength &&
            r[10..10 + n] == markerBytes && r[10 + n] == ChecksumMd5 && r[11 + n..11 + n + c] == checksum &&
            r[11 + n + c..19 + n + c] == LittleEndian(originalSize, 8) &&
            r[19 + n + c..] == Zeros(8)
  {
    var r := HeaderBytes(markerBytes, markerLength, checksum, originalSize);
    var n, c := |markerBytes|, |checksum|;
    var front := Magic + [FormatVersion] + LittleEndian(HeaderSize(markerBytes, checksum), 4) + [markerLength];
    assert |front| == 10;
    assert r == front + markerBytes + [ChecksumMd5] + checksum + LittleEndian(originalSize, 8) + Zeros(8);
  }

  /** `_create_header`: appends the fields with a zero size placeholder, then
      patches bytes 5..8 with the final length. `struct.pack('<I', ...)`
      raises for a length of 2^32 or more, so the caller keeps it smaller. */
  method CreateHeader(markerBytes: seq<byte>, markerLength: byte, checksum: seq<byte>, originalSize: u64)
    returns (header: seq<byte>)
    requires HeaderSize(markerBytes, checksum) < 0x1_0000_0000
    ensures header == HeaderBytes(markerBytes, markerLength, checksum, originalSize)
    ensures |header| == HeaderSize(markerBytes, checksum)
    ensures LittleEndianValue(header[5..9]) == |header|
  {
    header := Magic;
    header := header + [FormatVersion];
    header := header + [0, 0, 0, 0];
    header := header + [markerLength];
    header := header + markerBytes;
    header := header + [ChecksumMd5];
    header := header + checksum;
    header := header + LittleEndian(originalSize, 8);
    header := header + Zeros(8);
    var headerSize := |header|;
    header := header[..5] + LittleEndian(headerSize, 4) + header[9..];
    assert header[5..9] == LittleEndian(headerSize, 4);
    LittleEndianRoundTrip(headerSize, 4);
  }

  /** `_update_header_compressed_size`: overwrites the last eight bytes with
      the compressed size. A header shorter than eight bytes is replaced
      entirely, as the slice assignment `header[-8:]` does. */
  function UpdateHeaderCompressedSize(header: seq<byte>, compressedSize: u64): (r: seq<byte>)
    ensures |header| >= 8 ==> |r| == |header| && r[..|header| - 8] == header[..|header| - 8]
    ensures |header| < 8 ==> |r| == 8
    ensures r[|r| - 8..] == LittleEndian(compressedSize, 8)
  {
    if |header| >= 8 then header[..|header| - 8] + LittleEndian(compressedSize, 8)
    else LittleEndian(compressedSize, 8)
  }

  /** Where the original size field starts, for a marker of `n` bytes and a
      checksum of `c` bytes. */
  function OriginalSizeOffset(n: nat, c: nat): nat
  {
    11 + n + c
  }

  /** `_parse_header`. Every error the source raises is one of the error
      values; the fields are read where the marker length and checksum type
      say they are. */
  function ParseHeader(data: seq<byte>): (r: Result<HeaderInfo, HeaderError>)
    ensures r.Ok? ==> |data| >= 4 && data[..4] == Magic
    ensures r.Ok? ==> r.value.formatVersion <= FormatVersion
    ensures r.Ok? ==> |r.value.markerBytes| == (r.value.markerLength + 7) / 8
    ensures r.Ok? ==> |data| >= OriginalSizeOffset(|r.value.markerBytes|, |r.value.checksum|) + 16
    ensures (|data| < 4 || data[..4] != Magic) ==> r == Err(BadMagic)
    ensures |data| >= 5 && data[..4] == Magic && data[4] > FormatVersion ==> r == Err(UnsupportedVersion(data[4]))
  {
    if |data| < 4 || data[..4] != Magic then Err(BadMagic)
    else if |data| < 5 then Err(Truncated)
    else if data[4] > FormatVersion then Err(UnsupportedVersion(data[4]))
    else if |data| < 10 then Err(Truncated)
    else
      var markerLength: byte := data[9];
      var n: nat := (markerLength as int + 7) / 8;
      if |data| < 11 + n then Err(Truncated)
      else
        var checksumType := data[10 + n];
        var c := if checksumType == ChecksumMd5 then 16 else 0;
        var at := OriginalSizeOffset(n, c);
        if |data| < at + 16 then Err(Truncated)
        else
          Ok(HeaderInfo(
            data[4],
            LittleEndianValue(data[5..9]),
            markerLength,
            data[10..10 + n],
            checksumType,
            data[11 + n..at],
            LittleEndianValue(data[at..at + 8]),
            LittleEndianValue(data[at + 8..at + 16])))
  }

  /** A header written with a marker of `(L+7)/8` bytes and an MD5 checksum,
      then given its compressed size, parses back to the values written,
      whatever data follows it. */
  lemma ParseHeaderRoundTrip(markerBytes: seq<byte>, markerLength: byte, checksum: seq<byte>,
                             originalSize: u64, compressedSize: u64, body: seq<byte>)
    requires |markerBytes| == (markerLength + 7) / 8 && |checksum| == 16
    ensures ParseHeader(UpdateHeaderCompressedSize(HeaderBytes(markerBytes, markerLength, checksum, originalSize), compressedSize) + body)
            == Ok(HeaderInfo(FormatVersion, HeaderSize(markerBytes, checksum), markerLength, markerBytes,
                             ChecksumMd5, checksum, originalSize, compressedSize))
  {
    var size := HeaderSize(markerBytes, checksum);
    var h := HeaderBytes(markerBytes, markerLength, checksum, originalSize);
    var u := UpdateHeaderCompressedSize(h, compressedSize);
    var n := |markerBytes|;
    var at := OriginalSizeOffset(n, 16);
    assert |h| == size == at + 16;
    assert u == Magic + [FormatVersion] + LittleEndian(size, 4) + [markerLength] + markerBytes + [ChecksumMd5] +
                checksum + LittleEndian(originalSize, 8) + LittleEndian(compressedSize, 8);
    assert u[..4] == Magic;
    assert u[5..9] == LittleEndian(size, 4);
    assert u[10..10 + n] == markerBytes;
    assert u[11 + n..at] == checksum;
    assert u[at..at + 8] == LittleEndian(originalSize, 8);
    assert u[at + 8..at + 16] == LittleEndian(compressedSize, 8);
    HeaderFields(u, body, markerBytes, markerLength, checksum, originalSize, compressedSize);
  }

  /** A header with the fields in their places parses to those fields,
      whatever follows it. */
  lemma HeaderFields(header: seq<byte>, body: seq<byte>, markerBytes: seq<byte>, markerLength: byte, checksum: seq<byte>,
                     originalSize: u64, compressedSize: u64)
    requires |markerBytes| == (markerLength + 7) / 8 && |checksum| == 16
    requires var n := |markerBytes|;
             var at := OriginalSizeOffset(n, 16);
             |header| == at + 16 &&
             header[..4] == Magic && header[4] == FormatVersion &&
             header[5..9] == LittleEndian(HeaderSize(markerBytes, checksum), 4) &&
             header[9] == markerLength && header[10..10 + n] == markerBytes && header[10 + n] == ChecksumMd5 &&
             header[11 + n..at] == checksum &&
             header[at..at + 8] == LittleEndian(originalSize, 8) &&
             header[at + 8..at + 16] == LittleEndian(compressedSize, 8)
    ensures ParseHeader(header + body) == Ok(HeaderInfo(FormatVersion, HeaderSize(markerBytes, checksum), markerLength,
                                                        markerBytes, ChecksumMd5, checksum, originalSize, compressedSize))
  {
    var data := header + body;
    var n := |markerBytes|;
    var at := OriginalSizeOffset(n, 16);
    PrefixSlice(header, body, 0, 4);
    PrefixSlice(header, body, 5, 9);
    PrefixSlice(header, body, 10, 10 + n);
    PrefixSlice(header, body, 11 + n, at);
    PrefixSlice(header, body, at, at + 8);
    PrefixSlice(header, body, at + 8, at + 16);
    ParseFields(data, markerBytes, markerLength, checksum, originalSize, compressedSize);
  }

  /** Data with the header fields in their places parses to those fields. */
  lemma ParseFields(data: seq<byte>, markerBytes: seq<byte>, markerLength: byte, checksum: seq<byte>,
                    originalSize: u64, compressedSize: u64)
    requires |markerBytes| == (markerLength + 7) / 8 && |checksum| == 16
    requires var n := |markerBytes|;
             var at := OriginalSizeOffset(n, 16);
             |data| >= at + 16 &&
             data[..4] == Magic && data[4] == FormatVersion &&
             data[5..9] == LittleEndian(HeaderSize(markerBytes, checksum), 4) &&
             data[9] == markerLength && data[10..10 + n] == markerBytes && data[10 + n] == ChecksumMd5 &&
             data[11 + n..at] == checksum &&
             data[at..at + 8] == LittleEndian(originalSize, 8) &&
             data[at + 8..at + 16] == LittleEndian(compressedSize, 8)
    ensures ParseHeader(data) == Ok(HeaderInfo(FormatVersion, HeaderSize(markerBytes, checksum), markerLength, markerBytes,
                                               ChecksumMd5, checksum, originalSize, compressedSize))
  {
    var n := |markerBytes|;
    var at := OriginalSizeOffset(n, 16);
    LittleEndianRoundTrip(HeaderSize(markerBytes, checksum), 4);
    LittleEndianRoundTrip(originalSize, 8);
    LittleEndianRoundTrip(compressedSize, 8);
    assert LittleEndianValue(data[5..9]) == HeaderSize(markerBytes, checksum);
    assert LittleEndianValue(data[at..at + 8]) == originalSize;
    assert LittleEndianValue(data[at + 8..at + 16]) == compressedSize;
    assert (data[9] as int + 7) / 8 == n;
  }

  lemma PrefixSlice(header: seq<byte>, body: seq<byte>, i: nat, j: nat)
    requires i <= j <= |header|
    ensures (header + body)[i..j] == header[i..j]
  {
  }
}

=== FILE: marker.dfy ===
/** The marker search of `AdaptiveCompressor._find_marker` (the inline search,
    lines 446-526 of adaptive_compressor.py) and the marker alignment of
    `_init_marker`.

    A marker is a bit pattern that occurs at no bit offset of the scanned data.
    The search tries lengths 1..16; for each length it marks every value of a
    bit window found in the data and returns the smallest unmarked value of the
    smallest length, left-aligned and zero-padded to whole bytes. */
module Marker {
  import opened Common
  import opened Bits

  /** Every `step`-th byte, starting with the first: the bytes visited by
      `for i in range(0, len(data), step)`. */
  function Stride(data: seq<byte>, step: nat): (r: seq<byte>)
    requires step >= 1
    ensures |r| <= |data|
    decreases |data|
  {
    if data == [] then [] else [data[0]] + Stride(data[Min(step, |data|)..], step)
  }

  /** The even sample `_find_marker` (and the chunk scores) take of a large
      input: every (len / n)-th byte, cut to n bytes. There are always n of
      them: the stride visits at least n bytes. */
  function Sample(data: seq<byte>, n: nat): (r: seq<byte>)
    requires 0 < n < |data|
    ensures |r| == n
    ensures forall i :: 0 <= i < n ==> i * (|data| / n) < |data| && r[i] == data[i * (|data| / n)]
  {
    var s := Stride(data, |data| / n);
    SampleLength(data, n);
    StrideElements(data, |data| / n);
    s[..Min(n, |s|)]
  }

  /** Taking every (len / n)-th byte of a longer input visits at least n
      of them. */
  lemma SampleLength(data: seq<byte>, n: nat)
    requires 0 < n < |data|
    ensures |Stride(data, |data| / n)| >= n
  {
    var step := |data| / n;
    StrideCovers(data, step);
    var m := |Stride(data, step)|;
    DivideTimes(|data|, n);
    MultiplyCancel(n, m, step);
  }

  lemma MultiplyCancel(a: nat, b: nat, c: nat)
    requires c > 0 && a * c <= b * c
    ensures a <= b
  {
    assert (a - b) * c == a * c - b * c;
  }

  lemma MultiplyStep(i: nat, step: nat)
    requires i >= 1
    ensures (i - 1) * step + step == i * step
  {
  }

  lemma DivideTimes(a: nat, n: nat)
    requires n > 0
    ensures (a / n) * n <= a
  {
    assert a == n * (a / n) + a % n;
  }

  /** Every step-th byte: the count times the step reaches the length. */
  lemma {:induction false} StrideCovers(data: seq<byte>, step: nat)
    requires step >= 1
    ensures |Stride(data, step)| * step >= |data|
    decreases |data|
  {
    if data != [] {
      var rest := data[Min(step, |data|)..];
      StrideCovers(rest, step);
      assert |Stride(data, step)| == 1 + |Stride(rest, step)|;
    }
  }

  /** The i-th byte of the stride is byte i * step of the data. */
  lemma {:induction false} StrideAt(data: seq<byte>, step: nat, i: nat)
    requires step >= 1 && i < |Stride(data, step)|
    ensures i * step < |data| && Stride(data, step)[i] == data[i * step]
    decreases i
  {
    if i > 0 {
      var rest := data[Min(step, |data|)..];
      assert Stride(data, step)[i] == Stride(rest, step)[i - 1];
      StrideAt(rest, step, i - 1);
      MultiplyStep(i, step);
    }
  }

  lemma StrideElements(data: seq<byte>, step: nat)
    requires step >= 1
    ensures forall i :: 0 <= i < |Stride(data, step)| ==> i * step < |data| && Stride(data, step)[i] == data[i * step]
  {
    forall i | 0 <= i < |Stride(data, step)|
      ensures i * step < |data| && Stride(data, step)[i] == data[i * step]
    {
      StrideAt(data, step, i);
    }
  }

  /** The data `_find_marker` actually searches: a sample when a positive
      sample size is given and the data is longer than it, else all of it.
      A sample has exactly `sampleSize` bytes, all taken from the data. */
  function Scanned(data: seq<byte>, sampleSize: nat): (r: seq<byte>)
    ensures r == data <==> sampleSize == 0 || |data| <= sampleSize
    ensures r != data ==> |r| == sampleSize && forall i :: 0 <= i < |r| ==> r[i] in data
  {
    if sampleSize > 0 && |data| > sampleSize then Sample(data, sampleSize) else data
  }

  /** The sampling loop of `_find_marker`. */
  method SampleBytes(data: seq<byte>, n: nat) returns (s: seq<byte>)
    requires 0 < n < |data|
    ensures s == Sample(data, n)
  {
    var step := |data| / n;
    var sampled: seq<byte> := [];
    var i := 0;
    while i < |data|
      invariant sampled + Stride(Drop(data, i), step) == Stride(data, step)
      decreases |data| - i
    {
      StrideStep(data, step, i);
      AppendAssociative(sampled, data[i..i + 1], Stride(Drop(data, i + step), step));
      sampled := sampled + data[i..i + 1];
      i := i + step;
    }
    s := sampled[..Min(n, |sampled|)];
  }

  lemma StrideStep(data: seq<byte>, step: nat, i: nat)
    requires step >= 1 && i < |data|
    ensures Stride(Drop(data, i), step) == data[i..i + 1] + Stride(Drop(data, i + step), step)
  {
    var rest := data[i..];
    assert Drop(data, i) == rest;
    assert rest[Min(step, |rest|)..] == Drop(data, i + step);
  }

  /** Value v occurs as an n-bit window somewhere in bits. */
  ghost predicate OccursValue(bits: seq<Bit>, n: nat, v: nat)
  {
    exists i: nat :: i + n <= |bits| && WindowValue(bits, i, n) == v
  }

  /** Pattern p occurs at some bit offset of bits. */
  ghost predicate Occurs(bits: seq<Bit>, p: seq<Bit>)
  {
    exists i: nat :: i + |p| <= |bits| && Window(bits, i, |p|) == p
  }

  /** Every n-bit pattern occurs somewhere in bits. */
  ghost predicate AllPatternsOccur(bits: seq<Bit>, n: nat)
  {
    forall v :: 0 <= v < Pow2(n) ==> OccursValue(bits, n, v)
  }

  /** The first length bits of a marker, `marker_bits[:marker_length]`. */
  function MarkerPattern(markerBytes: seq<byte>, length: nat): seq<Bit>
  {
    var bits := BitsOf(markerBytes);
    bits[..Min(length, |bits|)]
  }

  /** The windows at offsets 0 .. upto-1 include the value v: the `found`
      array after the scan has reached offset upto. */
  function SeenBefore(bits: seq<Bit>, n: nat, v: nat, upto: nat): bool
    requires upto == 0 || upto - 1 + n <= |bits|
  {
    upto > 0 && (SeenBefore(bits, n, v, upto - 1) || WindowValue(bits, upto - 1, n) == v)
  }

  /** The number of n-bit windows in bits, `len(range(len(bits) - n + 1))`. */
  function WindowCount(bits: seq<Bit>, n: nat): nat
  {
    if |bits| >= n then |bits| - n + 1 else 0
  }

  lemma {:induction false} SeenBeforeMeans(bits: seq<Bit>, n: nat, v: nat, upto: nat)
    requires upto == 0 || upto - 1 + n <= |bits|
    ensures SeenBefore(bits, n, v, upto) <==> exists i: nat :: i < upto && WindowValue(bits, i, n) == v
  {
    if upto > 0 {
      SeenBeforeMeans(bits, n, v, upto - 1);
    }
  }

  lemma SeenMeansOccurs(bits: seq<Bit>, n: nat, v: nat)
    ensures SeenBefore(bits, n, v, WindowCount(bits, n)) <==> OccursValue(bits, n, v)
  {
    SeenBeforeMeans(bits, n, v, WindowCount(bits, n));
  }

  /** A pattern occurs exactly when its value occurs as a window of its length. */
  lemma PatternOccursIffValue(bits: seq<Bit>, p: seq<Bit>)
    ensures Occurs(bits, p) <==> OccursValue(bits, |p|, BitsValue(p))
  {
    if OccursValue(bits, |p|, BitsValue(p)) {
      var i: nat :| i + |p| <= |bits| && WindowValue(bits, i, |p|) == BitsValue(p);
      BitsValueInjective(Window(bits, i, |p|), p);
    }
    if Occurs(bits, p) {
      var i: nat :| i + |p| <= |bits| && Window(bits, i, |p|) == p;
      assert WindowValue(bits, i, |p|) == BitsValue(p);
    }
  }

  /** The inline search of `_find_marker`: the sampling, then the scan over
      lengths 1..16, then the fixed 32-bit fallback. */
  method FindMarker(data: seq<byte>, sampleSize: nat) returns (markerBytes: seq<byte>, markerLength: nat)
    ensures |markerBytes| == (markerLength + 7) / 8
    ensures 1 <= markerLength <= 16 || (markerLength == 32 && markerBytes == [0xFF, 0xFF, 0x00, 0x00])
    ensures markerLength <= 16 ==> IsMarker(BitsOf(Scanned(data, sampleSize)), markerBytes, markerLength)
    ensures forall n :: 1 <= n < markerLength && n <= 16 ==> AllPatternsOccur(BitsOf(Scanned(data, sampleSize)), n)
  {
    var scanned := data;
    if sampleSize > 0 && |data| > sampleSize {
      scanned := SampleBytes(data, sampleSize);
    }
    assert scanned == Scanned(data, sampleSize);
    var bits := BitsOf(scanned);
    var length := 1;
    while length <= 16
      invariant 1 <= length <= 17
      invariant forall n :: 1 <= n < length ==> AllPatternsOccur(bits, n)
    {
      var found := MarkWindows(bits, length);
      var v := FirstUnmarked(found);
      if v < found.Length {
        markerBytes := MarkerBytes(bits, length, v);
        markerLength := length;
        return;
      }
      AllMarkedMeansAllOccur(bits, length, found[..]);
      length := length + 1;
    }
    // No pattern of up to 16 bits is absent: sixteen ones followed by sixteen zeros.
    markerBytes := [0xFF, 0xFF, 0x00, 0x00];
    markerLength := 32;
  }

  /** A found marker of `length` bits: its pattern occurs nowhere in bits,
      every smaller pattern of that length does, and the bits after the
      pattern are the zero padding. */
  ghost predicate IsMarker(bits: seq<Bit>, markerBytes: seq<byte>, length: nat)
  {
    var pattern := MarkerPattern(markerBytes, length);
    |pattern| == length &&
    !Occurs(bits, pattern) &&
    AllZero(BitsOf(markerBytes)[length..]) &&
    forall v :: 0 <= v < BitsValue(pattern) ==> OccursValue(bits, length, v)
  }

  lemma AllMarkedMeansAllOccur(bits: seq<Bit>, n: nat, found: seq<bool>)
    requires |found| == Pow2(n)
    requires forall v :: 0 <= v < |found| ==> (found[v] <==> SeenBefore(bits, n, v, WindowCount(bits, n)))
    requires forall v :: 0 <= v < |found| ==> found[v]
    ensures AllPatternsOccur(bits, n)
  {
    forall u | 0 <= u < Pow2(n)
      ensures OccursValue(bits, n, u)
    {
      SeenMeansOccurs(bits, n, u);
    }
  }

  /** The return branch of `_find_marker`: the value v written as `length`
      bits, zero-padded to a byte (for up to 8 bits) or to whole bytes. */
  method MarkerBytes(bits: seq<Bit>, length: nat, v: nat) returns (markerBytes: seq<byte>)
    requires 1 <= length <= 16 && v < Pow2(length)
    requires !SeenBefore(bits, length, v, WindowCount(bits, length))
    requires forall u :: 0 <= u < v ==> SeenBefore(bits, length, u, WindowCount(bits, length))
    ensures |markerBytes| == (length + 7) / 8
    ensures IsMarker(bits, markerBytes, length)
  {
    var pattern := ToBits(v, length);
    var padding: nat;
    if length <= 8 {
      padding := 8 - length;
    } else {
      padding := if length % 8 != 0 then 8 - length % 8 else 0;
      assert length == 8 * (length / 8) + length % 8;
    }
    markerBytes := PackBits(pattern + ZeroBits(padding));
    FoundMarkerFacts(bits, length, v, markerBytes, padding);
    forall u | 0 <= u < v
      ensures OccursValue(bits, length, u)
    {
      SeenMeansOccurs(bits, length, u);
    }
  }

  /** The inner scan of `_find_marker` for one length: marks the value of
      every window of that length. */
  method MarkWindows(bits: seq<Bit>, length: nat) returns (found: array<bool>)
    requires 1 <= length
    ensures fresh(found) && found.Length == Pow2(length)
    ensures forall v :: 0 <= v < found.Length ==>
              (found[v] <==> SeenBefore(bits, length, v, WindowCount(bits, length)))
  {
    var possible := Pow2(length);
    found := new bool[possible](_ => false);
    var windows := WindowCount(bits, length);
    var i := 0;
    while i < windows
      invariant 0 <= i <= windows
      invariant forall v :: 0 <= v < possible ==> (found[v] <==> SeenBefore(bits, length, v, i))
    {
      var value := BitsValue(bits[i..i + length]);
      assert value == WindowValue(bits, i, length);
      if value < possible {
        found[value] := true;
      }
      i := i + 1;
    }
  }

  /** The second loop of `_find_marker` for one length: the first value
      left unmarked, or the array length when every value is marked. */
  method FirstUnmarked(found: array<bool>) returns (v: nat)
    ensures v <= found.Length
    ensures v < found.Length ==> !found[v]
    ensures forall u :: 0 <= u < v ==> found[u]
  {
    v := 0;
    while v < found.Length && found[v]
      invariant v <= found.Length
      invariant forall u :: 0 <= u < v ==> found[u]
    {
      v := v + 1;
    }
  }

  /** What the search knows when it stops at an unmarked value v. */
  lemma FoundMarkerFacts(bits: seq<Bit>, n: nat, v: nat, markerBytes: seq<byte>, k: nat)
    requires 1 <= n <= 16 && v < Pow2(n)
    requires !SeenBefore(bits, n, v, WindowCount(bits, n))
    requires (n + k) % 8 == 0 && k < 8
    requires markerBytes == PackBits(ToBits(v, n) + ZeroBits(k))
    ensures |markerBytes| == (n + 7) / 8
    ensures MarkerPattern(markerBytes, n) == ToBits(v, n)
    ensures BitsValue(MarkerPattern(markerBytes, n)) == v
    ensures AllZero(BitsOf(markerBytes)[n..])
    ensures !Occurs(bits, MarkerPattern(markerBytes, n))
  {
    var padded := ToBits(v, n) + ZeroBits(k);
    BitsOfPack(padded);
    assert BitsOf(markerBytes)[..n] == ToBits(v, n);
    assert BitsOf(markerBytes)[n..] == ZeroBits(k);
    ValueOfToBits(v, n);
    SeenMeansOccurs(bits, n, v);
    PatternOccursIffValue(bits, ToBits(v, n));
  }

  /** The window values of the first m offsets: at most m distinct values. */
  function WindowValues(bits: seq<Bit>, n: nat, m: nat): (r: set<nat>)
    requires m == 0 || m - 1 + n <= |bits|
    ensures |r| <= m
  {
    if m == 0 then {} else WindowValues(bits, n, m - 1) + {WindowValue(bits, m - 1, n)}
  }

  /** The value of every one of the first m windows is in the set. */
  lemma {:induction false} WindowValueIn(bits: seq<Bit>, n: nat, m: nat, i: nat)
    requires i < m && m - 1 + n <= |bits|
    ensures WindowValue(bits, i, n) in WindowValues(bits, n, m)
  {
    if i < m - 1 {
      WindowValueIn(bits, n, m - 1, i);
    }
  }

  function Range(k: nat): (r: set<nat>)
    ensures |r| == k
    ensures forall v: nat :: v in r <==> v < k
  {
    if k == 0 then {} else Range(k - 1) + {k - 1}
  }

  /** Counting argument: if every n-bit pattern occurs, the data has at
      least 2^n windows of n bits, so the search only falls through to
      length n+1 on data of at least 2^n + n - 1 bits. */
  lemma Pigeonhole(bits: seq<Bit>, n: nat)
    requires AllPatternsOccur(bits, n)
    ensures Pow2(n) <= WindowCount(bits, n)
  {
    var m := WindowCount(bits, n);
    var seen := WindowValues(bits, n, m);
    forall v | v in Range(Pow2(n))
      ensures v in seen
    {
      assert OccursValue(bits, n, v);
      var i: nat :| i + n <= |bits| && WindowValue(bits, i, n) == v;
      WindowValueIn(bits, n, m, i);
    }
    assert Range(Pow2(n)) <= seen;
    SubsetSize(Range(Pow2(n)), seen);
  }

  lemma SubsetSize<T>(a: set<T>, b: set<T>)
    requires a <= b
    ensures |a| <= |b|
  {
    assert b == a + (b - a);
  }

  /** Length bound of a found marker: a marker of L bits means every pattern
      of L-1 bits occurs, so the scanned data holds at least 2^(L-1) + L - 2
      bits; the fixed fallback needs at least 2^16 + 15 bits. */
  lemma MarkerLengthBound(data: seq<byte>, sampleSize: nat, markerLength: nat)
    requires 2 <= markerLength
    requires forall n :: 1 <= n < markerLength && n <= 16 ==> AllPatternsOccur(BitsOf(Scanned(data, sampleSize)), n)
    ensures markerLength <= 17 ==> Pow2(markerLength - 1) + markerLength - 2 <= 8 * |Scanned(data, sampleSize)|
    ensures markerLength > 17 ==> Pow2(16) + 15 <= 8 * |Scanned(data, sampleSize)|
  {
    var bits := BitsOf(Scanned(data, sampleSize));
    if markerLength <= 17 {
      Pigeonhole(bits, markerLength - 1);
    } else {
      Pigeonhole(bits, 16);
    }
  }

  /** `marker_bytes_aligned` of `_init_marker`: the marker's first `length`
      bits, zero-padded to whole bytes. None when the pattern is empty, where
      `int('', 2)` raises. */
  function AlignedMarker(markerBytes: seq<byte>, length: nat): (r: Option<seq<byte>>)
    ensures r.Some? <==> length > 0 && |markerBytes| > 0
    ensures r.Some? ==> |r.value| > 0
  {
    var pattern := MarkerPattern(markerBytes, length);
    if |pattern| == 0 then None else Some(PackBits(PadToByte(pattern)))
  }

  /** A marker the search produced is already aligned: `_init_marker` gives
      back the very bytes `_find_marker` returned. */
  lemma AlignedMarkerIdentity(markerBytes: seq<byte>, length: nat)
    requires 1 <= length && |markerBytes| == (length + 7) / 8
    requires AllZero(BitsOf(markerBytes)[length..])
    ensures AlignedMarker(markerBytes, length) == Some(markerBytes)
  {
    var bits := BitsOf(markerBytes);
    var pattern := bits[..length];
    assert MarkerPattern(markerBytes, length) == pattern;
    var padded := PadToByte(pattern);
    assert |padded| == |bits|;
    assert padded == bits;
    PackBitsOf(markerBytes);
  }

  /** The first branch of `_init_marker`: for up to eight bits the aligned
      marker is the single byte `int(pattern, 2) << (8 - length)`. */
  lemma AlignedSmallMarker(markerBytes: seq<byte>, length: nat)
    requires 1 <= length <= 8 && |markerBytes| >= 1
    ensures AlignedMarker(markerBytes, length) == Some([BitsValue(MarkerPattern(markerBytes, length)) * Pow2(8 - length)])
  {
    var pattern := MarkerPattern(markerBytes, length);
    MarkerPatternLength(markerBytes, length);
    var padded := PadToByte(pattern);
    assert padded == pattern + ZeroBits(8 - length);
    BitsValueZeros(pattern, 8 - length);
    assert padded[..8] == padded && padded[8..] == [];
    assert PackBits(padded) == [BitsValue(padded)] + PackBits([]);
    assert PackBits([]) == [];
    assert BitsValue(padded) == BitsValue(pattern) * Pow2(8 - length);
    assert PackBits(padded) == [BitsValue(pattern) * Pow2(8 - length)];
    assert AlignedMarker(markerBytes, length) == Some(PackBits(padded));
  }

  /** A marker of at most eight bits that occurs at no bit offset of the data
      is not the value of any byte of the data: a byte equal to it would hold
      the pattern at a byte boundary. */
  lemma MarkerByteAbsent(data: seq<byte>, markerBytes: seq<byte>, length: nat)
    requires 1 <= length <= 8 && |markerBytes| == 1
    requires !Occurs(BitsOf(data), MarkerPattern(markerBytes, length))
    ensures markerBytes[0] !in data
  {
    if markerBytes[0] in data {
      var j :| 0 <= j < |data| && data[j] == markerBytes[0];
      ByteHoldsPatternOccurs(data, markerBytes, length, j);
    }
  }

  /** Whatever the padding bits of the marker bytes, a marker of at most
      eight bits whose pattern occurs at no bit offset of the data aligns to
      a single byte that the data does not contain. */
  lemma AlignedByteAbsent(data: seq<byte>, markerBytes: seq<byte>, length: nat)
    requires 1 <= length <= 8 && |markerBytes| >= 1
    requires !Occurs(BitsOf(data), MarkerPattern(markerBytes, length))
    ensures AlignedMarker(markerBytes, length).Some?
    ensures |AlignedMarker(markerBytes, length).value| == 1
    ensures AlignedMarker(markerBytes, length).value[0] !in data
  {
    var pattern := MarkerPattern(markerBytes, length);
    MarkerPatternLength(markerBytes, length);
    var padded := PadToByte(pattern);
    var aligned := PackBits(padded);
    assert AlignedMarker(markerBytes, length) == Some(aligned);
    BitsOfPack(padded);
    assert MarkerPattern(aligned, length) == pattern;
    MarkerByteAbsent(data, aligned, length);
  }

  lemma ByteHoldsPatternOccurs(data: seq<byte>, markerBytes: seq<byte>, length: nat, j: nat)
    requires 1 <= length <= 8 && |markerBytes| == 1 && j < |data|
    ensures data[j] == markerBytes[0] ==> Occurs(BitsOf(data), MarkerPattern(markerBytes, length))
  {
    if data[j] == markerBytes[0] {
      ByteHoldsPattern(data, markerBytes, length, j);
      MarkerPatternLength(markerBytes, length);
      OccursAt(BitsOf(data), MarkerPattern(markerBytes, length), 8 * j);
    }
  }

  lemma MarkerPatternLength(markerBytes: seq<byte>, length: nat)
    requires length <= 8 * |markerBytes|
    ensures |MarkerPattern(markerBytes, length)| == length
  {
  }

  lemma OccursAt(bits: seq<Bit>, p: seq<Bit>, i: nat)
    requires i + |p| <= |bits| && bits[i..i + |p|] == p
    ensures Occurs(bits, p)
  {
    assert Window(bits, i, |p|) == p;
  }

  lemma ByteHoldsPattern(data: seq<byte>, markerBytes: seq<byte>, length: nat, j: nat)
    requires 1 <= length <= 8 && |markerBytes| == 1
    requires j < |data| && data[j] == markerBytes[0]
    ensures 8 * j + length <= |BitsOf(data)|
    ensures BitsOf(data)[8 * j..8 * j + length] == MarkerPattern(markerBytes, length)
  {
    var bits := BitsOf(data);
    var k := 8 * j;
    BitsOfByteAt(data, j);
    BitsOfSingle(markerBytes);
    SliceOfSlice(bits, k, length, 8);
    var block := bits[k..k + 8];
    assert block == BitsOf(markerBytes);
    assert MarkerPattern(markerBytes, length) == block[..length];
  }

  lemma BitsOfSingle(markerBytes: seq<byte>)
    requires |markerBytes| == 1
    ensures BitsOf(markerBytes) == ByteBits(markerBytes[0])
  {
    assert BitsOf(markerBytes) == ByteBits(markerBytes[0]) + BitsOf([]);
  }

  lemma SliceOfSlice<T>(s: seq<T>, k: nat, m: nat, n: nat)
    requires m <= n && k + n <= |s|
    ensures s[k..k + m] == s[k..k + n][..m]
  {
  }
}

=== FILE: package.dfy ===
/** Packages in the compressed stream (`_create_package`,
    `_create_end_package`, `_calculate_package_overhead` and
    `_validate_marker_position`). A package is the aligned marker, a type
    byte, the original length and the payload length as variable-length
    integers, and the payload; the end package is the marker and type 0. */
module Packages {
  import opened Common
  import opened Varints
  import opened Codecs

  /** `_create_package`. */
  function Package(aligned: seq<byte>, packageType: byte, data: seq<byte>, originalLength: nat): (r: seq<byte>)
    ensures |r| == |aligned| + 1 + VarintSize(originalLength) + VarintSize(|data|) + |data|
  {
    aligned + [packageType] + Varint(originalLength) + Varint(|data|) + data
  }

  /** `_create_end_package`. */
  function EndPackage(aligned: seq<byte>): (r: seq<byte>)
    ensures |r| == |aligned| + 1 && r[|aligned|] == EndType
  {
    aligned + [EndType]
  }

  /** `_calculate_package_overhead`: the marker, the type byte, and the size
      class of the original length charged twice, once for each length field. */
  function PackageOverhead(alignedLength: nat, originalLength: nat): (r: nat)
    ensures alignedLength + 3 <= r <= alignedLength + 9
  {
    var lengthField := if originalLength < 128 then 1
                       else if originalLength < 16384 then 2
                       else if originalLength < 2097152 then 3
                       else 4;
    alignedLength + 1 + lengthField + lengthField
  }

  /** The overhead estimate is exact when the payload length falls in the
      same size class as the original length, and never too small when the
      payload is no longer than the original. */
  lemma PackageWithinOverhead(aligned: seq<byte>, packageType: byte, data: seq<byte>, originalLength: nat)
    requires |data| <= originalLength
    ensures |Package(aligned, packageType, data, originalLength)| <= PackageOverhead(|aligned|, originalLength) + |data|
    ensures VarintSize(|data|) == VarintSize(originalLength) ==>
              |Package(aligned, packageType, data, originalLength)| == PackageOverhead(|aligned|, originalLength) + |data|
  {
    VarintSizeMonotone(|data|, originalLength);
  }

  /** The policy of `_process_chunk`: a package is kept only when the
      compressed data plus the overhead estimate is smaller than the chunk,
      so a kept package is strictly shorter than the chunk it replaces. */
  lemma KeptPackageIsShorter(aligned: seq<byte>, packageType: byte, compressed: seq<byte>, chunk: seq<byte>)
    requires |compressed| + PackageOverhead(|aligned|, |chunk|) < |chunk|
    ensures |Package(aligned, packageType, compressed, |chunk|)| < |chunk|
  {
    PackageWithinOverhead(aligned, packageType, compressed, |chunk|);
  }

  /** `_validate_marker_position`: there is a byte after the marker and it
      is the end type or a package type. The marker bytes themselves are not
      compared. */
  function ValidateMarkerPosition(aligned: seq<byte>, data: seq<byte>, pos: nat): (r: bool)
    ensures r ==> pos + |aligned| < |data|
  {
    if pos + |aligned| >= |data| then false
    else
      var packageType := data[pos + |aligned|];
      packageType == EndType || IsPackageType(packageType)
  }

  /** Every package the compressor writes with a method id, and the end
      package, pass the marker-position check wherever they sit in a stream. */
  lemma PackagesValidate(aligned: seq<byte>, packageType: byte, data: seq<byte>, originalLength: nat,
                         before: seq<byte>, after: seq<byte>)
    requires IsPackageType(packageType)
    ensures ValidateMarkerPosition(aligned, before + Package(aligned, packageType, data, originalLength) + after, |before|)
    ensures ValidateMarkerPosition(aligned, before + EndPackage(aligned) + after, |before|)
  {
    var s := before + Package(aligned, packageType, data, originalLength) + after;
    assert s[|before| + |aligned|] == packageType;
    var e := before + EndPackage(aligned) + after;
    assert e[|before| + |aligned|] == EndType;
  }

  /** The position check rejects a marker with no byte after it, and a
      byte after the marker that is neither 0 nor a method id 1..11 or 255;
      it accepts every other position. */
  lemma ValidateMarkerPositionExactly(aligned: seq<byte>, data: seq<byte>, pos: nat)
    ensures pos + |aligned| >= |data| ==> !ValidateMarkerPosition(aligned, data, pos)
    ensures pos + |aligned| < |data| && 11 < data[pos + |aligned|] < 255 ==> !ValidateMarkerPosition(aligned, data, pos)
    ensures pos + |aligned| < |data| && (data[pos + |aligned|] <= 11 || data[pos + |aligned|] == 255) ==>
              ValidateMarkerPosition(aligned, data, pos)
  {
  }
}

=== FILE: prediction.dfy ===
/** The ranking of `_predict_best_methods`: a score per method id from the
    entropy and the three chunk scores, a bonus for the methods known to
    decompress well, a penalty for ZStandard and Brotli when the registered
    codec is not the compatible variant, then the available ids sorted by
    score (highest first, ties in id order, as Python's stable sort over
    the score dictionary leaves them), the first few kept and
    NoCompression appended. */
module Prediction {
  import opened Common
  import opened Codecs

  /** Above this entropy the data is taken as incompressible. */
  const EntropyCutoff: real := 7.8

  /** The score of method `id` before the availability adjustments. */
  function BaseScore(id: byte, entropy: real, repetition: real, variation: real, text: real): (r: real)
    ensures 0.0 <= entropy <= 8.0 && 0.0 <= repetition <= 1.0 && 0.0 <= variation <= 1.0 && 0.0 <= text <= 1.0 ==>
              -8.0 <= r <= 12.0
  {
    if id == 1 then 10.0 * repetition - entropy * 1.0
    else if id == 2 then 8.0 * text + 4.0 * repetition - entropy * 0.8
    else if id == 3 then 10.0 - entropy * 1.2
    else if id == 4 then 10.0 * variation - entropy * 0.7
    else if id == 5 then 7.0 - entropy * 0.8 + text * 3.0
    else if id == 6 then 7.5 * text - entropy * 0.6
    else if id == 7 then 6.0 - entropy * 0.6 + repetition * 2.0
    else if id == 8 then 6.0 - entropy * 0.7 + text * 2.0 + repetition * 2.0
    else if id == 9 then 5.0 - entropy * 0.6 + repetition * 1.5
    else if id == 10 then 7.0 * text - entropy * 0.5
    else 5.0 - entropy * 0.6 + (1.0 - text) * 3.0
  }

  /** The ids that get the safety bonus: RLE, Dictionary, Huffman, Delta and
      BZIP2. */
  predicate SafeMethod(id: byte)
  {
    id == 1 || id == 2 || id == 3 || id == 4 || id == 6
  }

  /** ZStandard or Brotli registered without the compatible variant. */
  predicate Penalised(registry: Registry, id: byte)
  {
    (id == 8 || id == 10) && id in registry && !registry[id].compatible
  }

  /** The adjusted score of an available method: above the base score
      exactly for the safe methods, below it exactly for the penalised
      ones (no method is both). */
  function MethodScore(registry: Registry, id: byte, entropy: real, repetition: real, variation: real, text: real): (r: real)
    ensures r > BaseScore(id, entropy, repetition, variation, text) <==> SafeMethod(id)
    ensures r < BaseScore(id, entropy, repetition, variation, text) <==> Penalised(registry, id)
    ensures r == BaseScore(id, entropy, repetition, variation, text) <==> !SafeMethod(id) && !Penalised(registry, id)
  {
    BaseScore(id, entropy, repetition, variation, text)
      + (if SafeMethod(id) then 2.0 else 0.0)
      - (if Penalised(registry, id) then 3.0 else 0.0)
  }

  /** The scores as one function of the id. */
  function Scorer(registry: Registry, entropy: real, repetition: real, variation: real, text: real): byte -> real
  {
    (id: byte) => MethodScore(registry, id, entropy, repetition, variation, text)
  }

  /** a comes before b: a higher score, or the same score and a smaller id. */
  predicate Before(score: byte -> real, a: byte, b: byte)
  {
    score(a) > score(b) || (score(a) == score(b) && a < b)
  }

  /** Every id comes before every later one. */
  predicate Ranked(l: seq<byte>, score: byte -> real)
  {
    forall i, j :: 0 <= i < j < |l| ==> Before(score, l[i], l[j])
  }

  /** The scored ids that are available, from `from` up to 11, in id order:
      the keys of the filtered score dictionary. */
  function Candidates(registry: Registry, from: nat): (r: seq<byte>)
    requires 1 <= from
    ensures from <= 12 ==> |r| <= 12 - from
    decreases 12 - from
  {
    if from > 11 then []
    else (if from in registry then [from as byte] else []) + Candidates(registry, from + 1)
  }

  /** The candidates are exactly the available ids from `from` to 11, in
      increasing order. */
  lemma {:induction false} CandidatesFacts(registry: Registry, from: nat)
    requires 1 <= from
    ensures forall t: byte :: t in Candidates(registry, from) <==> from <= t <= 11 && t in registry
    ensures forall i :: 0 <= i < |Candidates(registry, from)| ==> from <= Candidates(registry, from)[i]
    ensures forall i, j :: 0 <= i < j < |Candidates(registry, from)| ==>
              Candidates(registry, from)[i] < Candidates(registry, from)[j]
    decreases 12 - from
  {
    if from <= 11 {
      CandidatesFacts(registry, from + 1);
    }
  }

  /** Inserts x in front of the first id whose score is not higher. */
  function Insert(x: byte, l: seq<byte>, score: byte -> real): seq<byte>
  {
    if l == [] || score(x) >= score(l[0]) then [x] + l
    else [l[0]] + Insert(x, l[1..], score)
  }

  /** `sorted(..., key=score, reverse=True)` as an insertion sort. The
      ranking is a permutation of the ids: sorting loses and adds none. */
  function Rank(ids: seq<byte>, score: byte -> real): (r: seq<byte>)
    ensures multiset(r) == multiset(ids)
  {
    if ids == [] then []
    else
      InsertPermutes(ids[0], Rank(ids[1..], score), score);
      assert ids == [ids[0]] + ids[1..];
      Insert(ids[0], Rank(ids[1..], score), score)
  }

  lemma {:induction false} InsertPermutes(x: byte, l: seq<byte>, score: byte -> real)
    ensures multiset(Insert(x, l, score)) == multiset(l) + multiset{x}
  {
    if l != [] && score(x) < score(l[0]) {
      InsertPermutes(x, l[1..], score);
      assert l == [l[0]] + l[1..];
    }
  }

  /** `_predict_best_methods` once the metrics are known: [255] above the
      entropy cut-off, else the best `maxMethods` available ids and 255. */
  function Predict(registry: Registry, entropy: real, repetition: real, variation: real, text: real, maxMethods: nat): (r: seq<byte>)
    ensures |r| >= 1 && r[|r| - 1] == NoCompressionId
    ensures entropy > EntropyCutoff ==> r == [NoCompressionId]
    ensures |r| <= maxMethods + 1
  {
    if entropy > EntropyCutoff then [NoCompressionId]
    else
      Top(Ranking(registry, entropy, repetition, variation, text), maxMethods) + [NoCompressionId]
  }

  /** `sorted_methods[:max_methods]`: the first k ids, or all of them
      when there are fewer. */
  function Top(ranked: seq<byte>, k: nat): (r: seq<byte>)
    ensures |r| == Min(k, |ranked|) && r <= ranked
  {
    if k < |ranked| then ranked[..k] else ranked
  }

  /** The available scored ids, highest score first. */
  function Ranking(registry: Registry, entropy: real, repetition: real, variation: real, text: real): seq<byte>
  {
    Rank(Candidates(registry, 1), Scorer(registry, entropy, repetition, variation, text))
  }

  /** Inserting an id smaller than every id of a ranked list keeps it ranked. */
  lemma {:induction false} InsertRanked(x: byte, l: seq<byte>, score: byte -> real)
    requires Ranked(l, score)
    requires forall i :: 0 <= i < |l| ==> x < l[i]
    ensures Ranked(Insert(x, l, score), score)
  {
    if l == [] {
    } else if score(x) >= score(l[0]) {
      forall j | 0 <= j < |l| ensures Before(score, x, l[j]) {
        assert j == 0 || Before(score, l[0], l[j]);
      }
      PrependRanked(x, l, score);
    } else {
      var tail := l[1..];
      InsertRanked(x, tail, score);
      HeadBeforeInsert(x, l, score);
      PrependRanked(l[0], Insert(x, tail, score), score);
    }
  }

  /** The head of a ranked list whose score is higher than x's comes
      before everything in the insertion of x into the rest. */
  lemma HeadBeforeInsert(x: byte, l: seq<byte>, score: byte -> real)
    requires Ranked(l, score) && l != [] && score(x) < score(l[0])
    ensures forall k :: 0 <= k < |Insert(x, l[1..], score)| ==> Before(score, l[0], Insert(x, l[1..], score)[k])
  {
    var tail := l[1..];
    var ins := Insert(x, tail, score);
    InsertPermutes(x, tail, score);
    forall k | 0 <= k < |ins| ensures Before(score, l[0], ins[k]) {
      assert ins[k] in multiset(ins);
      if ins[k] != x {
        assert ins[k] in multiset(tail);
        var m :| 0 <= m < |tail| && tail[m] == ins[k];
        assert l[m + 1] == ins[k];
      }
    }
  }

  /** An id that comes before every id of a ranked list can be put in
      front of it. */
  lemma PrependRanked(y: byte, l: seq<byte>, score: byte -> real)
    requires Ranked(l, score)
    requires forall k :: 0 <= k < |l| ==> Before(score, y, l[k])
    ensures Ranked([y] + l, score)
  {
    var r := [y] + l;
    forall i, j | 0 <= i < j < |r| ensures Before(score, r[i], r[j]) {
      if i > 0 {
        assert r[i] == l[i - 1] && r[j] == l[j - 1];
      }
    }
  }

  /** Ranking ids given in increasing order sorts them by score, highest
      first, ties in id order. */
  lemma {:induction false} RankRanked(ids: seq<byte>, score: byte -> real)
    requires forall i, j :: 0 <= i < j < |ids| ==> ids[i] < ids[j]
    ensures Ranked(Rank(ids, score), score)
  {
    if ids != [] {
      var tail := ids[1..];
      RankRanked(tail, score);
      var ranked := Rank(tail, score);
      forall i | 0 <= i < |ranked| ensures ids[0] < ranked[i] {
        assert ranked[i] in multiset(tail);
        var m :| 0 <= m < |tail| && tail[m] == ranked[i];
        assert ids[m + 1] == ranked[i];
      }
      InsertRanked(ids[0], ranked, score);
    }
  }

  /** What `_predict_best_methods` promises below the cut-off: NoCompression
      last; before it min(maxMethods, number of available scored ids)
      distinct available ids from 1..11, highest score first; and every
      available id left out scores no higher than any id chosen. */
  lemma PredictChoice(registry: Registry, entropy: real, repetition: real, variation: real, text: real, maxMethods: nat)
    requires entropy <= EntropyCutoff
    ensures var r := Predict(registry, entropy, repetition, variation, text, maxMethods);
            var chosen := r[..|r| - 1];
            var score := Scorer(registry, entropy, repetition, variation, text);
            |chosen| == Min(maxMethods, |Candidates(registry, 1)|) &&
            (forall i :: 0 <= i < |chosen| ==> chosen[i] in registry && 1 <= chosen[i] <= 11) &&
            Ranked(chosen, score) &&
            (forall t: byte :: t in registry && 1 <= t <= 11 && t !in chosen ==>
               forall i :: 0 <= i < |chosen| ==> Before(score, chosen[i], t))
  {
    var r := Predict(registry, entropy, repetition, variation, text, maxMethods);
    var chosen := Top(Ranking(registry, entropy, repetition, variation, text), maxMethods);
    assert r[..|r| - 1] == chosen;
    TopChoice(registry, entropy, repetition, variation, text, maxMethods);
  }

  lemma TopChoice(registry: Registry, entropy: real, repetition: real, variation: real, text: real, maxMethods: nat)
    ensures var chosen := Top(Ranking(registry, entropy, repetition, variation, text), maxMethods);
            var score := Scorer(registry, entropy, repetition, variation, text);
            |chosen| == Min(maxMethods, |Candidates(registry, 1)|) &&
            (forall i :: 0 <= i < |chosen| ==> chosen[i] in registry && 1 <= chosen[i] <= 11) &&
            Ranked(chosen, score) &&
            (forall t: byte :: t in registry && 1 <= t <= 11 && t !in chosen ==>
               forall i :: 0 <= i < |chosen| ==> Before(score, chosen[i], t))
  {
    TopMembers(registry, entropy, repetition, variation, text, maxMethods);
    TopRanked(registry, entropy, repetition, variation, text, maxMethods);
  }

  lemma TopMembers(registry: Registry, entropy: real, repetition: real, variation: real, text: real, maxMethods: nat)
    ensures var chosen := Top(Ranking(registry, entropy, repetition, variation, text), maxMethods);
            |chosen| == Min(maxMethods, |Candidates(registry, 1)|) &&
            (forall i :: 0 <= i < |chosen| ==> chosen[i] in registry && 1 <= chosen[i] <= 11)
  {
    var ranked := Ranking(registry, entropy, repetition, variation, text);
    var k := Min(maxMethods, |ranked|);
    assert Top(ranked, maxMethods) == ranked[..k];
    RankingMembers(registry, entropy, repetition, variation, text);
    forall i | 0 <= i < k ensures ranked[i] in registry && 1 <= ranked[i] <= 11 {
      assert ranked[i] in ranked;
    }
  }

  lemma TopRanked(registry: Registry, entropy: real, repetition: real, variation: real, text: real, maxMethods: nat)
    ensures var chosen := Top(Ranking(registry, entropy, repetition, variation, text), maxMethods);
            var score := Scorer(registry, entropy, repetition, variation, text);
            Ranked(chosen, score) &&
            (forall t: byte :: t in registry && 1 <= t <= 11 && t !in chosen ==>
               forall i :: 0 <= i < |chosen| ==> Before(score, chosen[i], t))
  {
    var score := Scorer(registry, entropy, repetition, variation, text);
    var ranked := Ranking(registry, entropy, repetition, variation, text);
    RankingRanked(registry, entropy, repetition, variation, text);
    RankingMembers(registry, entropy, repetition, variation, text);
    RankedTop(ranked, maxMethods, score);
  }

  /** The ranking is sorted by score, ties in id order. */
  lemma RankingRanked(registry: Registry, entropy: real, repetition: real, variation: real, text: real)
    ensures Ranked(Ranking(registry, entropy, repetition, variation, text), Scorer(registry, entropy, repetition, variation, text))
  {
    CandidatesFacts(registry, 1);
    RankRanked(Candidates(registry, 1), Scorer(registry, entropy, repetition, variation, text));
  }

  /** The ranking holds each available id from 1 to 11 once. */
  lemma RankingMembers(registry: Registry, entropy: real, repetition: real, variation: real, text: real)
    ensures var ranked := Ranking(registry, entropy, repetition, variation, text);
            |ranked| == |Candidates(registry, 1)| &&
            forall t: byte :: t in ranked <==> t in registry && 1 <= t <= 11
  {
    var score := Scorer(registry, entropy, repetition, variation, text);
    var ids := Candidates(registry, 1);
    var ranked := Ranking(registry, entropy, repetition, variation, text);
    CandidatesFacts(registry, 1);
    assert |multiset(ranked)| == |multiset(ids)|;
    forall t: byte ensures t in ranked <==> t in ids {
      assert t in ranked <==> t in multiset(ranked);
      assert t in ids <==> t in multiset(ids);
    }
  }

  /** The first k ids of a ranked list are ranked, and come before every
      id of the list left out. */
  lemma RankedTop(ranked: seq<byte>, k: nat, score: byte -> real)
    requires Ranked(ranked, score)
    ensures Ranked(Top(ranked, k), score)
    ensures forall t :: t in ranked && t !in Top(ranked, k) ==>
              forall i :: 0 <= i < |Top(ranked, k)| ==> Before(score, Top(ranked, k)[i], t)
  {
    if k < |ranked| {
      var top := ranked[..k];
      assert forall i :: 0 <= i < k ==> top[i] == ranked[i];
      forall t | t in ranked && t !in top
        ensures forall i :: 0 <= i < k ==> Before(score, top[i], t)
      {
        var m :| 0 <= m < |ranked| && ranked[m] == t;
        assert k <= m;
      }
    }
  }
}

=== FILE: scanner.dfy ===
/** What `_adaptive_decompress` computes, as functions: the marker search,
    the per-package step, the whole scan and the final fit to the original
    size. The loop itself is `AdaptiveCompressor.AdaptiveDecompress`. */
module Scanner {
  import opened Common
  import opened Varints
  import opened Codecs

  /** The aligned marker occurs at offset i of s. */
  predicate MarkerAt(s: seq<byte>, aligned: seq<byte>, i: nat)
  {
    i + |aligned| <= |s| && s[i..i + |aligned|] == aligned
  }

  /** The first offset at or after `from` where the marker occurs. */
  function NextMarker(s: seq<byte>, aligned: seq<byte>, from: nat): (r: Option<nat>)
    ensures r.Some? ==> from <= r.value && MarkerAt(s, aligned, r.value)
    decreases |s| - from
  {
    if from + |aligned| > |s| then None
    else if s[from..from + |aligned|] == aligned then Some(from)
    else NextMarker(s, aligned, from + 1)
  }

  /** The marker search inside `_adaptive_decompress`: -1 when there is no
      occurrence at or after pos. */
  method SearchMarker(s: seq<byte>, aligned: seq<byte>, pos: nat) returns (markerPos: int)
    ensures markerPos == -1 <==> NextMarker(s, aligned, pos).None?
    ensures markerPos != -1 ==> NextMarker(s, aligned, pos) == Some(markerPos)
  {
    markerPos := -1;
    var i := pos;
    while i < |s| - |aligned| + 1
      invariant pos <= i
      invariant NextMarker(s, aligned, i) == NextMarker(s, aligned, pos)
      decreases |s| - i
    {
      if s[i..i + |aligned|] == aligned {
        markerPos := i;
        return;
      }
      i := i + 1;
    }
  }

  /** What a package of a known type appends: the codec's output, or
      `original_length` zero bytes when the id has no codec or the codec
      raises. */
  function Unpack(registry: Registry, packageType: byte, payload: seq<byte>, originalLength: nat): (r: seq<byte>)
    ensures packageType in registry && registry[packageType].decompress(payload, originalLength).Some? ==>
              r == registry[packageType].decompress(payload, originalLength).value
    ensures packageType !in registry || registry[packageType].decompress(payload, originalLength).None? ==>
              |r| == originalLength && forall i :: 0 <= i < |r| ==> r[i] == 0
  {
    if packageType in registry then
      match registry[packageType].decompress(payload, originalLength)
      case Some(out) => out
      case None => Zeros(originalLength)
    else Zeros(originalLength)
  }

  /** The output of the scan loop from `pos` on, before the fit to the
      original size: the bytes up to the next marker are copied as they
      are, then `AfterMarker` reads what follows the marker. */
  function Scan(registry: Registry, aligned: seq<byte>, s: seq<byte>, pos: nat): (r: seq<byte>)
    requires |aligned| >= 1
    decreases |s| - pos, 1
  {
    if pos >= |s| then []
    else match NextMarker(s, aligned, pos)
      case None => s[pos..]
      case Some(m) => s[pos..m] + AfterMarker(registry, aligned, s, m + |aligned|)
  }

  /** The scan loop just after a marker that ends at `p`. Type 0 ends the
      scan, an unknown type puts the marker and the type byte back as data,
      a package type is read by `ReadPackage`; a marker at the very end
      ends the scan. */
  function AfterMarker(registry: Registry, aligned: seq<byte>, s: seq<byte>, p: nat): (r: seq<byte>)
    requires |aligned| >= 1
    decreases |s| - p, 0
  {
    if p >= |s| then []
    else if s[p] == EndType then []
    else if !IsPackageType(s[p]) then aligned + [s[p]] + Scan(registry, aligned, s, p + 1)
    else ReadPackage(registry, aligned, s, s[p], p + 1)
  }

  /** A package from its original length field on: the two lengths, then
      the payload handed to the codec. Missing bytes end the scan; a payload
      longer than what is left appends the rest as it is. */
  function ReadPackage(registry: Registry, aligned: seq<byte>, s: seq<byte>, packageType: byte, p: nat): (r: seq<byte>)
    requires |aligned| >= 1
    decreases |s| - p, 0
  {
    if p >= |s| then []
    else
      var originalLength := ReadVarint(s, p).0;
      var q := ReadVarint(s, p).1;
      if q >= |s| then []
      else
        var dataLength := ReadVarint(s, q).0;
        var r := ReadVarint(s, q).1;
        if r + dataLength > |s| then s[r..]
        else
          Unpack(registry, packageType, s[r..r + dataLength], originalLength) +
          Scan(registry, aligned, s, r + dataLength)
  }

  /** The end of `_adaptive_decompress`: zero-pad or truncate to the size
      the header records. */
  function Fit(out: seq<byte>, size: nat): (r: seq<byte>)
    ensures |r| == size
    ensures r[..Min(size, |out|)] == out[..Min(size, |out|)]
    ensures forall i :: |out| <= i < size ==> r[i] == 0
  {
    if |out| < size then out + Zeros(size - |out|) else out[..size]
  }

  /** Output of the right length is left as it is. */
  lemma FitExact(out: seq<byte>)
    ensures Fit(out, |out|) == out
  {
    assert out[..|out|] == out;
  }

  /** NextMarker finds the first occurrence: none lies between `from` and
      the offset it returns, and there is none at all when it returns None. */
  lemma {:induction false} NextMarkerIsFirst(s: seq<byte>, aligned: seq<byte>, from: nat)
    ensures NextMarker(s, aligned, from).Some? ==>
              forall j :: from <= j < NextMarker(s, aligned, from).value ==> !MarkerAt(s, aligned, j)
    ensures NextMarker(s, aligned, from).None? ==> forall j :: from <= j ==> !MarkerAt(s, aligned, j)
    decreases |s| - from
  {
    if from + |aligned| <= |s| && s[from..from + |aligned|] != aligned {
      NextMarkerIsFirst(s, aligned, from + 1);
    }
  }

  /** Bytes that hold no marker occurrence are copied through unchanged:
      scanning from `from` is the bytes up to `to` followed by scanning from
      `to`. */
  lemma {:induction false} ScanSkip(registry: Registry, aligned: seq<byte>, s: seq<byte>, from: nat, to: nat)
    requires |aligned| >= 1 && from <= to < |s|
    requires forall j :: from <= j < to ==> !MarkerAt(s, aligned, j)
    ensures Scan(registry, aligned, s, from) == s[from..to] + Scan(registry, aligned, s, to)
  {
    NextMarkerSkip(s, aligned, from, to);
    ScanUnfold(registry, aligned, s, from);
    ScanUnfold(registry, aligned, s, to);
    var next := NextMarker(s, aligned, to);
    if next.None? {
      SplitAt(s, from, to, |s|, []);
    } else {
      SplitAt(s, from, to, next.value, AfterMarker(registry, aligned, s, next.value + |aligned|));
    }
  }

  lemma SplitAt(s: seq<byte>, from: nat, to: nat, m: nat, rest: seq<byte>)
    requires from <= to <= m <= |s|
    ensures s[from..m] + rest == s[from..to] + (s[to..m] + rest)
  {
    assert s[from..m] == s[from..to] + s[to..m];
  }

  lemma ScanUnfold(registry: Registry, aligned: seq<byte>, s: seq<byte>, pos: nat)
    requires |aligned| >= 1 && pos < |s|
    ensures NextMarker(s, aligned, pos).None? ==> Scan(registry, aligned, s, pos) == s[pos..]
    ensures NextMarker(s, aligned, pos).Some? ==>
              var m := NextMarker(s, aligned, pos).value;
              Scan(registry, aligned, s, pos) == s[pos..m] + AfterMarker(registry, aligned, s, m + |aligned|)
  {
  }

  lemma {:induction false} NextMarkerSkip(s: seq<byte>, aligned: seq<byte>, from: nat, to: nat)
    requires from <= to
    requires forall j :: from <= j < to ==> !MarkerAt(s, aligned, j)
    ensures NextMarker(s, aligned, from) == NextMarker(s, aligned, to)
  {
    if from < to {
      NextMarkerSkip(s, aligned, from, to - 1);
      if to - 1 + |aligned| <= |s| {
        assert !MarkerAt(s, aligned, to - 1);
      }
    }
  }

  /** At a marker the scan goes straight to what follows it. */
  lemma ScanAtMarker(registry: Registry, aligned: seq<byte>, s: seq<byte>, from: nat)
    requires |aligned| >= 1 && MarkerAt(s, aligned, from)
    ensures Scan(registry, aligned, s, from) == AfterMarker(registry, aligned, s, from + |aligned|)
  {
    assert NextMarker(s, aligned, from) == Some(from);
    ScanUnfold(registry, aligned, s, from);
    assert s[from..from] == [];
  }

  /** A package whose lengths and payload are all present is handed to the
      codec, and the scan goes on after the payload. */
  lemma ReadPackageStep(registry: Registry, aligned: seq<byte>, s: seq<byte>, p: nat,
                        originalLength: nat, q: nat, r: nat, end: nat)
    requires |aligned| >= 1 && p < |s| && IsPackageType(s[p])
    requires ReadVarint(s, p + 1) == (originalLength, q) && q < |s|
    requires r <= end <= |s| && ReadVarint(s, q) == (end - r, r)
    ensures AfterMarker(registry, aligned, s, p) ==
            Unpack(registry, s[p], s[r..end], originalLength) + Scan(registry, aligned, s, end)
  {
    AfterMarkerPackage(registry, aligned, s, p);
    ReadPackageWhole(registry, aligned, s, s[p], p + 1, originalLength, q, r, end);
  }

  lemma AfterMarkerPackage(registry: Registry, aligned: seq<byte>, s: seq<byte>, p: nat)
    requires |aligned| >= 1 && p < |s| && IsPackageType(s[p])
    ensures AfterMarker(registry, aligned, s, p) == ReadPackage(registry, aligned, s, s[p], p + 1)
  {
  }

  /** After a marker: the end of the data or type 0 ends the scan, and a
      byte that is no package type means the marker was data after all, so
      the marker and that byte are put back and the scan goes on after
      them. */
  lemma AfterMarkerCases(registry: Registry, aligned: seq<byte>, s: seq<byte>, p: nat)
    requires |aligned| >= 1
    ensures p >= |s| || s[p] == EndType ==> AfterMarker(registry, aligned, s, p) == []
    ensures p < |s| && s[p] != EndType && !IsPackageType(s[p]) ==>
              AfterMarker(registry, aligned, s, p) == aligned + [s[p]] + Scan(registry, aligned, s, p + 1)
  {
  }

  /** A package cut short: without both length fields the scan ends, and a
      payload running past the end leaves the rest of the data as it is. */
  lemma ReadPackageShort(registry: Registry, aligned: seq<byte>, s: seq<byte>, packageType: byte, p: nat)
    requires |aligned| >= 1
    ensures p >= |s| || ReadVarint(s, p).1 >= |s| ==> ReadPackage(registry, aligned, s, packageType, p) == []
    ensures p < |s| && ReadVarint(s, p).1 < |s| &&
            ReadVarint(s, ReadVarint(s, p).1).1 + ReadVarint(s, ReadVarint(s, p).1).0 > |s| ==>
              ReadPackage(registry, aligned, s, packageType, p) == s[ReadVarint(s, ReadVarint(s, p).1).1..]
  {
  }

  lemma ReadPackageWhole(registry: Registry, aligned: seq<byte>, s: seq<byte>, packageType: byte, p: nat,
                         originalLength: nat, q: nat, r: nat, end: nat)
    requires |aligned| >= 1 && p <= q < |s|
    requires ReadVarint(s, p) == (originalLength, q)
    requires r <= end <= |s| && ReadVarint(s, q) == (end - r, r)
    ensures ReadPackage(registry, aligned, s, packageType, p) ==
            Unpack(registry, packageType, s[r..end], originalLength) + Scan(registry, aligned, s, end)
  {
  }
}

=== FILE: stream.dfy ===
/** The compressed body as `_adaptive_compress` lays it out: one piece per
    chunk, either the chunk's own bytes (a chunk left raw) or a package
    holding its compressed form, followed by the end package; and the proof
    that the scan of `_adaptive_decompress` gives the chunks back. */
module Streams {
  import opened Common
  import opened Varints
  import opened Codecs
  import opened Packages
  import opened Scanner

  /** What `_process_chunk` returns for one chunk: the chunk itself, or the
      method id and the compressed payload that replace it. */
  datatype Piece = Raw(chunk: seq<byte>) | Packed(methodId: byte, chunk: seq<byte>, payload: seq<byte>)

  /** The bytes a piece contributes to the stream. */
  function EncodePiece(aligned: seq<byte>, p: Piece): (r: seq<byte>)
    ensures p.Raw? ==> r == p.chunk
    ensures p.Packed? ==> |r| > |aligned| && r[..|aligned|] == aligned && r[|aligned|] == p.methodId
  {
    match p
    case Raw(chunk) => chunk
    case Packed(methodId, chunk, payload) => Package(aligned, methodId, payload, |chunk|)
  }

  /** The pieces one after the other. */
  function EncodePieces(aligned: seq<byte>, ps: seq<Piece>): seq<byte>
  {
    if ps == [] then [] else EncodePiece(aligned, ps[0]) + EncodePieces(aligned, ps[1..])
  }

  /** The compressed body: the pieces and then the end package. */
  function EncodeStream(aligned: seq<byte>, ps: seq<Piece>): (r: seq<byte>)
    ensures |r| == |EncodePieces(aligned, ps)| + |aligned| + 1
  {
    EncodePieces(aligned, ps) + EndPackage(aligned)
  }

  /** The data the pieces stand for: their chunks one after the other. */
  function Chunks(ps: seq<Piece>): seq<byte>
  {
    if ps == [] then [] else ps[0].chunk + Chunks(ps[1..])
  }

  /** A package the scanner can undo: a known package type with a codec,
      both lengths within what a four-byte varint carries, and a payload the
      codec turns back into the chunk. */
  predicate ValidPiece(registry: Registry, p: Piece)
  {
    p.Packed? ==>
      IsPackageType(p.methodId) && p.methodId in registry &&
      |p.chunk| < VarintLimit && |p.payload| < VarintLimit &&
      registry[p.methodId].decompress(p.payload, |p.chunk|) == Some(p.chunk)
  }


  /** The stream `s` holds the pieces `ps` from offset `from` on, and the
      end package after them. */
  predicate Holds(aligned: seq<byte>, s: seq<byte>, from: nat, ps: seq<Piece>)
  {
    from <= |s| && s[from..] == EncodeStream(aligned, ps)
  }

  /** No marker occurrence starts inside a raw chunk of `s`, whose pieces
      `ps` start at offset `from`. The scanner cannot tell such an
      occurrence from a real package, so the round trip needs this. */
  ghost predicate GenuineMarkers(aligned: seq<byte>, s: seq<byte>, from: nat, ps: seq<Piece>)
    decreases |ps|
  {
    ps != [] ==>
      (ps[0].Raw? ==> forall j :: from <= j < from + |ps[0].chunk| ==> !MarkerAt(s, aligned, j)) &&
      GenuineMarkers(aligned, s, from + |EncodePiece(aligned, ps[0])|, ps[1..])
  }

  /** The first piece sits at `from` and the others follow it. */
  lemma HoldsCons(aligned: seq<byte>, s: seq<byte>, from: nat, ps: seq<Piece>)
    requires Holds(aligned, s, from, ps) && ps != []
    ensures from + |EncodePiece(aligned, ps[0])| < |s|
    ensures s[from..from + |EncodePiece(aligned, ps[0])|] == EncodePiece(aligned, ps[0])
    ensures Holds(aligned, s, from + |EncodePiece(aligned, ps[0])|, ps[1..])
  {
    var head, rest := EncodePiece(aligned, ps[0]), EncodeStream(aligned, ps[1..]);
    var to := from + |head|;
    assert EncodeStream(aligned, ps) == head + rest;
    assert s[from..to] == s[from..][..|head|];
    assert s[to..] == s[from..][|head|..];
  }

  /** The end package sits at `from`. */
  lemma HoldsEnd(aligned: seq<byte>, s: seq<byte>, from: nat)
    requires |aligned| >= 1 && Holds(aligned, s, from, [])
    ensures MarkerAt(s, aligned, from) && s[from + |aligned|] == EndType
  {
    assert s[from..] == aligned + [EndType];
    assert s[from..from + |aligned|] == s[from..][..|aligned|];
    assert s[from + |aligned|] == s[from..][|aligned|];
  }

  /** Where the fields of a package sit in a stream that holds it at `at`:
      the marker, the type byte at `p`, the original length read from
      `p + 1` up to `q`, the payload length read from `q` up to `r`, and the
      payload from `r` on. */
  lemma PackageFields(s: seq<byte>, at: nat, end: nat, aligned: seq<byte>, methodId: byte, payload: seq<byte>, originalLength: nat)
    returns (p: nat, q: nat, r: nat)
    requires at <= end <= |s| && s[at..end] == Package(aligned, methodId, payload, originalLength)
    requires originalLength < VarintLimit && |payload| < VarintLimit
    ensures MarkerAt(s, aligned, at) && p == at + |aligned| && s[p] == methodId
    ensures ReadVarint(s, p + 1) == (originalLength, q) && q < r
    ensures ReadVarint(s, q) == (|payload|, r)
    ensures r + |payload| == end && s[r..end] == payload
  {
    var v1, v2 := Varint(originalLength), Varint(|payload|);
    p := at + |aligned|;
    q := p + 1 + |v1|;
    r := q + |v2|;
    SplitSlice(s, at, r, end, aligned + [methodId] + v1 + v2, payload);
    SplitSlice(s, at, q, r, aligned + [methodId] + v1, v2);
    SplitSlice(s, at, p + 1, q, aligned + [methodId], v1);
    SplitSlice(s, at, p, p + 1, aligned, [methodId]);
    assert s[p] == s[p..p + 1][0];
    ReadVarintSlice(s, p + 1, q, originalLength);
    SmallModulo(originalLength);
    ReadVarintSlice(s, q, r, |payload|);
    SmallModulo(|payload|);
  }

  /** A slice holding `a + b` holds `a` and then `b`. */
  lemma SplitSlice(s: seq<byte>, i: nat, k: nat, j: nat, a: seq<byte>, b: seq<byte>)
    requires i <= j <= |s| && k == i + |a| && s[i..j] == a + b
    ensures k <= j && s[i..k] == a && s[k..j] == b
  {
    assert s[i..k] == s[i..j][..|a|];
    assert s[k..j] == s[i..j][|a|..];
  }

  lemma SmallModulo(v: nat)
    requires v < VarintLimit
    ensures v % VarintLimit == v
  {
  }

  /** The scan of `_adaptive_decompress`, started at the first piece of a
      stream written by `_adaptive_compress`, gives back the chunks, when
      every package is one the scanner can undo and no marker occurrence
      starts inside a raw chunk. */
  lemma {:induction false} ScanPieces(registry: Registry, aligned: seq<byte>, s: seq<byte>, from: nat, ps: seq<Piece>)
    requires |aligned| >= 1 && Holds(aligned, s, from, ps)
    requires forall i :: 0 <= i < |ps| ==> ValidPiece(registry, ps[i])
    requires GenuineMarkers(aligned, s, from, ps)
    ensures Scan(registry, aligned, s, from) == Chunks(ps)
    decreases |ps|
  {
    if ps == [] {
      HoldsEnd(aligned, s, from);
      ScanAtMarker(registry, aligned, s, from);
      assert AfterMarker(registry, aligned, s, from + |aligned|) == [];
    } else {
      var piece, rest := ps[0], ps[1..];
      var to := from + |EncodePiece(aligned, piece)|;
      HoldsCons(aligned, s, from, ps);
      assert forall i :: 0 <= i < |rest| ==> ValidPiece(registry, rest[i]) by {
        forall i | 0 <= i < |rest| ensures ValidPiece(registry, rest[i]) {
          assert rest[i] == ps[i + 1];
        }
      }
      ScanPieces(registry, aligned, s, to, rest);
      if piece.Raw? {
        ScanSkip(registry, aligned, s, from, to);
      } else {
        ScanPackage(registry, aligned, s, from, to, piece);
      }
    }
  }

  /** A package lying between `from` and `to` is unpacked back into its
      chunk, and the scan goes on at `to`. */
  lemma ScanPackage(registry: Registry, aligned: seq<byte>, s: seq<byte>, from: nat, to: nat, piece: Piece)
    requires |aligned| >= 1 && piece.Packed? && ValidPiece(registry, piece)
    requires from <= to <= |s| && s[from..to] == EncodePiece(aligned, piece)
    ensures Scan(registry, aligned, s, from) == piece.chunk + Scan(registry, aligned, s, to)
  {
    var p, q, r := PackageFields(s, from, to, aligned, piece.methodId, piece.payload, |piece.chunk|);
    ScanAtMarker(registry, aligned, s, from);
    ReadPackageStep(registry, aligned, s, p, |piece.chunk|, q, r, to);
    assert Unpack(registry, s[p], s[r..to], |piece.chunk|) == piece.chunk;
  }

  /** For a one-byte marker it is enough that the marker byte is absent
      from every raw chunk. */
  lemma {:induction false} OneByteGenuine(aligned: seq<byte>, s: seq<byte>, from: nat, ps: seq<Piece>)
    requires |aligned| == 1 && Holds(aligned, s, from, ps)
    requires forall i :: 0 <= i < |ps| && ps[i].Raw? ==> aligned[0] !in ps[i].chunk
    ensures GenuineMarkers(aligned, s, from, ps)
    decreases |ps|
  {
    if ps != [] {
      var piece, rest := ps[0], ps[1..];
      var to := from + |EncodePiece(aligned, piece)|;
      HoldsCons(aligned, s, from, ps);
      forall i | 0 <= i < |rest| && rest[i].Raw?
        ensures aligned[0] !in rest[i].chunk
      {
        assert rest[i] == ps[i + 1];
      }
      OneByteGenuine(aligned, s, to, rest);
      if piece.Raw? {
        NoMarkerInChunk(aligned, s, from, to, piece.chunk);
      }
      GenuineCons(aligned, s, from, to, ps);
    }
  }

  /** The condition for a stream of pieces, from the one for its first
      piece and the one for the rest. */
  lemma GenuineCons(aligned: seq<byte>, s: seq<byte>, from: nat, to: nat, ps: seq<Piece>)
    requires ps != [] && to == from + |EncodePiece(aligned, ps[0])|
    requires ps[0].Raw? ==> forall j :: from <= j < to ==> !MarkerAt(s, aligned, j)
    requires GenuineMarkers(aligned, s, to, ps[1..])
    ensures GenuineMarkers(aligned, s, from, ps)
  {
  }

  /** A one-byte marker occurs nowhere in a slice that lacks its byte. */
  lemma NoMarkerInChunk(aligned: seq<byte>, s: seq<byte>, from: nat, to: nat, chunk: seq<byte>)
    requires |aligned| == 1 && from <= to <= |s| && s[from..to] == chunk && aligned[0] !in chunk
    ensures forall j :: from <= j < to ==> !MarkerAt(s, aligned, j)
  {
    forall j | from <= j < to ensures !MarkerAt(s, aligned, j) {
      assert s[j] == chunk[j - from];
      assert s[j..j + 1][0] == s[j];
    }
  }

  /** The round trip of the compressed body, for a one-byte marker: the
      scan from the start, cut to the length of the data, is the data. */
  lemma StreamRoundTrip(registry: Registry, aligned: seq<byte>, ps: seq<Piece>)
    requires |aligned| == 1
    requires forall i :: 0 <= i < |ps| ==> ValidPiece(registry, ps[i])
    requires forall i :: 0 <= i < |ps| && ps[i].Raw? ==> aligned[0] !in ps[i].chunk
    ensures Fit(Scan(registry, aligned, EncodeStream(aligned, ps), 0), |Chunks(ps)|) == Chunks(ps)
  {
    var s := EncodeStream(aligned, ps);
    assert s[0..] == s;
    OneByteGenuine(aligned, s, 0, ps);
    ScanPieces(registry, aligned, s, 0, ps);
    FitExact(Chunks(ps));
  }
}

=== FILE: varint.dfy ===
/** The variable-length integers of the package format
    (`_encode_variable_length` and `_read_variable_length_int`): seven value
    bits per byte, least significant group first, the top bit of a byte set
    when another byte follows, and at most four bytes. */
module Varints {
  import opened Common

  /** The largest value four groups of seven bits can carry, plus one. */
  const VarintLimit: nat := 0x1000_0000

  /** `_encode_variable_length`: one, two, three or four bytes by the size of
      the value. `value & 0x7F` is `value % 128` and `value >> 7` is
      `value / 128`; the fourth byte keeps only bits 21..27, so values of
      2^28 and above lose their high bits. */
  function Varint(v: nat): (r: seq<byte>)
    ensures 1 <= |r| <= 4 && |r| == VarintSize(v)
    ensures r[|r| - 1] < 128
    ensures forall i :: 0 <= i < |r| - 1 ==> r[i] >= 128
  {
    if v < 128 then
      [v]
    else if v < 16384 then
      [128 + v % 128, (v / 128) % 128]
    else if v < 2097152 then
      [128 + v % 128, 128 + (v / 128) % 128, (v / 16384) % 128]
    else
      [128 + v % 128, 128 + (v / 128) % 128, 128 + (v / 16384) % 128, (v / 2097152) % 128]
  }

  /** `_encode_variable_length`, which appends to the caller's buffer. */
  method EncodeVariableLength(buffer: seq<byte>, value: nat) returns (out: seq<byte>)
    ensures out == buffer + Varint(value)
  {
    out := buffer;
    if value < 128 {
      out := out + [value];
    } else if value < 16384 {
      out := out + [128 + value % 128];
      out := out + [(value / 128) % 128];
    } else if value < 2097152 {
      out := out + [128 + value % 128];
      out := out + [128 + (value / 128) % 128];
      out := out + [(value / 16384) % 128];
    } else {
      out := out + [128 + value % 128];
      out := out + [128 + (value / 128) % 128];
      out := out + [128 + (value / 16384) % 128];
      out := out + [(value / 2097152) % 128];
    }
  }

  /** The size class `_calculate_package_overhead` charges for a length. */
  function VarintSize(v: nat): (r: nat)
    ensures 1 <= r <= 4
  {
    if v < 128 then 1 else if v < 16384 then 2 else if v < 2097152 then 3 else 4
  }

  /** A smaller value never needs more bytes. */
  lemma VarintSizeMonotone(a: nat, b: nat)
    requires a <= b
    ensures VarintSize(a) <= VarintSize(b)
  {
  }

  /** `_read_variable_length_int`: reads at `pos` and returns the value and
      the position after it. At the end of the data it reads 0 and does not
      move; a first byte below 128 is the whole value; otherwise the
      continuation bytes follow. */
  function ReadVarint(s: seq<byte>, pos: nat): (r: (nat, nat))
    ensures pos < |s| ==> pos < r.1 <= pos + 4 && r.1 <= |s|
    ensures pos >= |s| ==> r == (0, pos)
  {
    if pos >= |s| then (0, pos)
    else if s[pos] < 128 then (s[pos], pos + 1)
    else Continuation(s, pos + 1, s[pos] - 128, 128, 1)
  }

  /** The continuation loop: `value` so far, `weight` = 2^shift, `count`
      bytes read. It stops at the end of the data, after four bytes, or
      after a byte whose top bit is clear. The source joins groups with `|`;
      the groups occupy disjoint bits (`value < weight`), so this is `+`. */
  function Continuation(s: seq<byte>, pos: nat, value: nat, weight: nat, count: nat): (r: (nat, nat))
    requires 1 <= count <= 4
    ensures pos <= r.1 <= pos + 4 - count
    ensures pos <= |s| ==> r.1 <= |s|
    decreases 4 - count
  {
    if pos >= |s| || count >= 4 then (value, pos)
    else if s[pos] < 128 then (AddGroup(value, s[pos], weight), pos + 1)
    else Continuation(s, pos + 1, AddGroup(value, s[pos] - 128, weight), weight * 128, count + 1)
  }

  /** `value | (group << shift)` for a group below the bits already read,
      with `weight` = 2^shift. */
  function AddGroup(value: nat, group: nat, weight: nat): nat
  {
    value + group * weight
  }

  /** The reading loop of `_read_variable_length_int`. */
  method ReadVariableLengthInt(s: seq<byte>, position: nat) returns (value: nat, newPosition: nat)
    ensures (value, newPosition) == ReadVarint(s, position)
  {
    if position >= |s| {
      return 0, position;
    }
    var first: nat := s[position];
    var pos := position + 1;
    if first < 128 {
      return first, pos;
    }
    value := first - 128;
    var weight: nat := 128;
    var count := 1;
    while pos < |s| && count < 4
      invariant 1 <= count <= 4
      invariant Continuation(s, pos, value, weight, count) == ReadVarint(s, position)
      decreases 4 - count
    {
      ContinuationStep(s, pos, value, weight, count);
      var b: nat := s[pos];
      if b < 128 {
        value, pos, count := AddGroup(value, b, weight), pos + 1, count + 1;
        break;
      }
      value, weight, pos, count := AddGroup(value, b - 128, weight), weight * 128, pos + 1, count + 1;
    }
    newPosition := pos;
  }

  lemma ContinuationStep(s: seq<byte>, pos: nat, value: nat, weight: nat, count: nat)
    requires 1 <= count < 4 && pos < |s|
    ensures s[pos] < 128 ==> Continuation(s, pos, value, weight, count) == (AddGroup(value, s[pos], weight), pos + 1)
    ensures s[pos] >= 128 ==>
              Continuation(s, pos, value, weight, count) ==
              Continuation(s, pos + 1, AddGroup(value, s[pos] - 128, weight), weight * 128, count + 1)
  {
  }

  /** Reading back an encoded value, wherever it sits and whatever follows
      it, gives the value modulo 2^28 and the position just after it. */
  lemma VarintRoundTrip(prefix: seq<byte>, v: nat, rest: seq<byte>)
    ensures ReadVarint(prefix + Varint(v) + rest, |prefix|) == (v % VarintLimit, |prefix| + |Varint(v)|)
  {
    var s := prefix + Varint(v) + rest;
    assert forall i :: 0 <= i < |Varint(v)| ==> s[|prefix| + i] == Varint(v)[i];
    ReadVarintAt(s, |prefix|, v);
  }

  /** The same, for an encoding found byte by byte at `pos`. */
  lemma ReadVarintAt(s: seq<byte>, pos: nat, v: nat)
    requires pos + |Varint(v)| <= |s|
    requires forall i :: 0 <= i < |Varint(v)| ==> s[pos + i] == Varint(v)[i]
    ensures ReadVarint(s, pos) == (v % VarintLimit, pos + |Varint(v)|)
  {
    var e := Varint(v);
    assert s[pos] == e[0];
    if v < 128 {
    } else if v < 16384 {
      assert s[pos + 1] == e[1];
      ReadTwoGroups(s, pos, e[0] - 128, e[1]);
      TwoGroups(v);
    } else if v < 2097152 {
      assert s[pos + 1] == e[1] && s[pos + 2] == e[2];
      ReadThreeGroups(s, pos, e[0] - 128, e[1] - 128, e[2]);
      ThreeGroups(v);
    } else {
      assert s[pos + 1] == e[1] && s[pos + 2] == e[2] && s[pos + 3] == e[3];
      ReadFourGroups(s, pos, e[0] - 128, e[1] - 128, e[2] - 128, e[3]);
      FourGroups(v);
    }
  }

  /** Two, three or four groups with the continuation bit set on all but the
      last are read as one number, least significant group first. */
  lemma ReadTwoGroups(s: seq<byte>, pos: nat, g0: nat, g1: nat)
    requires pos + 2 <= |s| && g0 < 128 && g1 < 128
    requires s[pos] == 128 + g0 && s[pos + 1] == g1
    ensures ReadVarint(s, pos) == (g0 + g1 * 128, pos + 2)
  {
    ContinuationStep(s, pos + 1, g0, 128, 1);
  }

  lemma ReadThreeGroups(s: seq<byte>, pos: nat, g0: nat, g1: nat, g2: nat)
    requires pos + 3 <= |s| && g0 < 128 && g1 < 128 && g2 < 128
    requires s[pos] == 128 + g0 && s[pos + 1] == 128 + g1 && s[pos + 2] == g2
    ensures ReadVarint(s, pos) == (g0 + g1 * 128 + g2 * 16384, pos + 3)
  {
    ContinuationStep(s, pos + 1, g0, 128, 1);
    ContinuationStep(s, pos + 2, g0 + g1 * 128, 16384, 2);
  }

  lemma ReadFourGroups(s: seq<byte>, pos: nat, g0: nat, g1: nat, g2: nat, g3: nat)
    requires pos + 4 <= |s| && g0 < 128 && g1 < 128 && g2 < 128 && g3 < 128
    requires s[pos] == 128 + g0 && s[pos + 1] == 128 + g1 && s[pos + 2] == 128 + g2 && s[pos + 3] == g3
    ensures ReadVarint(s, pos) == (g0 + g1 * 128 + g2 * 16384 + g3 * 2097152, pos + 4)
  {
    ContinuationStep(s, pos + 1, g0, 128, 1);
    ContinuationStep(s, pos + 2, g0 + g1 * 128, 16384, 2);
    ContinuationStep(s, pos + 3, g0 + g1 * 128 + g2 * 16384, 2097152, 3);
  }

  /** The same, for an encoding found as the slice from `pos` to `end`. */
  lemma ReadVarintSlice(s: seq<byte>, pos: nat, end: nat, v: nat)
    requires pos <= end <= |s| && s[pos..end] == Varint(v)
    ensures ReadVarint(s, pos) == (v % VarintLimit, end)
  {
    forall i | 0 <= i < |Varint(v)| ensures s[pos + i] == Varint(v)[i] {
      assert s[pos + i] == s[pos..end][i];
    }
    ReadVarintAt(s, pos, v);
  }

  lemma TwoGroups(v: nat)
    requires 128 <= v < 16384
    ensures v % 128 + (v / 128) % 128 * 128 == v % VarintLimit
  {
  }

  lemma ThreeGroups(v: nat)
    requires 16384 <= v < 2097152
    ensures v % 128 + (v / 128) % 128 * 128 + (v / 16384) % 128 * 16384 == v % VarintLimit
  {
    var a, b := v % 128, v / 128;
    assert v == a + 128 * b;
    assert b / 128 == v / 16384;
    assert b % 128 + 128 * (b / 128) == b;
  }

  lemma FourGroups(v: nat)
    requires 2097152 <= v
    ensures v % 128 + (v / 128) % 128 * 128 + (v / 16384) % 128 * 16384 + (v / 2097152) % 128 * 2097152
            == v % VarintLimit
  {
    var a, b := v % 128, v / 128;
    var c := b / 128;
    var d := c / 128;
    assert v == a + 128 * b;
    assert b == b % 128 + 128 * c;
    assert c == c % 128 + 128 * d;
    assert d == d % 128 + 128 * (d / 128);
    assert c == v / 16384;
    assert d == v / 2097152;
    var m := v % VarintLimit;
    assert v == m + VarintLimit * (d / 128);
  }
}
